=== FILE: README.md ===
# gptokeyb, modelled in Dafny

gptokeyb turns SDL game-controller events into events on a virtual uinput device.

- **Config mode** (keyboard and mouse): every button, d-pad direction, stick direction and trigger sends the key bound to it in a mapping file. A held *hotkey* selects alternative `_hk` bindings, and a stick can instead drive the mouse pointer.
- **Xbox 360 mode**: the controller is passed through as a virtual gamepad.
- **Kill mode** (both modes): pressing start together with the hotkey ends the program.
- **Text input**: a preset text can be typed from start + d-pad left. Interactive entry picks characters from a table with the d-pad and is started with start + d-pad down.

The model has two layers.

- **Pure layer.** Every handler is a function on a `World`: the `GptokeybState` record, the text-input keyboard globals, the single SDL repeat-timer slot, the trace of events written to the device, and whether the program has exited. Each handler comes with a description of the events it writes and the state it leaves. The invariant `WorldOk` is kept by every handler. Lemmas state what the program promises its user.
- **Imperative layer.** `Runtime.Gptokeyb` holds the same state in fields and arrays, as the C++ globals do. Each of its methods is proved to leave exactly the state the corresponding pure function computes.

Modules:

- **Codes**: Linux input event codes.
- **Wrappers**: `Option`.
- **Structs**: `GptokeybConfig` and `GptokeybState`, and their defaults.
- **Events**: the event writers `emitKey`, `emitTextInputKey`, `emitMouseMotion`, `emitAxisMotion`, and the edge detection of `handleAnalogTrigger`.
- **Axis**: the deadzone, C's truncating division, and the trigger shift.
- **ConfigFile**: `readConfigFile` with `atoi`.
- **KeyboardSetup**: `keyboard.cpp` and the selection arithmetic.
- **Machine**: the world, the repeat slot, the text-input primitives, `processKeys`, the timer callbacks, and the main loop's mouse flush.
- **Owner**: the hold logic shared by the hotkey and start.
- **Buttons**: the config-mode button switch.
- **Combos**: the checks after a config-mode button event.
- **Interactive**: the button switch while entry is active.
- **Analog**: the config-mode axis handling.
- **Xbox**: the passthrough.
- **Dispatch**: `handleEvent` and event sequences.
- **Runtime**: the imperative program.

The model takes four things as parameters rather than defining them:

- **Modes.** The command-line and environment flags are a `Modes` record: xbox360, kill, pc kill, sudo kill, preset, interactive, no auto-capitals, extra symbols, Exult adjustment, hotkey override and its code, and the EmuELEC override.
- **Outside functions.** `char_to_keycode` (`resolve`), `std::tolower` and `std::toupper` are functions passed in with the configuration (`Env`). Their code is not part of this model. The one thing assumed of `resolve` (`ResolverOk`) is that the names "a", ")" and ">" do not resolve to the space key.
- **The mapping file.** It arrives as the sequence of `key = value` pairs that `parseConfigFile` returns.
- **SDL events.** They arrive as values of `InputEvent`.

## Model

| member | source | states |
|---|---|---|
| `Structs.AllControlsComplete` | src/structs.h:101-194 | every remappable control of the configuration record is one of the modelled controls |
| `Structs.DefaultPrimary` | src/structs.h:101-194 | every control starts bound to its default key, with no modifier and no repeat |
| `Structs.DefaultConfig` | src/structs.h:99-210 | the defaults: every binding and `_hk` binding at its default key, sticks not as mouse, deadzones 15000/15000/3000, mouse scale 512 and delay 16, repeat delay SDL's default and interval twice SDL's, no preset text |
| `Structs.InitialState` | src/structs.h:51-96 | the zero-initialised state: every flag clear, readings, motion, repeat key and timer id all 0 |
| `Events.KeyEvents` | src/gptokeyb.cpp:100-112 | emitKey: the key's event is present and synced; a modifier is pressed before the key and released after it; 2 or 4 events and nothing else |
| `Events.TextKeyEvents` | src/gptokeyb.cpp:114-126 | emitTextInputKey: exactly key down, sync, key up, sync; when upper case the same wrapped in left shift down/sync and up/sync, which is emitKey's press and release with left shift as the modifier |
| `Events.MouseEvents` | src/gptokeyb.cpp:276-288 | emitMouseMotion: exactly one relative event per non-zero axis, X before Y, then one sync; nothing at all for no motion |
| `Events.AxisEvents` | src/gptokeyb.cpp:270-274 | emitAxisMotion: the absolute value followed by a sync |
| `Events.LatchEvents` | src/gptokeyb.cpp:290-299 | handleAnalogTrigger's events: nothing exactly when the level is unchanged, a press on a rising edge, a release on a falling edge, always synced; on an edge exactly the key events of the new level |
| `Events.ModifierBracketsKey` | src/gptokeyb.cpp:100-112 | a press then a release with a modifier yields modifier down, key down, key up, modifier up |
| `Events.LatchRepeatedSampleSilent` | src/gptokeyb.cpp:290-299 | sampling a level equal to the latch writes nothing |
| `Axis.ApplyDeadzone` | src/gptokeyb.cpp:63-70 | a reading is kept exactly when its magnitude exceeds the deadzone, otherwise it is 0 |
| `Axis.DeadzoneIdempotent` | src/gptokeyb.cpp:63-70 | applying the deadzone twice is applying it once |
| `Axis.DeadzoneOdd` | src/gptokeyb.cpp:63-70 | the deadzone treats a reading and its negation alike |
| `Axis.TruncDiv` | src/gptokeyb.cpp:1033-1037 | C integer division: the quotient's magnitude is the floor of the magnitudes' quotient and its sign is the product of the signs |
| `Axis.TruncDivOdd` | src/gptokeyb.cpp:1033-1037 | the mouse motion for a stick pushed one way is the negation of the motion for the other way |
| `Axis.TruncDivNegative` | src/gptokeyb.cpp:1033-1037 | a small negative reading gives no motion (C truncation), unlike Euclidean division |
| `Axis.TriggerScale` | src/gptokeyb.cpp:981-990 | the 7-bit right shift: the floor of value/128, within 0..255 for trigger readings |
| `Axis.TriggerScaleEndpoints` | src/gptokeyb.cpp:982-985 | a full trigger maps to 255, a released one to 0 |
| `ConfigFile.ParseButtonKey` | src/config.cpp:84-319 | a button key names the control whose option key it is, or its `_hk` key; never a numeric setting |
| `ConfigFile.ParseDirectionKey` | src/config.cpp:320-471 | a d-pad or stick key names the control whose option key it is |
| `ConfigFile.ParseNumericKey` | src/config.cpp:472-486 | a numeric key names the setting whose option key it is |
| `ConfigFile.ParseKey` | src/config.cpp:83-487 | the classification of an option key is always the control, `_hk` control or setting spelled by that key |
| `ConfigFile.ParseKeyRecognisesFields` | src/config.cpp:472-486 | every numeric setting's key is recognised as that setting |
| `ConfigFile.ParseKeyRecognisesPrimary` | src/config.cpp:84-471 | every control's key is recognised as that control |
| `ConfigFile.ParseKeyRecognisesCombo` | src/config.cpp:132-307 | every `_hk` key is recognised as that control's combination |
| `ConfigFile.ParseKeyRecognisesControls` | src/config.cpp:84-471 | the two above together: the chain recognises every key the configuration has |
| `ConfigFile.SkipSpace` | src/config.cpp:473-485 | atoi's white-space skip: a suffix of the input not starting with white space |
| `ConfigFile.LeadingDigits` | src/config.cpp:473-485 | atoi's digit run: the longest prefix made of decimal digits |
| `ConfigFile.ShowNat` | src/config.cpp:473-485 | a reference printer for atoi: a non-empty string of digits |
| `ConfigFile.DigitsValueShowNat` | src/config.cpp:473-485 | the digits printed for a number read back as that number |
| `ConfigFile.AtoiNumeral` | src/config.cpp:473-485 | atoi reads a numeral as its value |
| `ConfigFile.AtoiNegativeNumeral` | src/config.cpp:473-485 | atoi reads a minus sign and a numeral as the negated value |
| `ConfigFile.AtoiShowInt` | src/config.cpp:473-485 | atoi reads back every integer printed in decimal |
| `ConfigFile.AtoiSkipsSpace` | src/config.cpp:473-485 | leading white space does not change atoi's result |
| `ConfigFile.AtoiNoNumber` | src/config.cpp:473-485 | a value with no sign or digit after its white space reads as 0 |
| `ConfigFile.ToUint32` | src/structs.h:206-207 | storing an int into a Uint32 keeps it modulo 2^32 |
| `ConfigFile.NegativeRepeatWraps` | src/config.cpp:482-485 | `repeat_delay = -1` stores 4294967295, not a rejection |
| `ConfigFile.ModifierFor` | src/config.cpp:87-92 | exactly `add_alt`, `add_ctrl` and `add_shift` select a modifier: left alt, ctrl or shift |
| `ConfigFile.UpdateBinding` | src/config.cpp:84-95 | `repeat` sets the repeat flag; a modifier value sets the modifier; any other value sets the key to what it resolves to |
| `ConfigFile.UpdateCombo` | src/config.cpp:132-141 | a modifier value sets the `_hk` modifier; any other value, `repeat` included, sets the `_hk` key |
| `ConfigFile.ApplyToControl` | src/config.cpp:368-383 | `mouse_movement_up` on a stick's up key only turns on that stick's mouse mode; any other control option replaces exactly that control's binding by its updated binding; no other binding and no `_hk` binding changes |
| `ConfigFile.ApplyToCombo` | src/config.cpp:132-141 | a `_hk` option replaces exactly that control's combination by its updated combination; no primary binding and no other combination changes |
| `ConfigFile.SetNumeric` | src/config.cpp:472-486 | a numeric option sets that one setting to atoi of the value (wrapped to Uint32 for the repeat timings) and changes nothing else: bindings, combinations, mouse modes, the preset and the other settings are kept |
| `ConfigFile.ApplyTarget` | src/config.cpp:83-487 | a recognised option changes only the binding it names: a control key goes to the control update, an `_hk` key to the combination update, a numeric key is the numeric update, an unknown key changes nothing |
| `ConfigFile.ApplyOption` | src/config.cpp:83-487 | an unknown key changes nothing; any option changes only the binding its key names |
| `ConfigFile.ApplyBindingOptionKeepsSettings` | src/config.cpp:84-471 | a binding option leaves every numeric setting alone |
| `ConfigFile.ApplyTargetMonotone` | src/config.cpp:84-471 | no option clears a repeat flag, a binding's or combination's modifier, or a stick's mouse mode |
| `ConfigFile.ApplyOptions` | src/config.cpp:83-487 | the options applied in file order keep the configuration complete |
| `ConfigFile.ApplyOptionsAppend` | src/config.cpp:83-487 | applying a + b is applying a and then b |
| `ConfigFile.ApplyOptionsUntargeted` | src/config.cpp:83-487 | options that do not name a control leave its binding as it was |
| `ConfigFile.KeyNameSetsKey` | src/config.cpp:93-95 | a key-name value on a control's key sets that control's key to what the name resolves to and keeps its repeat flag and modifier |
| `ConfigFile.RepeatOptionSetsFlag` | src/config.cpp:87-88 | `repeat` on a control's key sets that binding's repeat flag and keeps its key and modifier |
| `ConfigFile.ModifierOptionSetsModifier` | src/config.cpp:89-92 | `add_alt`, `add_ctrl` or `add_shift` on a control's key sets that binding's modifier and keeps its key and repeat flag |
| `ConfigFile.ComboModifierOptionSetsModifier` | src/config.cpp:132-139 | a modifier value on an `_hk` key sets that combination's modifier and keeps its key |
| `ConfigFile.ComboKeyNameSetsKey` | src/config.cpp:132-141 | any other value on an `_hk` key sets that combination's key to what the name resolves to and keeps its modifier |
| `ConfigFile.NumericOptionSetsField` | src/config.cpp:472-487 | a numeric option is exactly the update of its one setting |
| `ConfigFile.MouseMovementOptionSetsStick` | src/config.cpp:368-425 | `mouse_movement_up` on a stick's up key turns on that stick's mouse mode and changes nothing else |
| `ConfigFile.LastKeyNameWins` | src/config.cpp:83-487 | the last key-name option for a control decides its key |
| `ConfigFile.RepeatFlagMonotone` | src/config.cpp:85-86 | once set, a repeat flag stays set through any later options |
| `ConfigFile.ModifierMonotone` | src/config.cpp:84-141 | once a binding or `_hk` combination has a modifier, later options can replace it but never remove it |
| `ConfigFile.MouseModeMonotone` | src/config.cpp:369-370 | once a stick drives the mouse, no later option switches it back |
| `ConfigFile.ComboRepeatIsAKeyName` | src/config.cpp:132-141 | `repeat` on an `_hk` key is looked up as a key name |
| `ConfigFile.MouseMovementUpKeepsBinding` | src/config.cpp:368-371 | `mouse_movement_up` on a stick's up key turns on that stick's mouse mode and keeps its binding |
| `ConfigFile.MouseMovementElsewhereIsAKeyName` | src/config.cpp:384-395 | on any other key, `mouse_movement_up` is resolved as an ordinary key name |
| `KeyboardSetup.TableSizes` | src/keyboard.cpp:40-45 | the full table has 96 entries; the basic table has 69: 26 capitals, 26 letters, 10 digits and the basic symbols |
| `KeyboardSetup.ZeroKeyboard` | src/keyboard.cpp:40-48 | the zeroed globals form a well-formed keyboard with the cursor on a position |
| `KeyboardSetup.InitialSelections` | src/keyboard.cpp:51-62 | the first position starts on capital A, or on lower-case a with auto-capitals off; every other position on lower-case a |
| `KeyboardSetup.InitialSelectionsInRange` | src/keyboard.cpp:51-62 | every initial selection is a valid index for either table size |
| `KeyboardSetup.LoadedCharacterSet` | src/keyboard.cpp:64-260 | the basic entries hold the key codes of their names; the extra symbols do too when enabled, else they are untouched |
| `KeyboardSetup.LoadedShifts` | src/keyboard.cpp:64-260 | the shift flags of the loaded entries, the extra symbols' only when enabled |
| `KeyboardSetup.LoadTables` | src/keyboard.cpp:64-261 | loading keeps the keyboard well formed, uses 96 keys with extra symbols and keeps the selections and cursor |
| `KeyboardSetup.InitialiseCharacterSet` | src/keyboard.cpp:64-263 | setup: the table size, then every selection at its initial value, with the keyboard well formed |
| `KeyboardSetup.CharacterTableLayout` | src/keyboard.cpp:66-203 | capitals are the letters with shift, then the letters without shift, then the digits; entry 62 is the unshifted space |
| `KeyboardSetup.LoadedCaseVariants` | src/keyboard.cpp:66-169 | a capital and its lower-case letter type the same key, the capital with shift |
| `KeyboardSetup.WithSelection` | src/gptokeyb.cpp:143-174 | a new selection at the cursor, every other position unchanged |
| `KeyboardSetup.NextSelection` | src/gptokeyb.cpp:143-158 | forward by 1 or 13 and wrap below maxKeys; without a wrap, skip the space at the first position |
| `KeyboardSetup.PrevSelection` | src/gptokeyb.cpp:160-174 | back by 1 or 13 and wrap above 0; without a wrap, skip the space at the first position |
| `KeyboardSetup.SelectionIsModular` | src/gptokeyb.cpp:143-174 | away from the first position both moves are addition modulo the table size |
| `KeyboardSetup.NextPrevInverse` | src/gptokeyb.cpp:143-174 | away from the first position a step back undoes a step forward, and the other way round |
| `KeyboardSetup.FirstPositionSkipsSpace` | src/gptokeyb.cpp:151-156 | a move without a wrap never selects the space at the first position |
| `KeyboardSetup.WrapLandsOnSpace` | src/gptokeyb.cpp:166-172 | a 13-key jump back from G that wraps selects the space, even at the first position |
| `KeyboardSetup.AdvanceStoreIndexAsWritten` | src/gptokeyb.cpp:387-391 | as written, d-pad right after a space stores a capital at the position after the cursor |
| `KeyboardSetup.AdvanceStoreOutOfBounds` | src/gptokeyb.cpp:387-388 | at the last position that store index is 20, the array's length |
| `KeyboardSetup.Advance` | src/gptokeyb.cpp:385-391 | the cursor moves one position; a capital is stored at the new position after a space only when the position exists; the tables are untouched |
| `Machine.InitialWorld` | src/gptokeyb.cpp:1330-1337 | at start every flag is clear and nothing is written; the keyboard has its initial selections when interactive entry is enabled, and 96 keys with extra symbols |
| `Machine.Emit` | src/gptokeyb.cpp:86-98 | writing events appends them to the trace and changes nothing else |
| `Machine.SetRepeat` | src/gptokeyb.cpp:259-269 | a press fills the repeat slot and arms a fresh timer; a release removes the slot's timer and empties the slot; nothing is written |
| `Machine.GuardedRepeat` | src/gptokeyb.cpp:592-594 | a press of a repeat binding into an empty slot arms the key repeat for that key; the release of the slot's own key stops it; the slot changes in no other way |
| `Machine.KeyWithRepeat` | src/gptokeyb.cpp:641-645 | a binding's key events are written, then the guarded repeat update |
| `Machine.TapKey` | src/gptokeyb.cpp:762-770 | a held-back press is replayed as press and release; if the slot held that key it is emptied and its timer removed, otherwise the state and timers are untouched; no flag but the slot changes and the keyboard is kept |
| `Machine.ReleaseStopsOwnRepeat` | src/gptokeyb.cpp:641-645 | releasing the repeating key empties the slot and disarms the timer |
| `Machine.PressKeepsOtherRepeat` | src/gptokeyb.cpp:641-645 | a press while another key repeats leaves the slot and timer alone |
| `Machine.SelectedCharEvents` | src/gptokeyb.cpp:128-131 | the selected table entry's key is typed through emitTextInputKey, with shift exactly when its table entry says so |
| `Machine.AddChar` | src/gptokeyb.cpp:128-131 | addTextInputCharacter types the selected key and changes nothing else |
| `Machine.NextTextInputKey` | src/gptokeyb.cpp:143-158 | one backspace, the next selection at the cursor, then that key typed |
| `Machine.PrevTextInputKey` | src/gptokeyb.cpp:160-174 | one backspace, the previous selection at the cursor, then that key typed |
| `Machine.NextThenPrevRestores` | src/gptokeyb.cpp:143-174 | away from the first position, next then previous restores the keyboard and retypes the original character |
| `Machine.InitialiseCharacters` | src/keyboard.cpp:51-62 | every selection back to its initial value, nothing else changed |
| `Machine.CString` | src/gptokeyb.cpp:205-212 | the text of a C string: the prefix before the first NUL |
| `Machine.CharKeyAsWritten` | src/gptokeyb.cpp:211-245 | processKeys' key for a character as written: space, `_`, `-`, `.` and `,` fixed (both `-` and `_` shifted); any other character is the key of its lower-case form, shifted when it equals its upper-case form |
| `Machine.HyphenTypedAsUnderscore` | src/gptokeyb.cpp:234-236 | as written, `-` is typed exactly as `_` |
| `Machine.CharKey` | src/gptokeyb.cpp:211-245 | the corrected key: `-` unshifted, every other character as written |
| `Machine.HyphenAndUnderscoreDistinct` | src/gptokeyb.cpp:231-236 | corrected, `-` and `_` share the minus key and differ in shift |
| `Machine.CharTyping` | src/gptokeyb.cpp:245 | one character is typed through emitTextInputKey with the key and shift `CharKey` gives: 4 or 8 synced events |
| `Machine.PresetEvents` | src/gptokeyb.cpp:211-247 | typing a text writes only synced key events, and nothing exactly for the empty text |
| `Machine.PresetEventsLast` | src/gptokeyb.cpp:211-247 | the last character of a text is typed last |
| `Machine.PresetEventsAppend` | src/gptokeyb.cpp:211-247 | typing a + b is typing a then b |
| `Machine.PresetEventsLength` | src/gptokeyb.cpp:211-247 | a text of n characters is between 4n and 8n events |
| `Machine.ProcessKeys` | src/gptokeyb.cpp:203-248 | processKeys types the preset text up to its NUL, with `-` unshifted as corrected, and changes nothing but the trace |
| `Machine.DigitTypedWithShift` | src/gptokeyb.cpp:217-223 | a digit that is its own upper-case form is typed with shift |
| `Machine.Rearm` | src/gptokeyb.cpp:176-189 | a callback's return of 0 cancels its timer; any other value rearms it with that interval |
| `Machine.Tick` | src/gptokeyb.cpp:176-189 | a firing keeps the invariant. The key callback releases and presses the slot key again and rearms. The input callback moves the selection back for up and forward for down and rearms, and cancels itself for any other key |
| `Machine.KeyRepeatTickOrder` | src/gptokeyb.cpp:250-258 | a key repeat is exactly release, sync, press, sync |
| `Machine.FlushMouse` | src/gptokeyb.cpp:1365 | after each batch the held motion is written and nothing else changes |
| `Machine.FlushMouseRepeats` | src/gptokeyb.cpp:1359-1366 | the motion is not cleared, so the next pass writes it again |
| `Owner.Step` | src/gptokeyb.cpp:748-777 | hold logic: an owner's press is held back (Arm); its release after a combination is swallowed; its release without one replays the key (Tap); other events forward the binding |
| `Owner.OwnerPressArms` | src/gptokeyb.cpp:756-758 | an owner's press is always held back |
| `Owner.OwnerTapReplays` | src/gptokeyb.cpp:762-770 | press then release with no combination in between replays the key once |
| `Owner.OwnerComboReleaseSilent` | src/gptokeyb.cpp:759-761 | a combination during the hold silences the owner's release and resets the hold |
| `Owner.OwnerReleaseDisarms` | src/gptokeyb.cpp:749-761 | after an owner release the role is no longer held |
| `Owner.NonOwnerSwallowedWhileHeld` | src/gptokeyb.cpp:756-758 | a non-owner event on the controller holding the role is held back too |
| `Owner.NonOwnerPressForwards` | src/gptokeyb.cpp:771-776 | a non-owner press elsewhere forwards its binding |
| `Buttons.HotkeyOwnership` | src/gptokeyb.cpp:748-830 | without an override guide is the hotkey, and back too outside EmuELEC; with an override only the named button can be the hotkey: l3 exactly when named, back when named only in kill mode outside EmuELEC, guide when named only in kill mode or a text-input mode |
| `Buttons.WithHotkeyHold` | src/structs.h:66-67 | the hotkey flags of the state replaced by a hold |
| `Buttons.WithStartHold` | src/structs.h:68-69 | the start flags of the state replaced by a hold |
| `Buttons.Perform` | src/gptokeyb.cpp:756-777 | the hold's decision applied: nothing, a tap, or the binding with its repeat update |
| `Buttons.HotkeyButton` | src/gptokeyb.cpp:748-779 | l3, guide and back: the hotkey flags follow the hold logic, and the result is exactly the binding's action applied to the world with the new hotkey flags |
| `Buttons.StartButton` | src/gptokeyb.cpp:856-884 | start: the start flags follow the hold logic, the hotkey flags are untouched, and the result is exactly the start binding's action applied to the world with the new start flags |
| `Buttons.FaceButton` | src/gptokeyb.cpp:628-647 | with the hotkey held a button sends its `_hk` binding and records the combination; a recorded combination is released through `_hk`; otherwise exactly the primary binding with the guarded repeat |
| `Buttons.FaceButtonComboFrame` | src/gptokeyb.cpp:628-647 | on the `_hk` paths the world is exactly the `_hk` key events plus the combination record: no repeat slot, timer or other flag changes |
| `Buttons.ComboReleasedAfterHotkey` | src/gptokeyb.cpp:637-639 | a combination pressed under the hotkey and released after it sends its `_hk` press and release and never the primary key |
| `Buttons.PrimaryStuckUnderHotkey` | src/gptokeyb.cpp:629-645 | a primary press followed by the hotkey sends its release through `_hk`, so the primary key stays down |
| `Buttons.HoldsIgnoreRepeat` | src/structs.h:94-95 | the repeat slot is not part of either hold |
| `Buttons.RecordTrigger` | src/gptokeyb.cpp:586-588 | with its mode on, a d-pad trigger sets exactly its own level and controller fields and nothing else; with its mode off nothing changes |
| `Buttons.TriggerDpad` | src/gptokeyb.cpp:585-596 | the trigger is recorded first; a press with start held then does nothing more; otherwise exactly the direction's binding with the guarded repeat |
| `Buttons.ConfigButton` | src/gptokeyb.cpp:583-884 | the config-mode switch keeps the invariant, never kills and never starts entry; unknown buttons change nothing |
| `Buttons.ConfigButtonRoutesFace` | src/gptokeyb.cpp:628-747 | a, b, x, y and the shoulders go to the combination handler with their own control |
| `Buttons.ConfigButtonRoutesHold` | src/gptokeyb.cpp:748-884 | l3, guide and back go to the hold handler with their ownership rule; start goes to its own handler |
| `Buttons.ConfigButtonRoutesDpad` | src/gptokeyb.cpp:585-627 | d-pad left, right and down go to the trigger handler with the mode that makes them triggers |
| `Buttons.ConfigButtonRoutesPlain` | src/gptokeyb.cpp:597-602 | d-pad up, and the right stick (lines 780-786), send their binding with the guarded repeat |
| `Combos.Kill` | src/gptokeyb.cpp:885-914 | Alt+F4 in PC kill mode; the timer removed in config mode; the program exits when start and the hotkey came from one controller |
| `Combos.PresetCombo` | src/gptokeyb.cpp:915-928 | the preset text is typed when start and d-pad left came from one controller and a text is set; the state is exactly the consumed one, timers and keyboard are untouched |
| `Combos.ConfirmCombo` | src/gptokeyb.cpp:929-942 | Enter is pressed and released when start and d-pad right came from one controller; the state is exactly the consumed one |
| `Combos.ConsumePresetTrigger` | src/gptokeyb.cpp:915-928 | the start press and the d-pad left trigger are consumed and the combination marked triggered; no other field changes |
| `Combos.ConsumeConfirmTrigger` | src/gptokeyb.cpp:929-942 | the start press and the d-pad right trigger are consumed and the combination marked triggered; no other field changes |
| `Combos.Activate` | src/gptokeyb.cpp:946-953 | entry starts: active, timer removed, cursor at the first position and its character typed |
| `Combos.ConsumeInteractiveTrigger` | src/gptokeyb.cpp:954-957 | the start press and the d-pad down trigger are consumed and the combination marked triggered; no other field changes |
| `Combos.InteractiveCombo` | src/gptokeyb.cpp:943-958 | entry is activated when start and d-pad down came from one controller; the state is exactly the consumed one with entry active or as before |
| `Combos.AfterButton` | src/gptokeyb.cpp:885-958 | the checks in order: kill when held, else the preset, confirm or interactive combination whose trigger and start are held, else nothing; entry is started only by the interactive combination; only the kill combination exits |
| `Interactive.ActiveSelectable` | src/gptokeyb.cpp:370 | while entry is active the cursor is on a position of the text |
| `Interactive.CursorBack` | src/gptokeyb.cpp:372-383 | d-pad left deletes and steps back; at the first position it deletes twice, resets every selection and retypes the first character |
| `Interactive.Confirm` | src/gptokeyb.cpp:438-445 | A and start send Enter and end entry |
| `Interactive.CursorForward` | src/gptokeyb.cpp:385-400 | d-pad right advances the cursor; within the text it types the new character, at the end it sends Enter and ends entry |
| `Interactive.CancelEvents` | src/gptokeyb.cpp:450-455 | n rounds of one or two backspaces, synced |
| `Interactive.CancelEventsAdd` | src/gptokeyb.cpp:450-455 | the rounds of a + b are those of a followed by those of b |
| `Interactive.Cancel` | src/gptokeyb.cpp:447-460 | l3 and back: a round for every position up to the cursor, selections reset, entry ended |
| `Interactive.Cycle` | src/gptokeyb.cpp:402-418 | d-pad up and down move the selection and arm the input-repeat timer at the repeat interval; a release stops it |
| `Interactive.Jump` | src/gptokeyb.cpp:420-436 | the shoulders jump 13 keys once and stop any repeat |
| `Interactive.CycleFramesState` | src/gptokeyb.cpp:402-418 | cycling changes no flag of the state but the repeat slot and its timer id |
| `Interactive.JumpFramesState` | src/gptokeyb.cpp:420-436 | a jump changes no flag of the state but emptying the repeat slot |
| `Interactive.InteractiveButton` | src/gptokeyb.cpp:371-471 | the switch while entry is active: A/start confirm, back/l3 cancel, d-pad right advances, d-pad left steps back, up/down cycle, the shoulders jump; releases of the other buttons and unhandled buttons change nothing; never kills |
| `Interactive.ForwardAtLimitConfirms` | src/gptokeyb.cpp:392-398 | d-pad right at the last position sends Enter and ends entry |
| `Interactive.ForwardTypesNext` | src/gptokeyb.cpp:390-393 | below the last position it types the next character and entry continues |
| `Interactive.CancelDeletesTypedText` | src/gptokeyb.cpp:450-455 | a cancel at position n writes n + 1 rounds of backspaces, doubled for a space under Exult |
| `Analog.UpdateReading` | src/gptokeyb.cpp:997-1029 | the moved stick axis stores its reading through its deadzone; a trigger stores it raw |
| `Analog.LatchStep` | src/gptokeyb.cpp:290-299 | the edge events of one latch, which then follows the level; no other latch changes |
| `Analog.DirectionRepeat` | src/gptokeyb.cpp:1046-1050 | a pushed repeat direction fills an empty slot; a centred stick empties the slot of its own key; in every other case nothing changes |
| `Analog.StickDirection` | src/gptokeyb.cpp:1041-1051 | a direction's latch follows whether it is pushed, then its repeat update; no other latch changes |
| `Analog.StickDirectionsFrom` | src/gptokeyb.cpp:1041-1127 | sampling directions changes only their latches and the repeat slot and only appends to the trace |
| `Analog.AllStickDirections` | src/gptokeyb.cpp:1040-1128 | all eight directions sampled keep the invariant |
| `Analog.DirectionActiveFromReadings` | src/gptokeyb.cpp:1046-1125 | whether a direction is pushed depends on the stick readings alone |
| `Analog.DirectionsFollowReadings` | src/gptokeyb.cpp:1041-1127 | after sampling, each sampled direction is latched exactly when pushed |
| `Analog.SamplePair` | src/gptokeyb.cpp:1131-1165 | two latches sampled in turn: both edges' events, both latches at their levels, others unchanged |
| `Analog.TriggerSample` | src/gptokeyb.cpp:1131-1165 | the hotkey path drives the `_hk` latches; a latched `_hk` trigger keeps that path after the hotkey goes up; otherwise the plain latches |
| `Analog.ApplySample` | src/gptokeyb.cpp:1131-1165 | the sample's events written, its latches stored, the combination mark set |
| `Analog.Triggers` | src/gptokeyb.cpp:1131-1165 | the trigger step: the sample applied; the combination is marked when a `_hk` trigger is latched with the hotkey held |
| `Analog.TriggersMarkHotkeyCombo` | src/gptokeyb.cpp:1142 | the combination mark is set exactly when it was set or a `_hk` trigger is latched under the hotkey |
| `Analog.HotkeyTriggerSendsCombo` | src/gptokeyb.cpp:1131-1136 | a pulled l2 under the hotkey presses its `_hk` key and marks the combination |
| `Analog.PlainTriggerLatchFrozenUnderHotkey` | src/gptokeyb.cpp:1131-1142 | under the hotkey the plain trigger latches are left as they were |
| `Analog.MouseOrDirections` | src/gptokeyb.cpp:1031-1129 | a stick on the mouse sets the motion; otherwise, outside entry, the directions are sampled |
| `Analog.WithReading` | src/gptokeyb.cpp:997-1029 | the reading stored, nothing written |
| `Analog.AxisMotion` | src/gptokeyb.cpp:992-1166 | a config-mode axis event keeps the invariant, never kills and never starts entry |
| `Analog.MouseFollowsStick` | src/gptokeyb.cpp:1032-1034 | the left stick on the mouse sets the motion to its readings divided by the scale, truncating |
| `Analog.InsideDeadzoneCentres` | src/gptokeyb.cpp:998-1002 | a reading inside the deadzone is stored as centred |
| `Analog.TriggersKeepDirectionLatches` | src/gptokeyb.cpp:1131-1165 | the trigger step leaves every direction latch alone |
| `Analog.PushedDirectionLatched` | src/gptokeyb.cpp:1041-1127 | every pushed direction is latched after sampling |
| `Analog.MouseStickPressesKeysOnTriggerEvent` | src/gptokeyb.cpp:1031-1045 | a trigger event samples the directions even of a stick on the mouse, latching its up key |
| `Xbox.GamepadKey` | src/gptokeyb.cpp:474-535 | every button except the d-pad and unknown ones has a gamepad key |
| `Xbox.GamepadButtonEvents` | src/gptokeyb.cpp:474-552 | the d-pad gives hat positions -1, 1 or 0 on release; other buttons give their gamepad key |
| `Xbox.HotkeyRoles` | src/gptokeyb.cpp:499-527 | a button plays the hotkey only in kill mode: with an override only the named one, back not under EmuELEC; otherwise back and guide |
| `Xbox.TrackRoles` | src/gptokeyb.cpp:499-535 | the hotkey or start level and controller follow the button playing the role; otherwise nothing changes |
| `Xbox.GamepadButton` | src/gptokeyb.cpp:472-581 | the gamepad events, the roles, then Alt+F4 and exit when the kill combination is held |
| `Xbox.PureGamepadOutsideKillMode` | src/gptokeyb.cpp:474-553 | outside kill and text-input modes a button is forwarded and nothing else changes |
| `Xbox.GamepadAxisValue` | src/gptokeyb.cpp:963-991 | sticks are forwarded unchanged, triggers shifted into 0..255 |
| `Xbox.GamepadAxis` | src/gptokeyb.cpp:963-991 | one absolute event and a sync, nothing else changes |
| `Xbox.GamepadAxesDistinct` | src/gptokeyb.cpp:964-990 | distinct controller axes go to distinct gamepad axes |
| `Dispatch.ConfigModeButton` | src/gptokeyb.cpp:583-958 | the switch then the combination checks; entry starts only in interactive mode |
| `Dispatch.ButtonOutsideEntry` | src/gptokeyb.cpp:472-958 | the passthrough in Xbox 360 mode, else the config-mode path; entry starts only in config mode with interactive mode |
| `Dispatch.HandleEvent` | src/gptokeyb.cpp:363-1196 | every event keeps the invariant; the loop goes on exactly unless quit; a button goes to entry while it is active, else outside it; an axis goes to the passthrough or the config-mode handling by mode; hot-plug and other events change nothing |
| `Dispatch.OnlyKillComboKills` | src/gptokeyb.cpp:553-581 | only a button event in kill mode can end the program |
| `Dispatch.EntryOnlyFromConfigButton` | src/gptokeyb.cpp:943-953 | interactive entry starts only from a config-mode button event with interactive mode enabled |
| `Dispatch.AnyEventOk` | src/gptokeyb.cpp:1033-1037 | with a non-zero mouse scale every event can be handled |
| `Dispatch.HandleEvents` | src/gptokeyb.cpp:1361-1363 | events handled in order keep the invariant; still running implies not killed |
| `Dispatch.QuitEndsRunning` | src/gptokeyb.cpp:1190-1191 | the program still runs after a sequence only if it held no quit |
| `Runtime.Gptokeyb.constructor` | src/structs.h:51-210 | program start: default configuration, zero state, zeroed tables, no timer, nothing written |
| `Runtime.Gptokeyb.ReadConfigFile` | src/config.cpp:80-488 | the parsed options applied in order to the configuration, nothing else changed |
| `Runtime.Gptokeyb.InitialiseCharacters` | src/keyboard.cpp:51-62 | the loop resets every selection to its initial value |
| `Runtime.Gptokeyb.LoadCharacters` | src/keyboard.cpp:66-203 | a table range loaded from the names and shifts, the rest untouched |
| `Runtime.Gptokeyb.LoadCharacterSet` | src/keyboard.cpp:64-261 | the arrays hold the tables and table size of `LoadTables` |
| `Runtime.Gptokeyb.InitialiseCharacterSet` | src/keyboard.cpp:64-263 | the state is the pure `InitialiseCharacterSet` keyboard |
| `Runtime.Gptokeyb.Emit` | src/gptokeyb.cpp:86-98 | the events appended to the device trace |
| `Runtime.Gptokeyb.EmitMouseMotion` | src/gptokeyb.cpp:1365 | the held motion written as `FlushMouse` says |
| `Runtime.Gptokeyb.ProcessKeys` | src/gptokeyb.cpp:203-248 | the loop over the preset leaves the state `Machine.ProcessKeys` gives |
| `Runtime.Gptokeyb.HandleAnalogTrigger` | src/gptokeyb.cpp:290-299 | the state `LatchStep` gives |
| `Runtime.Gptokeyb.SetKeyRepeat` | src/gptokeyb.cpp:259-269 | the repeat slot and timer as `SetRepeat` with the key callback after the repeat delay |
| `Runtime.Gptokeyb.SetInputRepeat` | src/gptokeyb.cpp:190-200 | the repeat slot and timer as `SetRepeat` with the input callback after the repeat interval |
| `Runtime.Gptokeyb.AddTextInputCharacter` | src/gptokeyb.cpp:128-131 | the selected key typed through the arrays |
| `Runtime.Gptokeyb.NextTextInputKey` | src/gptokeyb.cpp:143-158 | the array update and events of `Machine.NextTextInputKey` |
| `Runtime.Gptokeyb.PrevTextInputKey` | src/gptokeyb.cpp:160-174 | the array update and events of `Machine.PrevTextInputKey` |
| `Runtime.Gptokeyb.CancelBackspaces` | src/gptokeyb.cpp:450-455 | the cancel loop writes `CancelEvents` for the cursor position |
| `Runtime.Gptokeyb.CancelEntry` | src/gptokeyb.cpp:447-460 | the state `Interactive.Cancel` gives |
| `Runtime.Gptokeyb.Tick` | src/gptokeyb.cpp:250-258 | the timer callbacks on the fields: the state `Machine.Tick` gives |
| `Runtime.Gptokeyb.HandleEvent` | src/gptokeyb.cpp:363-1196 | the state and running flag `Dispatch.HandleEvent` gives |
| `Runtime.Gptokeyb.PollEvents` | src/gptokeyb.cpp:1361-1363 | the polling loop leaves the state and flag `HandleEvents` gives |
| `Runtime.Gptokeyb.MainLoopPass` | src/gptokeyb.cpp:1359-1375 | with motion held: poll the batch, then write the motion unless killed; without it: handle one event |

## Left out

- `main` is not modelled beyond `Runtime.Gptokeyb.MainLoopPass`. Not part of this model:
  - its argument and environment parsing, which produces the flags of `Modes`;
  - opening and creating the uinput device and `setupFakeKeyboardMouseDevice` / `setupFakeXbox360Device`;
  - `SDL_Init`;
  - the final timer removal and device teardown.
- `parseConfigFile` is left out: it does file I/O with `fscanf`. The model receives its result, the sequence of `key = value` pairs.
- `char_to_keycode`, `std::tolower` and `std::toupper` are parameters. Their code is not part of this model.
- The kill combination's side effects are modelled as the `killed` flag. These are `system("killall ...")`, `pgrep`, `show_splash.sh`, `sleep` and `exit`. The sudo and non-sudo variants are therefore the same here.
- `SDL_Delay`, `sleep` and `printf` are left out. They have no effect on state or events.
- SDL timers are left out as concurrency. A timer fires only when `Machine.Tick` is applied, never in the middle of a handler.
- The timer is a single slot: arming a new one replaces any old one. Real SDL would keep the earlier timer running when a second repeat is armed before the first is released, for example d-pad up and down held together during entry.
- Controller hot-plug events (`SDL_CONTROLLERDEVICEADDED` / `REMOVED`) change nothing in the model. They only open or close SDL handles.
- `Machine.Tick` requires `CanTick`. When the input-repeat callback fires with up or down after the cursor has reached the end of the text (entry already ended), the source indexes `current_key[20]`. The model does not define that case.
- `Dispatch.HandleEvent` requires a non-zero mouse scale for a stick assigned to the mouse (`EventOk`, `MouseScaleSet`). With `mouse_scale = 0` the source divides by zero.
- `Runtime.Gptokeyb.HandleEvent` computes the pure handler on the state and stores the result in the fields. The many per-button branches are not written out again as statements. `Runtime.Gptokeyb.ProcessKeys`, `CancelEntry` and `Tick` are written out as statements.
- `Runtime.Gptokeyb.LoadCharacters` loads the character table with a loop over the list of key names. The source has 96 literal assignments; the values are the same.
- `Runtime.Gptokeyb.LoadCharacterSet` states the tables it loads but not `Valid()`. `InitialiseCharacterSet` re-establishes `Valid()` after it.
- `Machine.ProcessKeys` differs from the source in two ways:
  - it types `-` without shift, as corrected under "## Findings"; the source types it with shift, like `_`;
  - it walks the preset as a sequence of characters, each standing for one C `char`. The source walks bytes, so a multi-byte UTF-8 character is typed as one keystroke per byte. The model does not restrict characters to single bytes.
- `ConfigFile.Atoi` uses unbounded integers. The overflow of C's `atoi` is undefined and is not modelled.
- Integer widths are not modelled. Key codes, readings and settings are unbounded, where the source stores codes in `short` and readings in `int`. The exception is the Uint32 repeat timings (`ToUint32`).
- The mouse motion is not cleared after it is written (`FlushMouseRepeats`). This reproduces the source, which keeps `mouseX`/`mouseY` until the next stick event.
- In Xbox 360 mode the kill combination does not remove the repeat timer, as in the source.
- Deadzone modes other than the plain per-axis deadzone (`deadzone_mode`, `deadzone_scale`, `deadzone`) are left out. They are declared in the configuration but not read by the modelled code.

## Findings

| source | as written | input that shows it | evidently intended | confidence | as-written member | corrected member |
|---|---|---|---|---|---|---|
| src/gptokeyb.cpp:387-388 | d-pad right after a space stores 0 into `current_key[++current_character]` before checking the end of the text | interactive entry at position 19 with the space selected and auto-capitals on, then d-pad right: the store goes to `current_key[20]`, one past the 20-element array | store the capital only when the new position is inside the text; entry then ends with Enter | high, not executed | `KeyboardSetup.AdvanceStoreOutOfBounds` | `KeyboardSetup.Advance` |
| src/gptokeyb.cpp:234-236 | the `-` branch sets `uppercase = true`, the same as the `_` branch | preset text `a-b` types `a_b` on a US layout (shift + minus) | `-` typed without shift | medium, not executed | `Machine.HyphenTypedAsUnderscore` | `Machine.HyphenAndUnderscoreDistinct` |

=== FILE: analog.dfy ===
/**
 * Axis motion in config mode. The moved axis's reading is stored (through
 * the deadzone for the sticks); a stick assigned to the mouse sets the
 * mouse motion; otherwise, unless interactive entry is active, the eight
 * stick directions are sampled as level latches with their repeat update.
 * The triggers are then sampled as latches: through their `_hk` bindings
 * while the hotkey is held or a `_hk` trigger is still down, else through
 * their primary bindings.
 */
module Analog {
  import opened Structs
  import opened Events
  import opened Axis
  import opened Machine
  import opened Input

  /** The axis event moved the left stick. */
  predicate LeftStickAxis(axis: AxisId)
  {
    axis == LeftX || axis == LeftY
  }

  /** The axis event moved the right stick. */
  predicate RightStickAxis(axis: AxisId)
  {
    axis == RightX || axis == RightY
  }

  /** The reading of the moved axis is stored: sticks through their deadzone, triggers raw. */
  function UpdateReading(s: State, cfg: Config, axis: AxisId, value: int): (r: State)
    ensures axis == LeftX ==> r == s.(currentLeftAnalogX := ApplyDeadzone(value, cfg.deadzoneX))
    ensures axis == LeftY ==> r == s.(currentLeftAnalogY := ApplyDeadzone(value, cfg.deadzoneY))
    ensures axis == RightX ==> r == s.(currentRightAnalogX := ApplyDeadzone(value, cfg.deadzoneX))
    ensures axis == RightY ==> r == s.(currentRightAnalogY := ApplyDeadzone(value, cfg.deadzoneY))
    ensures axis == TriggerLeft ==> r == s.(currentL2 := value)
    ensures axis == TriggerRight ==> r == s.(currentR2 := value)
    ensures r.textInputInteractiveModeActive == s.textInputInteractiveModeActive && r.keyRepeatTimerId == s.keyRepeatTimerId
  {
    match axis
    case LeftX => s.(currentLeftAnalogX := ApplyDeadzone(value, cfg.deadzoneX))
    case LeftY => s.(currentLeftAnalogY := ApplyDeadzone(value, cfg.deadzoneY))
    case RightX => s.(currentRightAnalogX := ApplyDeadzone(value, cfg.deadzoneX))
    case RightY => s.(currentRightAnalogY := ApplyDeadzone(value, cfg.deadzoneY))
    case TriggerLeft => s.(currentL2 := value)
    case TriggerRight => s.(currentR2 := value)
  }

  // ---------------------------------------------------------------------
  // Level latches

  /** handleAnalogTrigger on one latch of the state: the edge events, then the latch follows the level. */
  function LatchStep(w: World, latch: Latch, isTriggered: bool, key: int, modifier: int): (r: World)
    ensures r.out == w.out + LatchEvents(isTriggered, latch in w.state.latches, key, modifier)
    ensures latch in r.state.latches <==> isTriggered
    ensures forall l :: l != latch ==> (l in r.state.latches <==> l in w.state.latches)
    ensures r.state == w.state.(latches := r.state.latches)
    ensures r.sdl == w.sdl && r.kb == w.kb && r.killed == w.killed
    ensures WorldOk(w) ==> WorldOk(r)
  {
    var latches := if isTriggered then w.state.latches + {latch} else w.state.latches - {latch};
    Emit(w, LatchEvents(isTriggered, latch in w.state.latches, key, modifier)).(state := w.state.(latches := latches))
  }

  // ---------------------------------------------------------------------
  // Stick directions

  /** The eight stick directions in the order they are sampled. */
  const StickDirections: seq<Latch> := [LeftUp, LeftDown, LeftLeft, LeftRight, RightUp, RightDown, RightLeft, RightRight]

  /** The control whose binding a stick direction sends. */
  function DirectionControl(d: Latch): Control
    requires d in StickDirections
  {
    match d
    case LeftUp => LeftAnalogUp
    case LeftDown => LeftAnalogDown
    case LeftLeft => LeftAnalogLeft
    case LeftRight => LeftAnalogRight
    case RightUp => RightAnalogUp
    case RightDown => RightAnalogDown
    case RightLeft => RightAnalogLeft
    case RightRight => RightAnalogRight
  }

  /** The stored reading a stick direction looks at. */
  function DirectionReading(s: State, d: Latch): int
    requires d in StickDirections
  {
    match d
    case LeftUp => s.currentLeftAnalogY
    case LeftDown => s.currentLeftAnalogY
    case LeftLeft => s.currentLeftAnalogX
    case LeftRight => s.currentLeftAnalogX
    case RightUp => s.currentRightAnalogY
    case RightDown => s.currentRightAnalogY
    case RightLeft => s.currentRightAnalogX
    case RightRight => s.currentRightAnalogX
  }

  /** Up and left are negative readings, down and right positive. */
  predicate DirectionActive(s: State, d: Latch)
    requires d in StickDirections
  {
    if d in {LeftUp, LeftLeft, RightUp, RightLeft} then DirectionReading(s, d) < 0 else DirectionReading(s, d) > 0
  }

  /**
   * The repeat update after a direction's latch: it starts when the
   * direction is pushed into an empty slot and stops when the reading is
   * back at zero and the slot holds this direction's key.
   */
  function DirectionRepeat(w: World, cfg: Config, b: Binding, on: bool, centred: bool): (r: World)
    ensures r.state.keyToRepeat != w.state.keyToRepeat ==>
              b.repeat && ((on && w.state.keyToRepeat == 0 && r.state.keyToRepeat == b.key)
                           || (centred && w.state.keyToRepeat == b.key && r.state.keyToRepeat == 0))
    ensures on && b.repeat && w.state.keyToRepeat == 0 ==> r == SetKeyRepeat(w, cfg, b.key, true)
    ensures !(on && b.repeat && w.state.keyToRepeat == 0) && centred && b.repeat && w.state.keyToRepeat == b.key ==>
              r == SetKeyRepeat(w, cfg, b.key, false)
    ensures !(on && b.repeat && w.state.keyToRepeat == 0) && !(centred && b.repeat && w.state.keyToRepeat == b.key) ==>
              r == w
    ensures r.state == w.state.(keyToRepeat := r.state.keyToRepeat, keyRepeatTimerId := r.state.keyRepeatTimerId)
    ensures r.out == w.out && r.kb == w.kb && r.killed == w.killed
    ensures WorldOk(w) ==> WorldOk(r)
  {
    if on && b.repeat && w.state.keyToRepeat == 0 then SetKeyRepeat(w, cfg, b.key, true)
    else if centred && b.repeat && w.state.keyToRepeat == b.key then SetKeyRepeat(w, cfg, b.key, false)
    else w
  }

  /** One stick direction: its latch follows its reading, then its repeat update. */
  function StickDirection(w: World, cfg: Config, d: Latch): (r: World)
    requires cfg.Valid() && d in StickDirections
    ensures var b := cfg.primary[DirectionControl(d)];
            r.out == w.out + LatchEvents(DirectionActive(w.state, d), d in w.state.latches, b.key, b.modifier)
    ensures d in r.state.latches <==> DirectionActive(w.state, d)
    ensures forall l :: l != d ==> (l in r.state.latches <==> l in w.state.latches)
    ensures r.state == w.state.(latches := r.state.latches, keyToRepeat := r.state.keyToRepeat,
                                keyRepeatTimerId := r.state.keyRepeatTimerId)
    ensures r.kb == w.kb && r.killed == w.killed
    ensures WorldOk(w) ==> WorldOk(r)
  {
    var b := cfg.primary[DirectionControl(d)];
    var w1 := LatchStep(w, d, DirectionActive(w.state, d), b.key, b.modifier);
    DirectionRepeat(w1, cfg, b, DirectionActive(w.state, d), DirectionReading(w.state, d) == 0)
  }

  /** The directions `ds`, sampled in order. */
  function StickDirectionsFrom(w: World, cfg: Config, ds: seq<Latch>): (r: World)
    requires cfg.Valid() && forall d :: d in ds ==> d in StickDirections
    ensures forall l :: l !in ds ==> (l in r.state.latches <==> l in w.state.latches)
    ensures r.state.currentLeftAnalogX == w.state.currentLeftAnalogX && r.state.currentLeftAnalogY == w.state.currentLeftAnalogY
    ensures r.state.currentRightAnalogX == w.state.currentRightAnalogX && r.state.currentRightAnalogY == w.state.currentRightAnalogY
    ensures r.state == w.state.(latches := r.state.latches, keyToRepeat := r.state.keyToRepeat,
                                keyRepeatTimerId := r.state.keyRepeatTimerId)
    ensures w.out <= r.out && r.kb == w.kb && r.killed == w.killed
    ensures WorldOk(w) ==> WorldOk(r)
    decreases |ds|
  {
    if ds == [] then w else StickDirectionsFrom(StickDirection(w, cfg, ds[0]), cfg, ds[1..])
  }

  /** All eight directions. */
  function AllStickDirections(w: World, cfg: Config): (r: World)
    requires cfg.Valid()
    ensures r == StickDirectionsFrom(w, cfg, StickDirections)
    ensures WorldOk(w) ==> WorldOk(r)
  {
    StickDirectionsFrom(w, cfg, StickDirections)
  }

  /** Two states with the same stick readings. */
  predicate SameStickReadings(s: State, t: State)
  {
    && s.currentLeftAnalogX == t.currentLeftAnalogX && s.currentLeftAnalogY == t.currentLeftAnalogY
    && s.currentRightAnalogX == t.currentRightAnalogX && s.currentRightAnalogY == t.currentRightAnalogY
  }

  /** Whether a direction is pushed depends on the stick readings alone. */
  lemma DirectionActiveFromReadings(s: State, t: State, d: Latch)
    requires d in StickDirections && SameStickReadings(s, t)
    ensures DirectionActive(s, d) == DirectionActive(t, d)
  {
  }

  /**
   * After sampling, every direction's latch agrees with its reading
   * (directions read only the stick readings, which sampling leaves alone).
   */
  lemma {:induction false} DirectionsFollowReadings(w: World, cfg: Config, ds: seq<Latch>)
    requires cfg.Valid() && forall d :: d in ds ==> d in StickDirections
    ensures var r := StickDirectionsFrom(w, cfg, ds);
            forall d :: d in ds ==> (d in r.state.latches <==> DirectionActive(w.state, d))
    decreases |ds|
  {
    if ds != [] {
      var w1 := StickDirection(w, cfg, ds[0]);
      var r := StickDirectionsFrom(w1, cfg, ds[1..]);
      assert r == StickDirectionsFrom(w, cfg, ds);
      DirectionsFollowReadings(w1, cfg, ds[1..]);
      assert SameStickReadings(w.state, w1.state);
      forall d | d in ds
        ensures d in r.state.latches <==> DirectionActive(w.state, d)
      {
        DirectionActiveFromReadings(w.state, w1.state, d);
        if d in ds[1..] {
        } else {
          assert d == ds[0];
        }
      }
    }
  }

  // ---------------------------------------------------------------------
  // Triggers

  /** A trigger is pulled when its raw reading exceeds the trigger deadzone. */
  predicate Pulled(reading: int, cfg: Config)
  {
    reading > cfg.deadzoneTriggers
  }

  /** A `_hk` trigger is latched. */
  predicate ComboLatched(latches: set<Latch>)
  {
    L2Combo in latches || R2Combo in latches
  }

  /** The `_hk` path: taken while the hotkey is held or a `_hk` trigger is still latched. */
  predicate ComboPath(s: State)
  {
    s.hotkeyPressed || ComboLatched(s.latches)
  }

  /** The latches after sampling the triggers and the events sent on the way. */
  datatype Sample = Sample(latches: set<Latch>, events: seq<OutEvent>)

  /** handleAnalogTrigger on two latches in turn (l2's, then r2's), as values. */
  function SamplePair(latches: set<Latch>, l: Latch, lOn: bool, lKey: int, lModifier: int,
                      r: Latch, rOn: bool, rKey: int, rModifier: int): (res: Sample)
    requires l != r
    ensures res.events == LatchEvents(lOn, l in latches, lKey, lModifier) + LatchEvents(rOn, r in latches, rKey, rModifier)
    ensures (l in res.latches <==> lOn) && (r in res.latches <==> rOn)
    ensures forall x :: x != l && x != r ==> (x in res.latches <==> x in latches)
  {
    var afterL := if lOn then latches + {l} else latches - {l};
    var afterR := if rOn then afterL + {r} else afterL - {r};
    Sample(afterR, LatchEvents(lOn, l in latches, lKey, lModifier) + LatchEvents(rOn, r in latches, rKey, rModifier))
  }

  /**
   * The triggers' latches and events: through the `_hk` latches and
   * bindings on the `_hk` path, else through the primary ones.
   */
  function TriggerSample(s: State, cfg: Config): (r: Sample)
    requires cfg.Valid()
    ensures var l2 := Pulled(s.currentL2, cfg);
            var r2 := Pulled(s.currentR2, cfg);
            && (ComboPath(s) ==>
                  && r.events == LatchEvents(l2, L2Combo in s.latches, cfg.combo[L2].key, cfg.combo[L2].modifier)
                                 + LatchEvents(r2, R2Combo in s.latches, cfg.combo[R2].key, cfg.combo[R2].modifier)
                  && (L2Combo in r.latches <==> l2) && (R2Combo in r.latches <==> r2)
                  && (L2Plain in r.latches <==> L2Plain in s.latches) && (R2Plain in r.latches <==> R2Plain in s.latches))
            && (!ComboPath(s) ==>
                  && r.events == LatchEvents(l2, L2Plain in s.latches, cfg.primary[L2].key, cfg.primary[L2].modifier)
                                 + LatchEvents(r2, R2Plain in s.latches, cfg.primary[R2].key, cfg.primary[R2].modifier)
                  && (L2Plain in r.latches <==> l2) && (R2Plain in r.latches <==> r2)
                  && L2Combo !in r.latches && R2Combo !in r.latches)
    ensures forall x :: x !in {L2Plain, R2Plain, L2Combo, R2Combo} ==> (x in r.latches <==> x in s.latches)
  {
    var l2 := Pulled(s.currentL2, cfg);
    var r2 := Pulled(s.currentR2, cfg);
    if ComboPath(s) then
      SamplePair(s.latches, L2Combo, l2, cfg.combo[L2].key, cfg.combo[L2].modifier, R2Combo, r2, cfg.combo[R2].key, cfg.combo[R2].modifier)
    else
      SamplePair(s.latches, L2Plain, l2, cfg.primary[L2].key, cfg.primary[L2].modifier, R2Plain, r2, cfg.primary[R2].key, cfg.primary[R2].modifier)
  }

  /** A trigger sample applied to the world: its events sent, its latches stored, and the combination mark set. */
  function ApplySample(w: World, t: Sample, used: bool): (r: World)
    ensures r.out == w.out + t.events && r.state.latches == t.latches && r.state.hotkeyComboTriggered == used
    ensures r.state == w.state.(latches := t.latches, hotkeyComboTriggered := used)
    ensures r.sdl == w.sdl && r.kb == w.kb && r.killed == w.killed
    ensures WorldOk(w) ==> WorldOk(r)
    ensures SameRunState(w, r)
  {
    w.(out := w.out + t.events, state := w.state.(latches := t.latches, hotkeyComboTriggered := used))
  }

  /**
   * The two triggers: their latches and events, and with the hotkey held a
   * latched `_hk` trigger marks the hotkey combination used.
   */
  function Triggers(w: World, cfg: Config): (r: World)
    requires cfg.Valid()
    ensures r.out == w.out + TriggerSample(w.state, cfg).events
    ensures r.state.latches == TriggerSample(w.state, cfg).latches
    ensures r.state.hotkeyComboTriggered == (w.state.hotkeyComboTriggered || (w.state.hotkeyPressed && ComboLatched(r.state.latches)))
    ensures r.state == w.state.(latches := TriggerSample(w.state, cfg).latches, hotkeyComboTriggered := r.state.hotkeyComboTriggered)
    ensures r.sdl == w.sdl && r.kb == w.kb && r.killed == w.killed
    ensures WorldOk(w) ==> WorldOk(r)
    ensures SameRunState(w, r)
  {
    var t := TriggerSample(w.state, cfg);
    ApplySample(w, t, w.state.hotkeyComboTriggered || (w.state.hotkeyPressed && ComboLatched(t.latches)))
  }

  /**
   * The hotkey combination is marked used exactly when a trigger is pulled
   * while the hotkey is held (or it was marked already).
   */
  lemma TriggersMarkHotkeyCombo(w: World, cfg: Config)
    requires cfg.Valid()
    ensures Triggers(w, cfg).state.hotkeyComboTriggered <==>
              w.state.hotkeyComboTriggered
              || (w.state.hotkeyPressed && (Pulled(w.state.currentL2, cfg) || Pulled(w.state.currentR2, cfg)))
  {
  }

  /**
   * A trigger pulled while the hotkey is held presses its `_hk` binding
   * and marks the combination used.
   */
  lemma HotkeyTriggerSendsCombo(w: World, cfg: Config)
    requires cfg.Valid() && w.state.hotkeyPressed && Pulled(w.state.currentL2, cfg) && L2Combo !in w.state.latches
    ensures var r := Triggers(w, cfg);
            r.state.hotkeyComboTriggered && Key(cfg.combo[L2].key, true) in r.out[|w.out|..]
  {
    var r := Triggers(w, cfg);
    TriggersMarkHotkeyCombo(w, cfg);
    var first := LatchEvents(true, false, cfg.combo[L2].key, cfg.combo[L2].modifier);
    var second := LatchEvents(Pulled(w.state.currentR2, cfg), R2Combo in w.state.latches, cfg.combo[R2].key, cfg.combo[R2].modifier);
    assert r.out[|w.out|..] == first + second;
  }

  /**
   * The primary trigger latches do not follow the trigger while the hotkey
   * is held: a trigger pulled before the hotkey and released during it
   * is released only at the next sample after the hotkey (and any `_hk`
   * trigger) is up.
   */
  lemma PlainTriggerLatchFrozenUnderHotkey(w: World, cfg: Config)
    requires cfg.Valid() && w.state.hotkeyPressed
    ensures var r := Triggers(w, cfg);
            (L2Plain in r.state.latches <==> L2Plain in w.state.latches)
            && (R2Plain in r.state.latches <==> R2Plain in w.state.latches)
  {
  }

  // ---------------------------------------------------------------------
  // The axis event

  /** The mouse division is defined: a stick assigned to the mouse is moved only with a non-zero scale. */
  predicate MouseScaleOk(cfg: Config, axis: AxisId)
  {
    ((cfg.leftAnalogAsMouse && LeftStickAxis(axis)) || (cfg.rightAnalogAsMouse && RightStickAxis(axis)))
    ==> cfg.fakeMouseScale != 0
  }

  /**
   * The part after the reading is stored and before the triggers: the
   * moved stick drives the mouse when it is assigned to it, else the stick
   * directions are sampled unless interactive entry is active.
   */
  function MouseOrDirections(w: World, env: Env, axis: AxisId): (r: World)
    requires env.config.Valid() && MouseScaleOk(env.config, axis)
    ensures var cfg := env.config;
            cfg.leftAnalogAsMouse && LeftStickAxis(axis) ==>
              r == w.(state := w.state.(mouseX := TruncDiv(w.state.currentLeftAnalogX, cfg.fakeMouseScale),
                                        mouseY := TruncDiv(w.state.currentLeftAnalogY, cfg.fakeMouseScale)))
    ensures var cfg := env.config;
            !(cfg.leftAnalogAsMouse && LeftStickAxis(axis)) && cfg.rightAnalogAsMouse && RightStickAxis(axis) ==>
              r == w.(state := w.state.(mouseX := TruncDiv(w.state.currentRightAnalogX, cfg.fakeMouseScale),
                                        mouseY := TruncDiv(w.state.currentRightAnalogY, cfg.fakeMouseScale)))
    ensures var cfg := env.config;
            !(cfg.leftAnalogAsMouse && LeftStickAxis(axis)) && !(cfg.rightAnalogAsMouse && RightStickAxis(axis)) ==>
              r == (if w.state.textInputInteractiveModeActive then w else AllStickDirections(w, cfg))
    ensures r.kb == w.kb && r.killed == w.killed
    ensures WorldOk(w) ==> WorldOk(r)
    ensures SameRunState(w, r)
  {
    var cfg := env.config;
    var s := w.state;
    if cfg.leftAnalogAsMouse && LeftStickAxis(axis) then
      w.(state := s.(mouseX := TruncDiv(s.currentLeftAnalogX, cfg.fakeMouseScale),
                     mouseY := TruncDiv(s.currentLeftAnalogY, cfg.fakeMouseScale)))
    else if cfg.rightAnalogAsMouse && RightStickAxis(axis) then
      w.(state := s.(mouseX := TruncDiv(s.currentRightAnalogX, cfg.fakeMouseScale),
                     mouseY := TruncDiv(s.currentRightAnalogY, cfg.fakeMouseScale)))
    else if !s.textInputInteractiveModeActive then AllStickDirections(w, cfg)
    else w
  }

  /** The world with the moved axis's reading stored. */
  function WithReading(w: World, cfg: Config, axis: AxisId, value: int): (r: World)
    ensures r.state == UpdateReading(w.state, cfg, axis, value)
    ensures r.out == w.out && r.sdl == w.sdl && r.kb == w.kb && r.killed == w.killed
    ensures WorldOk(w) ==> WorldOk(r)
    ensures SameRunState(w, r)
  {
    w.(state := UpdateReading(w.state, cfg, axis, value))
  }

  /** An axis event in config mode: the reading, the mouse or the directions, then the triggers. */
  function AxisMotion(w: World, env: Env, axis: AxisId, value: int): (r: World)
    requires env.config.Valid() && MouseScaleOk(env.config, axis)
    ensures r == Triggers(MouseOrDirections(WithReading(w, env.config, axis, value), env, axis), env.config)
    ensures WorldOk(w) ==> WorldOk(r)
    ensures SameRunState(w, r)
  {
    Triggers(MouseOrDirections(WithReading(w, env.config, axis, value), env, axis), env.config)
  }

  /** The mouse motion of a stick assigned to the mouse is its reading divided by the scale, truncating. */
  lemma MouseFollowsStick(w: World, env: Env, axis: AxisId, value: int)
    requires env.config.Valid() && MouseScaleOk(env.config, axis)
    requires env.config.leftAnalogAsMouse && LeftStickAxis(axis)
    ensures var s := UpdateReading(w.state, env.config, axis, value);
            var r := AxisMotion(w, env, axis, value);
            r.state.mouseX == TruncDiv(s.currentLeftAnalogX, env.config.fakeMouseScale)
            && r.state.mouseY == TruncDiv(s.currentLeftAnalogY, env.config.fakeMouseScale)
  {
  }

  /** A stick reading inside the deadzone is stored as centred, so it can neither move the mouse nor hold a direction. */
  lemma InsideDeadzoneCentres(w: World, env: Env, value: int)
    requires env.config.Valid() && MouseScaleOk(env.config, LeftX)
    requires Axis.Abs(value) <= env.config.deadzoneX
    ensures UpdateReading(w.state, env.config, LeftX, value).currentLeftAnalogX == 0
  {
  }

  /** The triggers leave the stick direction latches alone. */
  lemma TriggersKeepDirectionLatches(w: World, cfg: Config, d: Latch)
    requires cfg.Valid() && d in StickDirections
    ensures d in Triggers(w, cfg).state.latches <==> d in w.state.latches
  {
    assert d !in {L2Plain, R2Plain, L2Combo, R2Combo};
  }

  /** Every stick direction pushed is latched after the directions are sampled. */
  lemma PushedDirectionLatched(w: World, cfg: Config, d: Latch)
    requires cfg.Valid() && d in StickDirections && DirectionActive(w.state, d)
    ensures d in AllStickDirections(w, cfg).state.latches
  {
    DirectionsFollowReadings(w, cfg, StickDirections);
  }

  /**
   * A stick assigned to the mouse still sends its direction keys when a
   * trigger moves: the trigger event takes the direction branch, which
   * samples every stick's stored reading.
   */
  lemma MouseStickPressesKeysOnTriggerEvent(w: World, env: Env, value: int)
    requires env.config.Valid() && env.config.leftAnalogAsMouse
    requires !w.state.textInputInteractiveModeActive
    requires w.state.currentLeftAnalogY < 0
    ensures LeftUp in AxisMotion(w, env, TriggerLeft, value).state.latches
  {
    var w1 := WithReading(w, env.config, TriggerLeft, value);
    assert DirectionActive(w1.state, LeftUp);
    var w2 := MouseOrDirections(w1, env, TriggerLeft);
    PushedDirectionLatched(w1, env.config, LeftUp);
    TriggersKeepDirectionLatches(w2, env.config, LeftUp);
  }
}

=== FILE: axis.dfy ===
/**
 * Conversion of raw analog readings: the per-axis deadzone filter, the
 * stick-to-mouse division (C++ integer division, which truncates toward
 * zero) and the trigger scaling of the Xbox 360 passthrough mode.
 */
module Axis {

  function Abs(x: int): (r: int)
    ensures r >= 0 && (r == x || r == -x)
  {
    if x < 0 then -x else x
  }

  /** applyDeadzone: a reading passes unchanged when its magnitude exceeds the deadzone, otherwise it reads as 0. */
  function ApplyDeadzone(value: int, deadzone: int): (r: int)
    ensures r == 0 || r == value
    ensures r != 0 ==> Abs(r) > deadzone
    ensures Abs(value) > deadzone ==> r == value
  {
    if Abs(value) > deadzone then value else 0
  }

  lemma DeadzoneIdempotent(value: int, deadzone: int)
    ensures ApplyDeadzone(ApplyDeadzone(value, deadzone), deadzone) == ApplyDeadzone(value, deadzone)
  {
  }

  lemma DeadzoneOdd(value: int, deadzone: int)
    ensures ApplyDeadzone(-value, deadzone) == -ApplyDeadzone(value, deadzone)
  {
  }

  /**
   * C++ `a / b` on int: the quotient truncated toward zero. Dafny's `/` is
   * Euclidean, which differs for a negative dividend (see TruncDivNegative).
   */
  function TruncDiv(a: int, b: int): (q: int)
    requires b != 0
    ensures Abs(q) * Abs(b) <= Abs(a) < (Abs(q) + 1) * Abs(b)
    ensures q != 0 ==> ((q < 0) <==> ((a < 0) != (b < 0)))
  {
    var m := Abs(a) / Abs(b);
    DivisionBounds(Abs(a), Abs(b));
    if (a < 0) != (b < 0) then -m else m
  }

  /** The quotient of naturals brackets the dividend between two multiples of the divisor. */
  lemma DivisionBounds(n: int, d: int)
    requires 0 <= n && 0 < d
    ensures 0 <= n / d
    ensures (n / d) * d <= n < (n / d + 1) * d
  {
    assert (n / d + 1) * d == (n / d) * d + d;
  }

  /** Truncating division is odd in its dividend, so a stick pushed left moves the mouse as far as one pushed right. */
  lemma TruncDivOdd(a: int, b: int)
    requires b != 0
    ensures TruncDiv(-a, b) == -TruncDiv(a, b)
  {
  }

  /** A small negative reading gives no mouse motion, where Dafny's Euclidean division would give -1. */
  lemma TruncDivNegative()
    ensures TruncDiv(-100, 512) == 0 && -100 / 512 == -1
  {
  }

  /**
   * `value >> 7` on the trigger axis: an arithmetic shift, which for a
   * positive divisor equals Dafny's (flooring) division by 128.
   */
  function TriggerScale(value: int): (r: int)
    ensures r * 128 <= value < r * 128 + 128
    ensures 0 <= value <= 32767 ==> 0 <= r <= 255
  {
    value / 128
  }

  lemma TriggerScaleEndpoints()
    ensures TriggerScale(32767) == 255
    ensures TriggerScale(0) == 0
    ensures TriggerScale(128) == 1
    ensures TriggerScale(127) == 0
  {
  }
}

=== FILE: buttons.dfy ===
/**
 * Button events in the keyboard-and-mouse (config) mode, when interactive
 * text entry is not active: the face buttons and shoulders with their
 * hotkey combinations, the hotkey owners l3, guide and back, the start
 * button, and the d-pad with the text-input triggers.
 */
module Buttons {
  import opened Structs
  import opened Events
  import opened Machine
  import opened Input
  import Owner

  // ---------------------------------------------------------------------
  // Which button owns which role

  /** l3 acts as the hotkey when the hotkey is overridden to "l3". */
  predicate L3OwnsHotkey(m: Modes)
  {
    (m.killMode && m.hotkeyOverride && m.hotkeyCode == "l3")
    || (m.textInputPresetMode && m.hotkeyOverride && m.hotkeyCode == "l3")
    || (m.textInputInteractiveMode && m.hotkeyOverride && m.hotkeyCode == "l3")
    || (m.hotkeyOverride && m.hotkeyCode == "l3")
  }

  /** guide acts as the hotkey unless the hotkey is overridden; with an override, when it names "guide" in a kill or text-input mode. */
  predicate GuideOwnsHotkey(m: Modes)
  {
    (m.killMode && !m.hotkeyOverride) || (m.killMode && m.hotkeyOverride && m.hotkeyCode == "guide")
    || (m.textInputPresetMode && !m.hotkeyOverride) || (m.textInputPresetMode && m.hotkeyCode == "guide")
    || (m.textInputInteractiveMode && !m.hotkeyOverride) || (m.textInputInteractiveMode && m.hotkeyCode == "guide")
    || !m.hotkeyOverride
  }

  /** back acts as the hotkey outside EmuELEC unless the hotkey is overridden; with an override, when it names "back" in kill mode. */
  predicate BackOwnsHotkey(m: Modes)
  {
    !m.emuelecOverride
    && ((m.killMode && !m.hotkeyOverride) || (m.killMode && m.hotkeyOverride && m.hotkeyCode == "back")
        || !m.hotkeyOverride)
  }

  /** start takes part in combinations in kill mode and the two text-input modes. */
  predicate StartOwnsStart(m: Modes)
  {
    m.killMode || m.textInputPresetMode || m.textInputInteractiveMode
  }

  /** The ownership conditions in short: without an override guide and back are hotkeys; with one, only the named button. */
  lemma HotkeyOwnership(m: Modes)
    ensures L3OwnsHotkey(m) <==> m.hotkeyOverride && m.hotkeyCode == "l3"
    ensures !m.hotkeyOverride ==> GuideOwnsHotkey(m) && (BackOwnsHotkey(m) <==> !m.emuelecOverride)
    ensures m.hotkeyOverride && m.hotkeyCode != "guide" ==> !GuideOwnsHotkey(m)
    ensures m.hotkeyOverride && m.hotkeyCode != "back" ==> !BackOwnsHotkey(m)
    ensures m.hotkeyOverride && m.hotkeyCode == "back" ==> (BackOwnsHotkey(m) <==> m.killMode && !m.emuelecOverride)
    ensures m.hotkeyOverride && m.hotkeyCode == "guide" ==>
              (GuideOwnsHotkey(m) <==> m.killMode || m.textInputPresetMode || m.textInputInteractiveMode)
  {
  }

  // ---------------------------------------------------------------------
  // The hold flags in the state

  function HotkeyHold(s: State): Owner.Hold
  {
    Owner.Hold(s.hotkeyPressed, s.hotkeyJsdevice, s.hotkeyWasPressed, s.hotkeyComboTriggered)
  }

  function WithHotkeyHold(s: State, h: Owner.Hold): (r: State)
    ensures HotkeyHold(r) == h
  {
    s.(hotkeyPressed := h.pressed, hotkeyJsdevice := h.jsdevice, hotkeyWasPressed := h.wasPressed,
       hotkeyComboTriggered := h.comboTriggered)
  }

  function StartHold(s: State): Owner.Hold
  {
    Owner.Hold(s.startPressed, s.startJsdevice, s.startWasPressed, s.startComboTriggered)
  }

  function WithStartHold(s: State, h: Owner.Hold): (r: State)
    ensures StartHold(r) == h
  {
    s.(startPressed := h.pressed, startJsdevice := h.jsdevice, startWasPressed := h.wasPressed,
       startComboTriggered := h.comboTriggered)
  }

  /** Carries out the decision of the hold logic on a button's own binding. */
  function Perform(w: World, cfg: Config, b: Binding, action: Owner.Action, pressed: bool): (r: World)
    ensures action == Owner.Arm || action == Owner.SwallowRelease ==> r == w
    ensures action == Owner.Tap ==> r == TapKey(w, cfg, b)
    ensures action == Owner.Forward ==> r == KeyWithRepeat(w, cfg, b, pressed)
    ensures r.state == w.state.(keyToRepeat := r.state.keyToRepeat, keyRepeatTimerId := r.state.keyRepeatTimerId)
    ensures r.kb == w.kb
    ensures WorldOk(w) ==> WorldOk(r)
    ensures SameRunState(w, r)
  {
    match action
    case Arm => w
    case SwallowRelease => w
    case Tap => TapKey(w, cfg, b)
    case Forward => KeyWithRepeat(w, cfg, b, pressed)
  }

  /** l3, guide or back: the hotkey hold logic on the `hotkey_*` flags, then the button's own binding. */
  function HotkeyButton(w: World, env: Env, c: Control, owns: bool, pressed: bool, which: int): (r: World)
    requires env.config.Valid()
    ensures HotkeyHold(r.state) == Owner.Step(HotkeyHold(w.state), owns, pressed, which).0
    ensures var action := Owner.Step(HotkeyHold(w.state), owns, pressed, which).1;
            (action == Owner.Arm || action == Owner.SwallowRelease ==> r.out == w.out)
            && (action == Owner.Tap ==> r.out == w.out + KeyEvents(env.config.primary[c].key, true, env.config.primary[c].modifier)
                                                     + KeyEvents(env.config.primary[c].key, false, env.config.primary[c].modifier))
            && (action == Owner.Forward ==> r.out == w.out + KeyEvents(env.config.primary[c].key, pressed, env.config.primary[c].modifier))
    ensures var step := Owner.Step(HotkeyHold(w.state), owns, pressed, which);
            r == Perform(w.(state := WithHotkeyHold(w.state, step.0)), env.config, env.config.primary[c], step.1, pressed)
    ensures WorldOk(w) ==> WorldOk(r)
    ensures SameRunState(w, r)
  {
    var step := Owner.Step(HotkeyHold(w.state), owns, pressed, which);
    Perform(w.(state := WithHotkeyHold(w.state, step.0)), env.config, env.config.primary[c], step.1, pressed)
  }

  /** start: the same hold logic on the `start_*` flags. */
  function StartButton(w: World, env: Env, pressed: bool, which: int): (r: World)
    requires env.config.Valid()
    ensures StartHold(r.state) == Owner.Step(StartHold(w.state), StartOwnsStart(env.modes), pressed, which).0
    ensures HotkeyHold(r.state) == HotkeyHold(w.state)
    ensures var action := Owner.Step(StartHold(w.state), StartOwnsStart(env.modes), pressed, which).1;
            (action == Owner.Arm || action == Owner.SwallowRelease ==> r.out == w.out)
            && (action == Owner.Tap ==> r.out == w.out + KeyEvents(env.config.primary[Start].key, true, env.config.primary[Start].modifier)
                                                     + KeyEvents(env.config.primary[Start].key, false, env.config.primary[Start].modifier))
            && (action == Owner.Forward ==> r.out == w.out + KeyEvents(env.config.primary[Start].key, pressed, env.config.primary[Start].modifier))
    ensures var step := Owner.Step(StartHold(w.state), StartOwnsStart(env.modes), pressed, which);
            r == Perform(w.(state := WithStartHold(w.state, step.0)), env.config, env.config.primary[Start], step.1, pressed)
    ensures WorldOk(w) ==> WorldOk(r)
    ensures SameRunState(w, r)
  {
    var step := Owner.Step(StartHold(w.state), StartOwnsStart(env.modes), pressed, which);
    Perform(w.(state := WithStartHold(w.state, step.0)), env.config, env.config.primary[Start], step.1, pressed)
  }

  // ---------------------------------------------------------------------
  // Face buttons and shoulders

  /**
   * a, b, x, y, l1 and r1. With the hotkey held the button sends its `_hk`
   * binding and records the held combination; a combination still recorded
   * is released through the `_hk` binding even after the hotkey went up;
   * otherwise the primary binding with the guarded repeat update.
   */
  function FaceButton(w: World, env: Env, c: Control, pressed: bool): (r: World)
    requires env.config.Valid() && IsComboButton(c)
    ensures var hk := env.config.combo[c];
            w.state.hotkeyPressed ==>
              && r.out == w.out + KeyEvents(hk.key, pressed, hk.modifier)
              && (pressed ==> c in r.state.comboHeld && r.state.hotkeyComboTriggered)
              && (!pressed ==> c !in r.state.comboHeld)
    ensures var hk := env.config.combo[c];
            !w.state.hotkeyPressed && c in w.state.comboHeld && !pressed ==>
              r.out == w.out + KeyEvents(hk.key, false, hk.modifier) && c !in r.state.comboHeld
    ensures var b := env.config.primary[c];
            !w.state.hotkeyPressed && (c !in w.state.comboHeld || pressed) ==>
              r == KeyWithRepeat(w, env.config, b, pressed)
    ensures forall d :: d != c ==> (d in r.state.comboHeld <==> d in w.state.comboHeld)
    ensures HotkeyHold(r.state).pressed == w.state.hotkeyPressed
    ensures WorldOk(w) ==> WorldOk(r)
    ensures SameRunState(w, r)
  {
    var hk := env.config.combo[c];
    if w.state.hotkeyPressed && pressed then
      Emit(w, KeyEvents(hk.key, true, hk.modifier))
        .(state := w.state.(comboHeld := w.state.comboHeld + {c}, hotkeyComboTriggered := true))
    else if w.state.hotkeyPressed || (c in w.state.comboHeld && !pressed) then
      Emit(w, KeyEvents(hk.key, false, hk.modifier)).(state := w.state.(comboHeld := w.state.comboHeld - {c}))
    else
      KeyWithRepeat(w, env.config, env.config.primary[c], pressed)
  }

  /**
   * On the `_hk` paths only the events, the held combinations and the
   * triggered flag change: no repeat slot, no timer, no other flag.
   */
  lemma FaceButtonComboFrame(w: World, env: Env, c: Control, pressed: bool)
    requires env.config.Valid() && IsComboButton(c)
    ensures var hk := env.config.combo[c];
            w.state.hotkeyPressed && pressed ==>
              FaceButton(w, env, c, pressed)
                == Emit(w, KeyEvents(hk.key, true, hk.modifier))
                     .(state := w.state.(comboHeld := w.state.comboHeld + {c}, hotkeyComboTriggered := true))
    ensures var hk := env.config.combo[c];
            (w.state.hotkeyPressed || c in w.state.comboHeld) && !pressed ==>
              FaceButton(w, env, c, pressed)
                == Emit(w, KeyEvents(hk.key, false, hk.modifier)).(state := w.state.(comboHeld := w.state.comboHeld - {c}))
  {
  }

  /**
   * A combination outlives the hotkey: pressed while the hotkey is held and
   * released after the hotkey went up, it sends its `_hk` press and release
   * and never the primary binding.
   */
  lemma ComboReleasedAfterHotkey(w: World, env: Env, c: Control)
    requires env.config.Valid() && IsComboButton(c) && w.state.hotkeyPressed
    ensures var hk := env.config.combo[c];
            var w1 := FaceButton(w, env, c, true);
            var w2 := w1.(state := w1.state.(hotkeyPressed := false));
            FaceButton(w2, env, c, false).out == w.out + KeyEvents(hk.key, true, hk.modifier) + KeyEvents(hk.key, false, hk.modifier)
            && c !in FaceButton(w2, env, c, false).state.comboHeld
  {
  }

  /**
   * A press of the primary binding is not matched by a release when the
   * hotkey goes down in between: the release is sent through the `_hk`
   * binding instead, and the primary key stays down.
   */
  lemma PrimaryStuckUnderHotkey(w: World, env: Env, c: Control)
    requires env.config.Valid() && IsComboButton(c) && !w.state.hotkeyPressed && c !in w.state.comboHeld
    ensures var b := env.config.primary[c];
            var hk := env.config.combo[c];
            var w1 := FaceButton(w, env, c, true);
            var w2 := w1.(state := w1.state.(hotkeyPressed := true));
            var w3 := FaceButton(w2, env, c, false);
            w3.out == w.out + KeyEvents(b.key, true, b.modifier) + KeyEvents(hk.key, false, hk.modifier)
  {
  }

  // ---------------------------------------------------------------------
  // The d-pad

  /** The repeat slot is not part of either hold. */
  lemma HoldsIgnoreRepeat(s: State, key: int, id: int)
    ensures HotkeyHold(s.(keyToRepeat := key, keyRepeatTimerId := id)) == HotkeyHold(s)
    ensures StartHold(s.(keyToRepeat := key, keyRepeatTimerId := id)) == StartHold(s)
  {
  }

  /** The trigger flags of a d-pad direction record its level and controller when its mode is on. */
  function RecordTrigger(s: State, c: Control, triggerMode: bool, pressed: bool, which: int): (r: State)
    requires c in {Left, Right, Down}
    ensures triggerMode && c == Left ==> r == s.(textInputPresetTriggerPressed := pressed, textInputPresetTriggerJsdevice := which)
    ensures triggerMode && c == Right ==> r == s.(textInputConfirmTriggerPressed := pressed, textInputConfirmTriggerJsdevice := which)
    ensures triggerMode && c == Down ==> r == s.(textInputInteractiveTriggerPressed := pressed, textInputInteractiveTriggerJsdevice := which)
    ensures !triggerMode ==> r == s
    ensures HotkeyHold(r) == HotkeyHold(s) && StartHold(r) == StartHold(s)
    ensures r.textInputInteractiveModeActive == s.textInputInteractiveModeActive
    ensures r.keyToRepeat == s.keyToRepeat && r.keyRepeatTimerId == s.keyRepeatTimerId
  {
    if !triggerMode then s
    else if c == Left then s.(textInputPresetTriggerJsdevice := which, textInputPresetTriggerPressed := pressed)
    else if c == Right then s.(textInputConfirmTriggerJsdevice := which, textInputConfirmTriggerPressed := pressed)
    else s.(textInputInteractiveTriggerJsdevice := which, textInputInteractiveTriggerPressed := pressed)
  }

  /**
   * A d-pad direction that doubles as a text-input trigger: when its mode is
   * on it records its level and controller, and when start is held the
   * event is consumed by the combination; otherwise the direction's binding.
   */
  function TriggerDpad(w: World, env: Env, c: Control, triggerMode: bool, pressed: bool, which: int): (r: World)
    requires env.config.Valid() && c in {Left, Right, Down}
    ensures var s := r.state;
            triggerMode ==>
              (c == Left ==> s.textInputPresetTriggerPressed == pressed && s.textInputPresetTriggerJsdevice == which)
              && (c == Right ==> s.textInputConfirmTriggerPressed == pressed && s.textInputConfirmTriggerJsdevice == which)
              && (c == Down ==> s.textInputInteractiveTriggerPressed == pressed && s.textInputInteractiveTriggerJsdevice == which)
    ensures triggerMode && pressed && w.state.startPressed ==> r.out == w.out
    ensures !(triggerMode && pressed && w.state.startPressed) ==>
              r.out == w.out + KeyEvents(env.config.primary[c].key, pressed, env.config.primary[c].modifier)
    ensures !triggerMode ==> r == KeyWithRepeat(w, env.config, env.config.primary[c], pressed)
    ensures triggerMode && pressed && w.state.startPressed ==> r == w.(state := RecordTrigger(w.state, c, true, pressed, which))
    ensures triggerMode && !(pressed && w.state.startPressed) ==>
              r == KeyWithRepeat(w.(state := RecordTrigger(w.state, c, true, pressed, which)), env.config, env.config.primary[c], pressed)
    ensures HotkeyHold(r.state) == HotkeyHold(w.state) && StartHold(r.state) == StartHold(w.state)
    ensures WorldOk(w) ==> WorldOk(r)
    ensures SameRunState(w, r)
  {
    var w1 := w.(state := RecordTrigger(w.state, c, triggerMode, pressed, which));
    if triggerMode && w1.state.startPressed && pressed then w1
    else
      var r := KeyWithRepeat(w1, env.config, env.config.primary[c], pressed);
      assert r.state == w1.state.(keyToRepeat := r.state.keyToRepeat, keyRepeatTimerId := r.state.keyRepeatTimerId);
      HoldsIgnoreRepeat(w1.state, r.state.keyToRepeat, r.state.keyRepeatTimerId);
      r
  }

  /** The switch over the button in config mode. */
  function ConfigButton(w: World, env: Env, button: Button, pressed: bool, which: int): (r: World)
    requires env.config.Valid()
    ensures WorldOk(w) ==> WorldOk(r)
    ensures SameRunState(w, r)
    ensures button == OtherButton ==> r == w
  {
    var cfg := env.config;
    var m := env.modes;
    match button
    case DpadLeft => TriggerDpad(w, env, Left, m.textInputPresetMode, pressed, which)
    case DpadUp => KeyWithRepeat(w, cfg, cfg.primary[Up], pressed)
    case DpadRight => TriggerDpad(w, env, Right, m.textInputPresetMode, pressed, which)
    case DpadDown => TriggerDpad(w, env, Down, m.textInputInteractiveMode, pressed, which)
    case ButtonA => FaceButton(w, env, A, pressed)
    case ButtonB => FaceButton(w, env, B, pressed)
    case ButtonX => FaceButton(w, env, X, pressed)
    case ButtonY => FaceButton(w, env, Y, pressed)
    case LeftShoulder => FaceButton(w, env, L1, pressed)
    case RightShoulder => FaceButton(w, env, R1, pressed)
    case LeftStick => HotkeyButton(w, env, L3, L3OwnsHotkey(m), pressed, which)
    case RightStick => KeyWithRepeat(w, cfg, cfg.primary[R3], pressed)
    case ButtonGuide => HotkeyButton(w, env, Guide, GuideOwnsHotkey(m), pressed, which)
    case ButtonBack => HotkeyButton(w, env, Back, BackOwnsHotkey(m), pressed, which)
    case ButtonStart => StartButton(w, env, pressed, which)
    case OtherButton => w
  }

  /** The face buttons and the shoulders reach the combination handler with their control. */
  lemma ConfigButtonRoutesFace(w: World, env: Env, button: Button, pressed: bool, which: int)
    requires env.config.Valid()
    ensures button == ButtonA ==> ConfigButton(w, env, button, pressed, which) == FaceButton(w, env, A, pressed)
    ensures button == ButtonB ==> ConfigButton(w, env, button, pressed, which) == FaceButton(w, env, B, pressed)
    ensures button == ButtonX ==> ConfigButton(w, env, button, pressed, which) == FaceButton(w, env, X, pressed)
    ensures button == ButtonY ==> ConfigButton(w, env, button, pressed, which) == FaceButton(w, env, Y, pressed)
    ensures button == LeftShoulder ==> ConfigButton(w, env, button, pressed, which) == FaceButton(w, env, L1, pressed)
    ensures button == RightShoulder ==> ConfigButton(w, env, button, pressed, which) == FaceButton(w, env, R1, pressed)
  {
  }

  /** The hotkey holders reach the hold handler with their ownership rule, start its own handler. */
  lemma ConfigButtonRoutesHold(w: World, env: Env, button: Button, pressed: bool, which: int)
    requires env.config.Valid()
    ensures button == LeftStick ==> ConfigButton(w, env, button, pressed, which) == HotkeyButton(w, env, L3, L3OwnsHotkey(env.modes), pressed, which)
    ensures button == ButtonGuide ==> ConfigButton(w, env, button, pressed, which) == HotkeyButton(w, env, Guide, GuideOwnsHotkey(env.modes), pressed, which)
    ensures button == ButtonBack ==> ConfigButton(w, env, button, pressed, which) == HotkeyButton(w, env, Back, BackOwnsHotkey(env.modes), pressed, which)
    ensures button == ButtonStart ==> ConfigButton(w, env, button, pressed, which) == StartButton(w, env, pressed, which)
  {
  }

  /** D-pad left, right and down can be text-entry triggers. */
  lemma ConfigButtonRoutesDpad(w: World, env: Env, button: Button, pressed: bool, which: int)
    requires env.config.Valid()
    ensures button == DpadLeft ==> ConfigButton(w, env, button, pressed, which) == TriggerDpad(w, env, Left, env.modes.textInputPresetMode, pressed, which)
    ensures button == DpadRight ==> ConfigButton(w, env, button, pressed, which) == TriggerDpad(w, env, Right, env.modes.textInputPresetMode, pressed, which)
    ensures button == DpadDown ==> ConfigButton(w, env, button, pressed, which) == TriggerDpad(w, env, Down, env.modes.textInputInteractiveMode, pressed, which)
  {
  }

  /** D-pad up and the right stick are plain keys with the guarded repeat. */
  lemma ConfigButtonRoutesPlain(w: World, env: Env, button: Button, pressed: bool, which: int)
    requires env.config.Valid()
    ensures button == DpadUp ==> ConfigButton(w, env, button, pressed, which) == KeyWithRepeat(w, env.config, env.config.primary[Up], pressed)
    ensures button == RightStick ==> ConfigButton(w, env, button, pressed, which) == KeyWithRepeat(w, env.config, env.config.primary[R3], pressed)
  {
  }
}

=== FILE: codes.dfy ===
/**
 * Linux input event codes (linux/input-event-codes.h) and SDL constants
 * that the remapper refers to by name. Only the codes the model uses are
 * listed; the values are those of the kernel header.
 */
module Codes {

  // Relative axes
  const REL_X: int := 0x00
  const REL_Y: int := 0x01

  // Absolute axes
  const ABS_X: int := 0x00
  const ABS_Y: int := 0x01
  const ABS_Z: int := 0x02
  const ABS_RX: int := 0x03
  const ABS_RY: int := 0x04
  const ABS_RZ: int := 0x05
  const ABS_HAT0X: int := 0x10
  const ABS_HAT0Y: int := 0x11

  // Keyboard keys
  const KEY_ESC: int := 1
  const KEY_MINUS: int := 12
  const KEY_BACKSPACE: int := 14
  const KEY_W: int := 17
  const KEY_ENTER: int := 28
  const KEY_LEFTCTRL: int := 29
  const KEY_A: int := 30
  const KEY_S: int := 31
  const KEY_D: int := 32
  const KEY_LEFTSHIFT: int := 42
  const KEY_Z: int := 44
  const KEY_X: int := 45
  const KEY_C: int := 46
  const KEY_COMMA: int := 51
  const KEY_DOT: int := 52
  const KEY_RIGHTSHIFT: int := 54
  const KEY_LEFTALT: int := 56
  const KEY_SPACE: int := 57
  const KEY_F4: int := 62
  const KEY_HOME: int := 102
  const KEY_UP: int := 103
  const KEY_LEFT: int := 105
  const KEY_RIGHT: int := 106
  const KEY_END: int := 107
  const KEY_DOWN: int := 108

  // Mouse and gamepad buttons
  const BTN_LEFT: int := 0x110
  const BTN_RIGHT: int := 0x111
  const BTN_A: int := 0x130
  const BTN_B: int := 0x131
  const BTN_X: int := 0x133
  const BTN_Y: int := 0x134
  const BTN_TL: int := 0x136
  const BTN_TR: int := 0x137
  const BTN_SELECT: int := 0x13a
  const BTN_START: int := 0x13b
  const BTN_MODE: int := 0x13c
  const BTN_THUMBL: int := 0x13d
  const BTN_THUMBR: int := 0x13e

  // Key-repeat timing defaults in milliseconds (SDL's keyboard repeat constants)
  const SDL_DEFAULT_REPEAT_DELAY: int := 500
  const SDL_DEFAULT_REPEAT_INTERVAL: int := 30
}

=== FILE: combos.dfy ===
/**
 * The checks that follow every config-mode button event: the kill
 * combination (start with the hotkey) and the three start combinations of
 * the text-input modes (start with d-pad left types the preset text, with
 * d-pad right presses Enter, with d-pad down enters interactive text
 * entry). Each fires only when both buttons were pressed on the same
 * controller, but consumes the start press either way.
 */
module Combos {
  import opened Codes
  import opened Wrappers
  import opened Structs
  import opened Events
  import opened KeyboardSetup
  import opened Machine

  /** Alt+F4, sent before killing in PC kill mode. */
  const AltF4Events: seq<OutEvent> := KeyEvents(KEY_F4, true, KEY_LEFTALT) + KeyEvents(KEY_F4, false, KEY_LEFTALT)

  /** The kill combination is held. */
  predicate KillHeld(s: State, m: Modes)
  {
    m.killMode && s.startPressed && s.hotkeyPressed
  }

  /**
   * The kill combination: Alt+F4 in PC kill mode; in config mode the repeat
   * timer is removed; the program exits (`killed`) when start and the
   * hotkey were pressed on the same controller.
   */
  function Kill(w: World, env: Env, removeTimer: bool): (r: World)
    ensures r.killed <==> w.killed || w.state.startJsdevice == w.state.hotkeyJsdevice
    ensures r.out == w.out + (if env.modes.pcKillMode then AltF4Events else [])
    ensures removeTimer ==> r.sdl == RemoveTimer(w.sdl, w.state.keyRepeatTimerId)
    ensures !removeTimer ==> r.sdl == w.sdl
    ensures r.state == w.state && r.kb == w.kb
    ensures WorldOk(w) ==> WorldOk(r)
  {
    var w1 := if env.modes.pcKillMode then Emit(w, AltF4Events) else w;
    var w2 := if removeTimer then w1.(sdl := RemoveTimer(w1.sdl, w1.state.keyRepeatTimerId)) else w1;
    w2.(killed := w.killed || w.state.startJsdevice == w.state.hotkeyJsdevice)
  }

  /** The start press and the d-pad left trigger consumed, whatever the combination did. */
  function ConsumePresetTrigger(s: State): (r: State)
    ensures r == s.(startComboTriggered := true, startPressed := false, startJsdevice := 0,
                    textInputPresetTriggerPressed := false, textInputPresetTriggerJsdevice := 0)
  {
    s.(startComboTriggered := true, startPressed := false, startJsdevice := 0,
       textInputPresetTriggerPressed := false, textInputPresetTriggerJsdevice := 0)
  }

  /** The start press and the d-pad right trigger consumed, whatever the combination did. */
  function ConsumeConfirmTrigger(s: State): (r: State)
    ensures r == s.(startComboTriggered := true, startPressed := false, startJsdevice := 0,
                    textInputConfirmTriggerPressed := false, textInputConfirmTriggerJsdevice := 0)
  {
    s.(startComboTriggered := true, startPressed := false, startJsdevice := 0,
       textInputConfirmTriggerPressed := false, textInputConfirmTriggerJsdevice := 0)
  }

  /** Start with d-pad left in preset mode: types the preset text when both came from one controller. */
  function PresetCombo(w: World, env: Env): (r: World)
    ensures r.state == ConsumePresetTrigger(w.state)
    ensures var fires := w.state.startJsdevice == w.state.textInputPresetTriggerJsdevice && env.config.textInputPreset.Some?;
            r.out == w.out + (if fires then PresetEvents(env, CString(env.config.textInputPreset.value)) else [])
    ensures r.sdl == w.sdl && r.kb == w.kb && r.killed == w.killed
    ensures WorldOk(w) ==> WorldOk(r)
  {
    var s := ConsumePresetTrigger(w.state);
    if w.state.startJsdevice == w.state.textInputPresetTriggerJsdevice && env.config.textInputPreset.Some? then
      World(s, w.sdl, w.kb, w.out + PresetEvents(env, CString(env.config.textInputPreset.value)), w.killed)
    else
      assert w.out + [] == w.out;
      World(s, w.sdl, w.kb, w.out, w.killed)
  }

  /** Start with d-pad right in preset mode: presses and releases Enter when both came from one controller. */
  function ConfirmCombo(w: World, env: Env): (r: World)
    ensures r.state == ConsumeConfirmTrigger(w.state)
    ensures var enter := env.resolve("enter");
            r.out == w.out + (if w.state.startJsdevice == w.state.textInputConfirmTriggerJsdevice
                              then KeyEvents(enter, true, 0) + KeyEvents(enter, false, 0) else [])
    ensures r.sdl == w.sdl && r.kb == w.kb && r.killed == w.killed
    ensures WorldOk(w) ==> WorldOk(r)
  {
    var enter := env.resolve("enter");
    var w1 := if w.state.startJsdevice == w.state.textInputConfirmTriggerJsdevice
              then Emit(w, KeyEvents(enter, true, 0) + KeyEvents(enter, false, 0)) else w;
    w1.(state := ConsumeConfirmTrigger(w1.state))
  }

  /**
   * Entering interactive text entry: active, the repeat timer removed, the
   * cursor back at the first position and its character typed.
   */
  function Activate(w: World): (r: World)
    requires WorldOk(w)
    ensures WorldOk(r)
    ensures r.state == w.state.(textInputInteractiveModeActive := true)
    ensures r.kb == w.kb.(currentCharacter := 0)
    ensures r.out == w.out + SelectedCharEvents(r.kb)
    ensures r.sdl.timer.None? && r.killed == w.killed
  {
    var kb := w.kb.(currentCharacter := 0);
    AddChar(World(w.state.(textInputInteractiveModeActive := true), RemoveTimer(w.sdl, w.state.keyRepeatTimerId),
                  kb, w.out, w.killed))
  }

  /** The start press and the d-pad down trigger consumed, whatever the combination did. */
  function ConsumeInteractiveTrigger(s: State): (r: State)
    ensures r.startComboTriggered && !r.startPressed && !r.textInputInteractiveTriggerPressed
    ensures r.startJsdevice == 0 && r.textInputInteractiveTriggerJsdevice == 0
    ensures r == s.(startComboTriggered := true, startPressed := false, startJsdevice := 0,
                    textInputInteractiveTriggerPressed := false, textInputInteractiveTriggerJsdevice := 0)
  {
    s.(startComboTriggered := true, textInputInteractiveTriggerPressed := false, startPressed := false,
       textInputInteractiveTriggerJsdevice := 0, startJsdevice := 0)
  }

  /** Start with d-pad down in interactive mode: entry is activated when both came from one controller. */
  function InteractiveCombo(w: World, env: Env): (r: World)
    requires WorldOk(w)
    ensures WorldOk(r)
    ensures r.state.startComboTriggered && !r.state.startPressed && !r.state.textInputInteractiveTriggerPressed
    ensures r.state.startJsdevice == 0 && r.state.textInputInteractiveTriggerJsdevice == 0
    ensures r.state == ConsumeInteractiveTrigger(w.state).(textInputInteractiveModeActive :=
                         w.state.textInputInteractiveModeActive || w.state.startJsdevice == w.state.textInputInteractiveTriggerJsdevice)
    ensures w.state.startJsdevice == w.state.textInputInteractiveTriggerJsdevice ==>
              && r.state.textInputInteractiveModeActive
              && r.kb == Activate(w).kb && r.out == Activate(w).out && r.sdl == Activate(w).sdl
    ensures w.state.startJsdevice != w.state.textInputInteractiveTriggerJsdevice ==>
              && r.state.textInputInteractiveModeActive == w.state.textInputInteractiveModeActive
              && r.kb == w.kb && r.out == w.out && r.sdl == w.sdl
    ensures r.killed == w.killed
  {
    var fires := w.state.startJsdevice == w.state.textInputInteractiveTriggerJsdevice;
    var s := ConsumeInteractiveTrigger(w.state).(textInputInteractiveModeActive := w.state.textInputInteractiveModeActive || fires);
    if fires then Activate(w).(state := s) else w.(state := s)
  }

  /** The checks after the config-mode switch, in order: kill, preset, confirm, interactive. */
  function AfterButton(w: World, env: Env): (r: World)
    requires WorldOk(w)
    ensures WorldOk(r)
    ensures KillHeld(w.state, env.modes) ==> r == Kill(w, env, true)
    ensures var s, m := w.state, env.modes;
            !KillHeld(s, m) && m.textInputPresetMode && s.textInputPresetTriggerPressed && s.startPressed ==>
              r == PresetCombo(w, env)
    ensures var s, m := w.state, env.modes;
            !KillHeld(s, m) && !(m.textInputPresetMode && s.textInputPresetTriggerPressed && s.startPressed)
            && m.textInputPresetMode && s.textInputConfirmTriggerPressed && s.startPressed ==>
              r == ConfirmCombo(w, env)
    ensures var s, m := w.state, env.modes;
            !KillHeld(s, m) && !(m.textInputPresetMode && (s.textInputPresetTriggerPressed || s.textInputConfirmTriggerPressed))
            && m.textInputInteractiveMode && s.textInputInteractiveTriggerPressed && s.startPressed ==>
              r == InteractiveCombo(w, env)
    ensures var s, m := w.state, env.modes;
            && !KillHeld(s, m)
            && !(m.textInputPresetMode && (s.textInputPresetTriggerPressed || s.textInputConfirmTriggerPressed) && s.startPressed)
            && !(m.textInputInteractiveMode && s.textInputInteractiveTriggerPressed && s.startPressed) ==>
              r == w
    ensures r.state.textInputInteractiveModeActive && !w.state.textInputInteractiveModeActive ==>
              && env.modes.textInputInteractiveMode && w.state.startPressed && w.state.textInputInteractiveTriggerPressed
              && w.state.startJsdevice == w.state.textInputInteractiveTriggerJsdevice
    ensures r.killed && !w.killed ==> KillHeld(w.state, env.modes) && w.state.startJsdevice == w.state.hotkeyJsdevice
  {
    var s := w.state;
    var m := env.modes;
    if KillHeld(s, m) then Kill(w, env, true)
    else if m.textInputPresetMode && s.textInputPresetTriggerPressed && s.startPressed then PresetCombo(w, env)
    else if m.textInputPresetMode && s.textInputConfirmTriggerPressed && s.startPressed then ConfirmCombo(w, env)
    else if m.textInputInteractiveMode && s.textInputInteractiveTriggerPressed && s.startPressed then InteractiveCombo(w, env)
    else w
  }
}

=== FILE: config.dfy ===
/**
 * Reading a mapping file: each parsed `key = value` option updates one
 * field of the configuration (readConfigFile). An option key names a
 * control's primary binding, a control's `_hk` combination, or a numeric
 * setting; any other key is ignored.
 */
module ConfigFile {
  import opened Codes
  import opened Wrappers
  import opened Structs

  /** One parsed `key = value` line of a mapping file. */
  datatype ConfigOption = ConfigOption(key: string, value: string)

  /** The numeric settings a mapping file can change. */
  datatype NumericField =
    | DeadzoneY | DeadzoneX | DeadzoneTriggers
    | MouseScale | MouseDelay
    | RepeatDelay | RepeatInterval

  /** What an option key refers to. */
  datatype Target =
    | PrimaryKey(control: Control)
    | ComboKey(control: Control)
    | NumericKey(field: NumericField)
    | UnknownKey

  /** The option key of a control's primary binding. */
  function ControlName(c: Control): string
  {
    match c
    case Back => "back"
    case Start => "start"
    case Guide => "guide"
    case A => "a"
    case B => "b"
    case X => "x"
    case Y => "y"
    case L1 => "l1"
    case L2 => "l2"
    case L3 => "l3"
    case R1 => "r1"
    case R2 => "r2"
    case R3 => "r3"
    case Up => "up"
    case Down => "down"
    case Left => "left"
    case Right => "right"
    case LeftAnalogUp => "left_analog_up"
    case LeftAnalogDown => "left_analog_down"
    case LeftAnalogLeft => "left_analog_left"
    case LeftAnalogRight => "left_analog_right"
    case RightAnalogUp => "right_analog_up"
    case RightAnalogDown => "right_analog_down"
    case RightAnalogLeft => "right_analog_left"
    case RightAnalogRight => "right_analog_right"
  }

  /** The option key of a numeric setting. */
  function FieldName(f: NumericField): string
  {
    match f
    case DeadzoneY => "deadzone_y"
    case DeadzoneX => "deadzone_x"
    case DeadzoneTriggers => "deadzone_triggers"
    case MouseScale => "mouse_scale"
    case MouseDelay => "mouse_delay"
    case RepeatDelay => "repeat_delay"
    case RepeatInterval => "repeat_interval"
  }

  /** The button keys of readConfigFile's comparison chain, in its order. */
  function ParseButtonKey(key: string): (t: Target)
    ensures t.PrimaryKey? ==> ControlName(t.control) == key
    ensures t.ComboKey? ==> HasCombo(t.control) && ControlName(t.control) + "_hk" == key
    ensures !t.NumericKey?
  {
    if key == "back" then PrimaryKey(Back)
    else if key == "guide" then PrimaryKey(Guide)
    else if key == "start" then PrimaryKey(Start)
    else if key == "a" then PrimaryKey(A)
    else if key == "a_hk" then ComboKey(A)
    else if key == "b" then PrimaryKey(B)
    else if key == "b_hk" then ComboKey(B)
    else if key == "x" then PrimaryKey(X)
    else if key == "x_hk" then ComboKey(X)
    else if key == "y" then PrimaryKey(Y)
    else if key == "y_hk" then ComboKey(Y)
    else if key == "l1" then PrimaryKey(L1)
    else if key == "l1_hk" then ComboKey(L1)
    else if key == "l2" then PrimaryKey(L2)
    else if key == "l2_hk" then ComboKey(L2)
    else if key == "l3" then PrimaryKey(L3)
    else if key == "r1" then PrimaryKey(R1)
    else if key == "r1_hk" then ComboKey(R1)
    else if key == "r2" then PrimaryKey(R2)
    else if key == "r2_hk" then ComboKey(R2)
    else if key == "r3" then PrimaryKey(R3)
    else UnknownKey
  }

  /** The d-pad and stick keys of the chain. */
  function ParseDirectionKey(key: string): (t: Target)
    ensures t.PrimaryKey? || t.UnknownKey?
    ensures t.PrimaryKey? ==> ControlName(t.control) == key
  {
    if key == "up" then PrimaryKey(Up)
    else if key == "down" then PrimaryKey(Down)
    else if key == "left" then PrimaryKey(Left)
    else if key == "right" then PrimaryKey(Right)
    else if key == "left_analog_up" then PrimaryKey(LeftAnalogUp)
    else if key == "left_analog_down" then PrimaryKey(LeftAnalogDown)
    else if key == "left_analog_left" then PrimaryKey(LeftAnalogLeft)
    else if key == "left_analog_right" then PrimaryKey(LeftAnalogRight)
    else if key == "right_analog_up" then PrimaryKey(RightAnalogUp)
    else if key == "right_analog_down" then PrimaryKey(RightAnalogDown)
    else if key == "right_analog_left" then PrimaryKey(RightAnalogLeft)
    else if key == "right_analog_right" then PrimaryKey(RightAnalogRight)
    else UnknownKey
  }

  /** The numeric-setting keys that end the chain. */
  function ParseNumericKey(key: string): (t: Target)
    ensures t.NumericKey? || t.UnknownKey?
    ensures t.NumericKey? ==> FieldName(t.field) == key
  {
    if key == "deadzone_y" then NumericKey(DeadzoneY)
    else if key == "deadzone_x" then NumericKey(DeadzoneX)
    else if key == "deadzone_triggers" then NumericKey(DeadzoneTriggers)
    else if key == "mouse_scale" then NumericKey(MouseScale)
    else if key == "mouse_delay" then NumericKey(MouseDelay)
    else if key == "repeat_delay" then NumericKey(RepeatDelay)
    else if key == "repeat_interval" then NumericKey(RepeatInterval)
    else UnknownKey
  }

  /** Classifies an option key, in the order readConfigFile compares it; a key it does not know is ignored. */
  function ParseKey(key: string): (t: Target)
    ensures t.PrimaryKey? ==> ControlName(t.control) == key
    ensures t.ComboKey? ==> HasCombo(t.control) && ControlName(t.control) + "_hk" == key
    ensures t.NumericKey? ==> FieldName(t.field) == key
  {
    var b := ParseButtonKey(key);
    if !b.UnknownKey? then b
    else
      var d := ParseDirectionKey(key);
      if !d.UnknownKey? then d else ParseNumericKey(key)
  }

  // One lemma per key of the comparison chain: each key is classified as what it names.

  lemma KeyBackRecognised() ensures ParseKey("back") == PrimaryKey(Back) {}
  lemma KeyGuideRecognised() ensures ParseKey("guide") == PrimaryKey(Guide) {}
  lemma KeyStartRecognised() ensures ParseKey("start") == PrimaryKey(Start) {}
  lemma KeyARecognised() ensures ParseKey("a") == PrimaryKey(A) {}
  lemma KeyAHkRecognised() ensures ParseKey("a_hk") == ComboKey(A) {}
  lemma KeyBRecognised() ensures ParseKey("b") == PrimaryKey(B) {}
  lemma KeyBHkRecognised() ensures ParseKey("b_hk") == ComboKey(B) {}
  lemma KeyXRecognised() ensures ParseKey("x") == PrimaryKey(X) {}
  lemma KeyXHkRecognised() ensures ParseKey("x_hk") == ComboKey(X) {}
  lemma KeyYRecognised() ensures ParseKey("y") == PrimaryKey(Y) {}
  lemma KeyYHkRecognised() ensures ParseKey("y_hk") == ComboKey(Y) {}
  lemma KeyL1Recognised() ensures ParseKey("l1") == PrimaryKey(L1) {}
  lemma KeyL1HkRecognised() ensures ParseKey("l1_hk") == ComboKey(L1) {}
  lemma KeyL2Recognised() ensures ParseKey("l2") == PrimaryKey(L2) {}
  lemma KeyL2HkRecognised() ensures ParseKey("l2_hk") == ComboKey(L2) {}
  lemma KeyL3Recognised() ensures ParseKey("l3") == PrimaryKey(L3) {}
  lemma KeyR1Recognised() ensures ParseKey("r1") == PrimaryKey(R1) {}
  lemma KeyR1HkRecognised() ensures ParseKey("r1_hk") == ComboKey(R1) {}
  lemma KeyR2Recognised() ensures ParseKey("r2") == PrimaryKey(R2) {}
  lemma KeyR2HkRecognised() ensures ParseKey("r2_hk") == ComboKey(R2) {}
  lemma KeyR3Recognised() ensures ParseKey("r3") == PrimaryKey(R3) {}
  lemma KeyUpRecognised() ensures ParseKey("up") == PrimaryKey(Up) {}
  lemma KeyDownRecognised() ensures ParseKey("down") == PrimaryKey(Down) {}
  lemma KeyLeftRecognised() ensures ParseKey("left") == PrimaryKey(Left) {}
  lemma KeyRightRecognised() ensures ParseKey("right") == PrimaryKey(Right) {}
  lemma KeyLeftAnalogUpRecognised() ensures ParseKey("left_analog_up") == PrimaryKey(LeftAnalogUp) {}
  lemma KeyLeftAnalogDownRecognised() ensures ParseKey("left_analog_down") == PrimaryKey(LeftAnalogDown) {}
  lemma KeyLeftAnalogLeftRecognised() ensures ParseKey("left_analog_left") == PrimaryKey(LeftAnalogLeft) {}
  lemma KeyLeftAnalogRightRecognised() ensures ParseKey("left_analog_right") == PrimaryKey(LeftAnalogRight) {}
  lemma KeyRightAnalogUpRecognised() ensures ParseKey("right_analog_up") == PrimaryKey(RightAnalogUp) {}
  lemma KeyRightAnalogDownRecognised() ensures ParseKey("right_analog_down") == PrimaryKey(RightAnalogDown) {}
  lemma KeyRightAnalogLeftRecognised() ensures ParseKey("right_analog_left") == PrimaryKey(RightAnalogLeft) {}
  lemma KeyRightAnalogRightRecognised() ensures ParseKey("right_analog_right") == PrimaryKey(RightAnalogRight) {}
  lemma KeyDeadzoneYRecognised() ensures ParseKey("deadzone_y") == NumericKey(DeadzoneY) {}
  lemma KeyDeadzoneXRecognised() ensures ParseKey("deadzone_x") == NumericKey(DeadzoneX) {}
  lemma KeyDeadzoneTriggersRecognised() ensures ParseKey("deadzone_triggers") == NumericKey(DeadzoneTriggers) {}
  lemma KeyMouseScaleRecognised() ensures ParseKey("mouse_scale") == NumericKey(MouseScale) {}
  lemma KeyMouseDelayRecognised() ensures ParseKey("mouse_delay") == NumericKey(MouseDelay) {}
  lemma KeyRepeatDelayRecognised() ensures ParseKey("repeat_delay") == NumericKey(RepeatDelay) {}
  lemma KeyRepeatIntervalRecognised() ensures ParseKey("repeat_interval") == NumericKey(RepeatInterval) {}

  /** Every numeric setting's key is recognised as what it names. */
  lemma ParseKeyRecognisesFields(f: NumericField)
    ensures ParseKey(FieldName(f)) == NumericKey(f)
  {
    match f
    case DeadzoneY => KeyDeadzoneYRecognised();
    case DeadzoneX => KeyDeadzoneXRecognised();
    case DeadzoneTriggers => KeyDeadzoneTriggersRecognised();
    case MouseScale => KeyMouseScaleRecognised();
    case MouseDelay => KeyMouseDelayRecognised();
    case RepeatDelay => KeyRepeatDelayRecognised();
    case RepeatInterval => KeyRepeatIntervalRecognised();
  }

  /** Every control's key names it. */
  lemma ParseKeyRecognisesPrimary(c: Control)
    ensures ParseKey(ControlName(c)) == PrimaryKey(c)
  {
    match c
    case Back => KeyBackRecognised();
    case Guide => KeyGuideRecognised();
    case Start => KeyStartRecognised();
    case A => KeyARecognised();
    case B => KeyBRecognised();
    case X => KeyXRecognised();
    case Y => KeyYRecognised();
    case L1 => KeyL1Recognised();
    case L2 => KeyL2Recognised();
    case L3 => KeyL3Recognised();
    case R1 => KeyR1Recognised();
    case R2 => KeyR2Recognised();
    case R3 => KeyR3Recognised();
    case Up => KeyUpRecognised();
    case Down => KeyDownRecognised();
    case Left => KeyLeftRecognised();
    case Right => KeyRightRecognised();
    case LeftAnalogUp => KeyLeftAnalogUpRecognised();
    case LeftAnalogDown => KeyLeftAnalogDownRecognised();
    case LeftAnalogLeft => KeyLeftAnalogLeftRecognised();
    case LeftAnalogRight => KeyLeftAnalogRightRecognised();
    case RightAnalogUp => KeyRightAnalogUpRecognised();
    case RightAnalogDown => KeyRightAnalogDownRecognised();
    case RightAnalogLeft => KeyRightAnalogLeftRecognised();
    case RightAnalogRight => KeyRightAnalogRightRecognised();
  }

  /** Every `_hk` key names its control. */
  lemma ParseKeyRecognisesCombo(c: Control)
    requires HasCombo(c)
    ensures ParseKey(ControlName(c) + "_hk") == ComboKey(c)
  {
    match c
    case A => KeyAHkRecognised(); assert ControlName(c) + "_hk" == "a_hk";
    case B => KeyBHkRecognised(); assert ControlName(c) + "_hk" == "b_hk";
    case X => KeyXHkRecognised(); assert ControlName(c) + "_hk" == "x_hk";
    case Y => KeyYHkRecognised(); assert ControlName(c) + "_hk" == "y_hk";
    case L1 => KeyL1HkRecognised(); assert ControlName(c) + "_hk" == "l1_hk";
    case L2 => KeyL2HkRecognised(); assert ControlName(c) + "_hk" == "l2_hk";
    case R1 => KeyR1HkRecognised(); assert ControlName(c) + "_hk" == "r1_hk";
    case R2 => KeyR2HkRecognised(); assert ControlName(c) + "_hk" == "r2_hk";
  }

  /** Every control's key and `_hk` key names it. */
  lemma ParseKeyRecognisesControls(c: Control)
    ensures ParseKey(ControlName(c)) == PrimaryKey(c)
    ensures HasCombo(c) ==> ParseKey(ControlName(c) + "_hk") == ComboKey(c)
  {
    ParseKeyRecognisesPrimary(c);
    if HasCombo(c) {
      ParseKeyRecognisesCombo(c);
    }
  }

  predicate IsSpace(ch: char)
  {
    ch == ' ' || ch == '\t' || ch == '\n' || ch == '\r' || ch == '\U{0B}' || ch == '\U{0C}'
  }

  predicate IsDigit(ch: char)
  {
    '0' <= ch <= '9'
  }

  /** The string without its leading white space. */
  function SkipSpace(s: string): (r: string)
    ensures |r| <= |s| && r == s[|s| - |r|..]
    ensures r == [] || !IsSpace(r[0])
  {
    if s != [] && IsSpace(s[0]) then SkipSpace(s[1..]) else s
  }

  /** The longest prefix of `s` made of decimal digits. */
  function LeadingDigits(s: string): (r: string)
    ensures |r| <= |s| && r == s[..|r|]
    ensures forall i :: 0 <= i < |r| ==> IsDigit(r[i])
    ensures |r| < |s| ==> !IsDigit(s[|r|])
  {
    if s != [] && IsDigit(s[0]) then [s[0]] + LeadingDigits(s[1..]) else []
  }

  /** The value of a string of decimal digits, most significant first. */
  function DigitsValue(d: string): (n: nat)
    requires forall i :: 0 <= i < |d| ==> IsDigit(d[i])
  {
    if d == [] then 0 else assert IsDigit(d[|d| - 1]); 10 * DigitsValue(d[..|d| - 1]) + (d[|d| - 1] as int - '0' as int)
  }

  /**
   * atoi: leading white space is skipped, one optional sign is read, then
   * as many decimal digits as follow; a string with no digits there reads
   * as 0. The C function's behaviour on overflow is undefined; here the
   * value is unbounded.
   */
  function Atoi(s: string): (r: int)
  {
    var t := SkipSpace(s);
    if t != [] && t[0] == '-' then 0 - DigitsValue(LeadingDigits(t[1..]))
    else if t != [] && t[0] == '+' then DigitsValue(LeadingDigits(t[1..]))
    else DigitsValue(LeadingDigits(t))
  }

  /** The decimal numeral of a natural number (a reference printer for Atoi). */
  function ShowNat(n: nat): (d: string)
    ensures |d| > 0
    ensures forall i :: 0 <= i < |d| ==> IsDigit(d[i])
  {
    if n < 10 then [('0' as int + n) as char]
    else ShowNat(n / 10) + [('0' as int + n % 10) as char]
  }

  function ShowInt(n: int): string
  {
    if n < 0 then "-" + ShowNat(-n) else ShowNat(n)
  }

  lemma {:induction false} DigitsValueShowNat(n: nat)
    ensures DigitsValue(ShowNat(n)) == n
  {
    var d := ShowNat(n);
    if n >= 10 {
      DigitsValueShowNat(n / 10);
      assert d[..|d| - 1] == ShowNat(n / 10);
    }
  }

  lemma {:induction false} LeadingDigitsAllDigits(d: string)
    requires forall i :: 0 <= i < |d| ==> IsDigit(d[i])
    ensures LeadingDigits(d) == d
  {
    if d != [] {
      LeadingDigitsAllDigits(d[1..]);
    }
  }

  /** atoi reads a numeral as its value. */
  lemma AtoiNumeral(d: string)
    requires |d| > 0 && forall i :: 0 <= i < |d| ==> IsDigit(d[i])
    ensures Atoi(d) == DigitsValue(d)
  {
    LeadingDigitsAllDigits(d);
    assert IsDigit(d[0]) && !IsSpace(d[0]) && d[0] != '-' && d[0] != '+';
    assert SkipSpace(d) == d;
  }

  /** atoi reads a numeral after a minus sign as its negated value. */
  lemma AtoiNegativeNumeral(d: string)
    requires |d| > 0 && forall i :: 0 <= i < |d| ==> IsDigit(d[i])
    ensures Atoi("-" + d) == 0 - DigitsValue(d)
  {
    LeadingDigitsAllDigits(d);
    var t := "-" + d;
    assert t[0] == '-' && !IsSpace(t[0]);
    assert SkipSpace(t) == t;
    assert t[1..] == d;
  }

  /** atoi reads back every integer printed in decimal. */
  lemma AtoiShowInt(n: int)
    ensures Atoi(ShowInt(n)) == n
  {
    var m: nat := if n < 0 then -n else n;
    DigitsValueShowNat(m);
    if n < 0 {
      AtoiNegativeNumeral(ShowNat(m));
    } else {
      AtoiNumeral(ShowNat(m));
    }
  }

  /** Leading white space does not change what atoi reads. */
  lemma AtoiSkipsSpace(ch: char, s: string)
    requires IsSpace(ch)
    ensures Atoi([ch] + s) == Atoi(s)
  {
    assert ([ch] + s)[1..] == s;
  }

  /** A value that, after its white space, does not start with a sign or a digit reads as 0. */
  lemma AtoiNoNumber(s: string)
    requires var t := SkipSpace(s); t == [] || (!IsDigit(t[0]) && t[0] != '-' && t[0] != '+')
    ensures Atoi(s) == 0
  {
    var t := SkipSpace(s);
    assert LeadingDigits(t) == [];
  }

  const Uint32Range: int := 0x1_0000_0000

  /** Conversion of a C int to Uint32: the value modulo 2^32. */
  function ToUint32(n: int): (r: int)
    ensures 0 <= r < Uint32Range
    ensures (r - n) % Uint32Range == 0
  {
    n % Uint32Range
  }

  /** A negative repeat setting wraps to a huge delay instead of being rejected. */
  lemma NegativeRepeatWraps()
    ensures ToUint32(Atoi("-1")) == 0xFFFF_FFFF
  {
    assert SkipSpace("-1") == "-1";
    assert "-1"[1..] == "1";
    assert LeadingDigits("1") == "1";
    assert DigitsValue("1") == 1;
  }

  // ---------------------------------------------------------------------
  // Applying options

  /** The modifier an `add_alt`, `add_ctrl` or `add_shift` value selects. */
  function ModifierFor(value: string): (r: Option<int>)
    ensures r.Some? <==> value == "add_alt" || value == "add_ctrl" || value == "add_shift"
    ensures r.Some? ==> r.value == KEY_LEFTALT || r.value == KEY_LEFTCTRL || r.value == KEY_LEFTSHIFT
  {
    if value == "add_alt" then Some(KEY_LEFTALT)
    else if value == "add_ctrl" then Some(KEY_LEFTCTRL)
    else if value == "add_shift" then Some(KEY_LEFTSHIFT)
    else None
  }

  /** A primary-binding value: `repeat`, a modifier, or a key name for char_to_keycode (`resolve`). */
  function UpdateBinding(b: Binding, value: string, resolve: string -> int): (r: Binding)
    ensures value == "repeat" ==> r == b.(repeat := true)
    ensures value != "repeat" && ModifierFor(value).Some? ==> r == b.(modifier := ModifierFor(value).value)
    ensures value != "repeat" && ModifierFor(value).None? ==> r == b.(key := resolve(value))
  {
    if value == "repeat" then b.(repeat := true)
    else match ModifierFor(value)
      case Some(m) => b.(modifier := m)
      case None => b.(key := resolve(value))
  }

  /** An `_hk` value: a modifier or a key name; `repeat` has no meaning here and is looked up as a key name. */
  function UpdateCombo(b: Combo, value: string, resolve: string -> int): (r: Combo)
    ensures ModifierFor(value).Some? ==> r == b.(modifier := ModifierFor(value).value)
    ensures ModifierFor(value).None? ==> r == b.(key := resolve(value))
  {
    match ModifierFor(value)
    case Some(m) => b.(modifier := m)
    case None => b.(key := resolve(value))
  }

  /** A primary-binding option; `mouse_movement_up` on a stick's up key switches that stick to mouse movement instead. */
  function ApplyToControl(cfg: Config, c: Control, value: string, resolve: string -> int): (r: Config)
    requires cfg.Valid()
    ensures r.Valid() && r.combo == cfg.combo
    ensures forall c' :: c' != c ==> r.primary[c'] == cfg.primary[c']
    ensures c == LeftAnalogUp && value == "mouse_movement_up" ==> r == cfg.(leftAnalogAsMouse := true)
    ensures c == RightAnalogUp && value == "mouse_movement_up" ==> r == cfg.(rightAnalogAsMouse := true)
    ensures !(c in {LeftAnalogUp, RightAnalogUp} && value == "mouse_movement_up") ==>
              r == cfg.(primary := cfg.primary[c := UpdateBinding(cfg.primary[c], value, resolve)])
  {
    if c == LeftAnalogUp && value == "mouse_movement_up" then cfg.(leftAnalogAsMouse := true)
    else if c == RightAnalogUp && value == "mouse_movement_up" then cfg.(rightAnalogAsMouse := true)
    else cfg.(primary := cfg.primary[c := UpdateBinding(cfg.primary[c], value, resolve)])
  }

  /** An `_hk` option. */
  function ApplyToCombo(cfg: Config, c: Control, value: string, resolve: string -> int): (r: Config)
    requires cfg.Valid() && HasCombo(c)
    ensures r.Valid() && r.primary == cfg.primary
    ensures forall c' :: HasCombo(c') && c' != c ==> r.combo[c'] == cfg.combo[c']
    ensures r == cfg.(combo := cfg.combo[c := UpdateCombo(cfg.combo[c], value, resolve)])
  {
    cfg.(combo := cfg.combo[c := UpdateCombo(cfg.combo[c], value, resolve)])
  }

  /** A numeric option sets its one setting to the number its value starts with (wrapped to Uint32 for the repeat timings) and leaves everything else alone. */
  function SetNumeric(cfg: Config, f: NumericField, value: string): (r: Config)
    requires cfg.Valid()
    ensures r.Valid() && r.primary == cfg.primary && r.combo == cfg.combo
    ensures r.leftAnalogAsMouse == cfg.leftAnalogAsMouse && r.rightAnalogAsMouse == cfg.rightAnalogAsMouse
    ensures r.textInputPreset == cfg.textInputPreset
    ensures NumericValue(r, f) == if f == RepeatDelay || f == RepeatInterval then ToUint32(Atoi(value)) else Atoi(value)
    ensures forall g :: g != f ==> NumericValue(r, g) == NumericValue(cfg, g)
  {
    match f
    case DeadzoneY => cfg.(deadzoneY := Atoi(value))
    case DeadzoneX => cfg.(deadzoneX := Atoi(value))
    case DeadzoneTriggers => cfg.(deadzoneTriggers := Atoi(value))
    case MouseScale => cfg.(fakeMouseScale := Atoi(value))
    case MouseDelay => cfg.(fakeMouseDelay := Atoi(value))
    case RepeatDelay => cfg.(keyRepeatDelay := ToUint32(Atoi(value)))
    case RepeatInterval => cfg.(keyRepeatInterval := ToUint32(Atoi(value)))
  }

  /** The value of a numeric setting in a configuration. */
  function NumericValue(cfg: Config, f: NumericField): int
  {
    match f
    case DeadzoneY => cfg.deadzoneY
    case DeadzoneX => cfg.deadzoneX
    case DeadzoneTriggers => cfg.deadzoneTriggers
    case MouseScale => cfg.fakeMouseScale
    case MouseDelay => cfg.fakeMouseDelay
    case RepeatDelay => cfg.keyRepeatDelay
    case RepeatInterval => cfg.keyRepeatInterval
  }

  /** The effect of a value on the setting a recognised key names. */
  function ApplyTarget(cfg: Config, t: Target, value: string, resolve: string -> int): (r: Config)
    requires cfg.Valid() && (t.ComboKey? ==> HasCombo(t.control))
    ensures r.Valid()
    ensures forall c :: t != PrimaryKey(c) ==> r.primary[c] == cfg.primary[c]
    ensures forall c :: HasCombo(c) && t != ComboKey(c) ==> r.combo[c] == cfg.combo[c]
    ensures t.PrimaryKey? ==> r == ApplyToControl(cfg, t.control, value, resolve)
    ensures t.ComboKey? ==> r == ApplyToCombo(cfg, t.control, value, resolve)
    ensures t.NumericKey? ==> r == SetNumeric(cfg, t.field, value)
    ensures t.UnknownKey? ==> r == cfg
  {
    match t
    case PrimaryKey(c) =>
      ApplyToControl(cfg, c, value, resolve)
    case ComboKey(c) =>
      ApplyToCombo(cfg, c, value, resolve)
    case NumericKey(f) =>
      SetNumeric(cfg, f, value)
    case UnknownKey =>
      cfg
  }

  /** The effect of one option of a mapping file on the configuration; an unknown key changes nothing. */
  function ApplyOption(cfg: Config, opt: ConfigOption, resolve: string -> int): (r: Config)
    requires cfg.Valid()
    ensures r.Valid()
    ensures ParseKey(opt.key).UnknownKey? ==> r == cfg
    ensures forall c :: ParseKey(opt.key) != PrimaryKey(c) ==> r.primary[c] == cfg.primary[c]
    ensures forall c :: HasCombo(c) && ParseKey(opt.key) != ComboKey(c) ==> r.combo[c] == cfg.combo[c]
  {
    ApplyTarget(cfg, ParseKey(opt.key), opt.value, resolve)
  }

  /** A binding option leaves every numeric setting alone. */
  lemma ApplyBindingOptionKeepsSettings(cfg: Config, t: Target, value: string, resolve: string -> int)
    requires cfg.Valid() && (t.ComboKey? ==> HasCombo(t.control)) && !t.NumericKey?
    ensures forall f :: NumericValue(ApplyTarget(cfg, t, value, resolve), f) == NumericValue(cfg, f)
  {
  }

  /** Options never clear a repeat flag, a modifier or a stick's mouse mode. */
  lemma ApplyTargetMonotone(cfg: Config, t: Target, value: string, resolve: string -> int)
    requires cfg.Valid() && (t.ComboKey? ==> HasCombo(t.control))
    ensures forall c :: cfg.primary[c].repeat ==> ApplyTarget(cfg, t, value, resolve).primary[c].repeat
    ensures forall c :: cfg.primary[c].modifier != 0 ==> ApplyTarget(cfg, t, value, resolve).primary[c].modifier != 0
    ensures forall c :: HasCombo(c) && cfg.combo[c].modifier != 0 ==> ApplyTarget(cfg, t, value, resolve).combo[c].modifier != 0
    ensures cfg.leftAnalogAsMouse ==> ApplyTarget(cfg, t, value, resolve).leftAnalogAsMouse
    ensures cfg.rightAnalogAsMouse ==> ApplyTarget(cfg, t, value, resolve).rightAnalogAsMouse
  {
  }

  /** The configuration after applying the options of a mapping file in order. */
  function ApplyOptions(cfg: Config, opts: seq<ConfigOption>, resolve: string -> int): (r: Config)
    requires cfg.Valid()
    ensures r.Valid()
    decreases |opts|
  {
    if opts == [] then cfg
    else ApplyOption(ApplyOptions(cfg, opts[..|opts| - 1], resolve), opts[|opts| - 1], resolve)
  }

  /** Reading two files one after the other is reading their concatenation. */
  lemma {:induction false} ApplyOptionsAppend(cfg: Config, a: seq<ConfigOption>, b: seq<ConfigOption>, resolve: string -> int)
    requires cfg.Valid()
    ensures ApplyOptions(cfg, a + b, resolve) == ApplyOptions(ApplyOptions(cfg, a, resolve), b, resolve)
    decreases |b|
  {
    if b != [] {
      assert (a + b)[..|a + b| - 1] == a + b[..|b| - 1];
      ApplyOptionsAppend(cfg, a, b[..|b| - 1], resolve);
    } else {
      assert a + b == a;
    }
  }

  /** A control's binding is untouched by options that do not name it. */
  lemma {:induction false} ApplyOptionsUntargeted(cfg: Config, opts: seq<ConfigOption>, c: Control, resolve: string -> int)
    requires cfg.Valid()
    requires forall i :: 0 <= i < |opts| ==> ParseKey(opts[i].key) != PrimaryKey(c)
    ensures ApplyOptions(cfg, opts, resolve).primary[c] == cfg.primary[c]
    decreases |opts|
  {
    if opts != [] {
      ApplyOptionsUntargeted(cfg, opts[..|opts| - 1], c, resolve);
    }
  }

  /** A `repeat` option on a control's key sets that control's repeat flag and nothing else of its binding. */
  lemma RepeatOptionSetsFlag(cfg: Config, c: Control, resolve: string -> int)
    requires cfg.Valid()
    ensures ApplyOption(cfg, ConfigOption(ControlName(c), "repeat"), resolve).primary[c] == cfg.primary[c].(repeat := true)
  {
    ParseKeyRecognisesControls(c);
  }

  /** An `add_alt`, `add_ctrl` or `add_shift` option on a control's key sets that binding's modifier and nothing else of it. */
  lemma ModifierOptionSetsModifier(cfg: Config, c: Control, value: string, resolve: string -> int)
    requires cfg.Valid() && ModifierFor(value).Some?
    ensures ApplyOption(cfg, ConfigOption(ControlName(c), value), resolve).primary[c]
              == cfg.primary[c].(modifier := ModifierFor(value).value)
  {
    ParseKeyRecognisesControls(c);
  }

  /** The same on an `_hk` key: the combination's modifier is set and its key kept. */
  lemma ComboModifierOptionSetsModifier(cfg: Config, c: Control, value: string, resolve: string -> int)
    requires cfg.Valid() && HasCombo(c) && ModifierFor(value).Some?
    ensures ApplyOption(cfg, ConfigOption(ControlName(c) + "_hk", value), resolve).combo[c]
              == cfg.combo[c].(modifier := ModifierFor(value).value)
  {
    ParseKeyRecognisesControls(c);
  }

  /** Any other value on an `_hk` key (`repeat` included) is looked up as a key name. */
  lemma ComboKeyNameSetsKey(cfg: Config, c: Control, value: string, resolve: string -> int)
    requires cfg.Valid() && HasCombo(c) && ModifierFor(value).None?
    ensures ApplyOption(cfg, ConfigOption(ControlName(c) + "_hk", value), resolve).combo[c]
              == cfg.combo[c].(key := resolve(value))
  {
    ParseKeyRecognisesControls(c);
  }

  /** A numeric option is exactly the numeric update of its setting. */
  lemma NumericOptionSetsField(cfg: Config, f: NumericField, value: string, resolve: string -> int)
    requires cfg.Valid()
    ensures ApplyOption(cfg, ConfigOption(FieldName(f), value), resolve) == SetNumeric(cfg, f, value)
  {
    ParseKeyRecognisesFields(f);
  }

  /** `mouse_movement_up` on a stick's up key switches that stick to the mouse and changes nothing else. */
  lemma MouseMovementOptionSetsStick(cfg: Config, resolve: string -> int)
    requires cfg.Valid()
    ensures ApplyOption(cfg, ConfigOption(ControlName(LeftAnalogUp), "mouse_movement_up"), resolve)
              == cfg.(leftAnalogAsMouse := true)
    ensures ApplyOption(cfg, ConfigOption(ControlName(RightAnalogUp), "mouse_movement_up"), resolve)
              == cfg.(rightAnalogAsMouse := true)
  {
    ParseKeyRecognisesControls(LeftAnalogUp);
    ParseKeyRecognisesControls(RightAnalogUp);
  }

  /** A key-name option on a control's key sets that control's key to what the name resolves to. */
  lemma KeyNameSetsKey(cfg: Config, c: Control, value: string, resolve: string -> int)
    requires cfg.Valid()
    requires value != "repeat" && ModifierFor(value).None?
    requires c in {LeftAnalogUp, RightAnalogUp} ==> value != "mouse_movement_up"
    ensures ApplyOption(cfg, ConfigOption(ControlName(c), value), resolve).primary[c] == cfg.primary[c].(key := resolve(value))
  {
    ParseKeyRecognisesControls(c);
  }

  /** The last key-name option for a control decides its key, whatever unrelated options follow. */
  lemma LastKeyNameWins(cfg: Config, before: seq<ConfigOption>, c: Control, value: string,
                        after: seq<ConfigOption>, resolve: string -> int)
    requires cfg.Valid()
    requires value != "repeat" && ModifierFor(value).None?
    requires c in {LeftAnalogUp, RightAnalogUp} ==> value != "mouse_movement_up"
    requires forall i :: 0 <= i < |after| ==> ParseKey(after[i].key) != PrimaryKey(c)
    ensures ApplyOptions(cfg, before + [ConfigOption(ControlName(c), value)] + after, resolve).primary[c].key == resolve(value)
  {
    var opt := ConfigOption(ControlName(c), value);
    ApplyOptionsAppend(cfg, before + [opt], after, resolve);
    assert (before + [opt])[..|before + [opt]| - 1] == before;
    var mid := ApplyOption(ApplyOptions(cfg, before, resolve), opt, resolve);
    assert ApplyOptions(cfg, before + [opt], resolve) == mid;
    KeyNameSetsKey(ApplyOptions(cfg, before, resolve), c, value, resolve);
    ApplyOptionsUntargeted(mid, after, c, resolve);
  }

  /** Once a binding's repeat flag is set, no later option clears it. */
  lemma {:induction false} RepeatFlagMonotone(cfg: Config, opts: seq<ConfigOption>, c: Control, resolve: string -> int)
    requires cfg.Valid() && cfg.primary[c].repeat
    ensures ApplyOptions(cfg, opts, resolve).primary[c].repeat
    decreases |opts|
  {
    if opts != [] {
      RepeatFlagMonotone(cfg, opts[..|opts| - 1], c, resolve);
      var o := opts[|opts| - 1];
      ApplyTargetMonotone(ApplyOptions(cfg, opts[..|opts| - 1], resolve), ParseKey(o.key), o.value, resolve);
    }
  }

  /** Once a binding or a combination has a modifier, no later option removes it (it can only be replaced by another). */
  lemma {:induction false} ModifierMonotone(cfg: Config, opts: seq<ConfigOption>, c: Control, resolve: string -> int)
    requires cfg.Valid()
    ensures cfg.primary[c].modifier != 0 ==> ApplyOptions(cfg, opts, resolve).primary[c].modifier != 0
    ensures HasCombo(c) && cfg.combo[c].modifier != 0 ==> ApplyOptions(cfg, opts, resolve).combo[c].modifier != 0
    decreases |opts|
  {
    if opts != [] {
      ModifierMonotone(cfg, opts[..|opts| - 1], c, resolve);
      var o := opts[|opts| - 1];
      ApplyTargetMonotone(ApplyOptions(cfg, opts[..|opts| - 1], resolve), ParseKey(o.key), o.value, resolve);
    }
  }

  /** Once a stick is switched to mouse movement, no later option switches it back. */
  lemma {:induction false} MouseModeMonotone(cfg: Config, opts: seq<ConfigOption>, resolve: string -> int)
    requires cfg.Valid()
    ensures cfg.leftAnalogAsMouse ==> ApplyOptions(cfg, opts, resolve).leftAnalogAsMouse
    ensures cfg.rightAnalogAsMouse ==> ApplyOptions(cfg, opts, resolve).rightAnalogAsMouse
    decreases |opts|
  {
    if opts != [] {
      MouseModeMonotone(cfg, opts[..|opts| - 1], resolve);
      var o := opts[|opts| - 1];
      ApplyTargetMonotone(ApplyOptions(cfg, opts[..|opts| - 1], resolve), ParseKey(o.key), o.value, resolve);
    }
  }

  /** `repeat` on an `_hk` key is not a flag: it is looked up as a key name. */
  lemma ComboRepeatIsAKeyName(cfg: Config, c: Control, resolve: string -> int)
    requires cfg.Valid() && HasCombo(c)
    ensures ApplyOption(cfg, ConfigOption(ControlName(c) + "_hk", "repeat"), resolve).combo[c].key == resolve("repeat")
  {
    ParseKeyRecognisesControls(c);
  }

  /** `mouse_movement_up` on a stick's up key switches that stick to mouse movement and leaves its binding alone. */
  lemma MouseMovementUpKeepsBinding(cfg: Config, c: Control, resolve: string -> int)
    requires cfg.Valid() && (c == LeftAnalogUp || c == RightAnalogUp)
    ensures var r := ApplyOption(cfg, ConfigOption(ControlName(c), "mouse_movement_up"), resolve);
            && r.primary == cfg.primary
            && r.leftAnalogAsMouse == (cfg.leftAnalogAsMouse || c == LeftAnalogUp)
            && r.rightAnalogAsMouse == (cfg.rightAnalogAsMouse || c == RightAnalogUp)
  {
    ParseKeyRecognisesControls(c);
  }

  /** On any other key, `mouse_movement_up` is an ordinary key name. */
  lemma MouseMovementElsewhereIsAKeyName(cfg: Config, c: Control, resolve: string -> int)
    requires cfg.Valid() && c != LeftAnalogUp && c != RightAnalogUp
    ensures var r := ApplyOption(cfg, ConfigOption(ControlName(c), "mouse_movement_up"), resolve);
            && r.primary[c].key == resolve("mouse_movement_up")
            && r.leftAnalogAsMouse == cfg.leftAnalogAsMouse
            && r.rightAnalogAsMouse == cfg.rightAnalogAsMouse
  {
    ParseKeyRecognisesControls(c);
  }
}

=== FILE: dispatch.dfy ===
/**
 * handleEvent and the main loop. A button event goes to interactive text
 * entry while it is active, else to the Xbox 360 passthrough or to the
 * config-mode switch followed by the combination checks. An axis event
 * goes to the passthrough or to the config-mode axis handling. Controller
 * hot-plug only opens or closes SDL handles, and quit ends the loop.
 */
module Dispatch {
  import opened Structs
  import opened Events
  import opened Machine
  import opened Input
  import opened Combos
  import opened Buttons
  import opened Interactive
  import opened Xbox
  import opened Analog

  /** What handleEvent needs: the mouse division is defined for a config-mode axis event. */
  predicate EventOk(env: Env, ev: InputEvent)
  {
    ev.AxisEvent? && !env.modes.xbox360Mode ==> MouseScaleOk(env.config, ev.axis)
  }

  /** A config-mode button event: the switch over the button, then the combination checks. */
  function ConfigModeButton(w: World, env: Env, button: Button, pressed: bool, which: int): (r: World)
    requires WorldOk(w) && env.config.Valid()
    ensures WorldOk(r)
    ensures r == AfterButton(ConfigButton(w, env, button, pressed, which), env)
    ensures r.state.textInputInteractiveModeActive && !w.state.textInputInteractiveModeActive ==>
              env.modes.textInputInteractiveMode
  {
    var w1 := ConfigButton(w, env, button, pressed, which);
    assert SameRunState(w, w1);
    AfterButton(w1, env)
  }

  /** A button event outside interactive entry. */
  function ButtonOutsideEntry(w: World, env: Env, button: Button, pressed: bool, which: int): (r: World)
    requires WorldOk(w) && env.config.Valid()
    ensures WorldOk(r)
    ensures env.modes.xbox360Mode ==> r == GamepadButton(w, env, button, pressed, which)
    ensures !env.modes.xbox360Mode ==> r == ConfigModeButton(w, env, button, pressed, which)
    ensures r.state.textInputInteractiveModeActive && !w.state.textInputInteractiveModeActive ==>
              !env.modes.xbox360Mode && env.modes.textInputInteractiveMode
  {
    if env.modes.xbox360Mode then GamepadButton(w, env, button, pressed, which)
    else ConfigModeButton(w, env, button, pressed, which)
  }

  /**
   * handleEvent: the world after one SDL event and whether the loop goes
   * on (false only for quit).
   */
  function HandleEvent(w: World, env: Env, ev: InputEvent): (r: (World, bool))
    requires WorldOk(w) && env.config.Valid() && EventOk(env, ev)
    ensures WorldOk(r.0)
    ensures r.1 <==> !ev.Quit?
    ensures !ev.ButtonEvent? && !ev.AxisEvent? ==> r.0 == w
    ensures ev.ButtonEvent? && w.state.textInputInteractiveModeActive ==>
              r.0 == InteractiveButton(w, env, ev.button, ev.pressed)
    ensures ev.ButtonEvent? && !w.state.textInputInteractiveModeActive ==>
              r.0 == ButtonOutsideEntry(w, env, ev.button, ev.pressed, ev.which)
    ensures ev.AxisEvent? && env.modes.xbox360Mode ==> r.0 == GamepadAxis(w, ev.axis, ev.value)
    ensures ev.AxisEvent? && !env.modes.xbox360Mode ==> r.0 == AxisMotion(w, env, ev.axis, ev.value)
  {
    match ev
    case ButtonEvent(button, pressed, which) =>
      if w.state.textInputInteractiveModeActive then (InteractiveButton(w, env, button, pressed), true)
      else (ButtonOutsideEntry(w, env, button, pressed, which), true)
    case AxisEvent(axis, value) =>
      if env.modes.xbox360Mode then (GamepadAxis(w, axis, value), true)
      else (AxisMotion(w, env, axis, value), true)
    case DeviceAdded(_) => (w, true)
    case DeviceRemoved(_) => (w, true)
    case Quit => (w, false)
    case OtherEvent => (w, true)
  }

  /** Only a button event in kill mode can end the program. */
  lemma OnlyKillComboKills(w: World, env: Env, ev: InputEvent)
    requires WorldOk(w) && env.config.Valid() && EventOk(env, ev) && !w.killed
    ensures HandleEvent(w, env, ev).0.killed ==> ev.ButtonEvent? && env.modes.killMode
  {
  }

  /**
   * Interactive entry is entered only through a config-mode button event
   * with interactive mode enabled.
   */
  lemma EntryOnlyFromConfigButton(w: World, env: Env, ev: InputEvent)
    requires WorldOk(w) && env.config.Valid() && EventOk(env, ev)
    requires !w.state.textInputInteractiveModeActive
    ensures HandleEvent(w, env, ev).0.state.textInputInteractiveModeActive ==>
              ev.ButtonEvent? && !env.modes.xbox360Mode && env.modes.textInputInteractiveMode
  {
    if ev.AxisEvent? && !env.modes.xbox360Mode {
      assert SameRunState(w, AxisMotion(w, env, ev.axis, ev.value));
    }
  }

  // ---------------------------------------------------------------------
  // Sequences of events

  /** Every axis event is acceptable to handleEvent: a stick assigned to the mouse comes with a non-zero scale. */
  predicate MouseScaleSet(env: Env)
  {
    (env.config.leftAnalogAsMouse || env.config.rightAnalogAsMouse) && !env.modes.xbox360Mode ==> env.config.fakeMouseScale != 0
  }

  /** With the scale set, handleEvent accepts any event. */
  lemma AnyEventOk(env: Env, ev: InputEvent)
    requires MouseScaleSet(env)
    ensures EventOk(env, ev)
  {
  }

  /**
   * The events handled in order until quit or a kill ends the program; the
   * flag says whether the program is still running.
   */
  function HandleEvents(w: World, env: Env, evs: seq<InputEvent>): (r: (World, bool))
    requires WorldOk(w) && env.config.Valid() && MouseScaleSet(env)
    ensures WorldOk(r.0)
    ensures r.1 ==> !r.0.killed
    decreases |evs|
  {
    if w.killed then (w, false)
    else if evs == [] then (w, true)
    else
      var step := HandleEvent(w, env, evs[0]);
      if step.1 then HandleEvents(step.0, env, evs[1..]) else (step.0, false)
  }

  /** The program is still running after a sequence of events only if none of them was quit. */
  lemma {:induction false} QuitEndsRunning(w: World, env: Env, evs: seq<InputEvent>)
    requires WorldOk(w) && env.config.Valid() && MouseScaleSet(env)
    ensures HandleEvents(w, env, evs).1 ==> Quit !in evs
    decreases |evs|
  {
    if !w.killed && evs != [] {
      var step := HandleEvent(w, env, evs[0]);
      if step.1 {
        QuitEndsRunning(step.0, env, evs[1..]);
        assert evs == [evs[0]] + evs[1..];
      }
    }
  }
}

=== FILE: events.dfy ===
/**
 * The synthetic events the remapper writes to the virtual input device,
 * and the event sequences written by its emission primitives
 * (emitKey, emitTextInputKey, emitMouseMotion, emitAxisMotion and the
 * edge latch handleAnalogTrigger). The device itself is an output trace:
 * every `emit` call appends one event.
 */
module Events {
  import opened Codes

  /** One `struct input_event` as written to uinput: EV_KEY, EV_REL, EV_ABS or EV_SYN/SYN_REPORT. */
  datatype OutEvent =
    | Key(code: int, pressed: bool)
    | Rel(axis: int, delta: int)
    | Abs(axis: int, value: int)
    | Syn

  /** Every key event is immediately followed by a SYN_REPORT. */
  ghost predicate KeysSynced(evs: seq<OutEvent>)
  {
    forall i :: 0 <= i < |evs| && evs[i].Key? ==> i + 1 < |evs| && evs[i + 1] == Syn
  }

  /** Writing events in two batches or in one gives the same trace. */
  lemma AppendAssociates(x: seq<OutEvent>, y: seq<OutEvent>, z: seq<OutEvent>)
    ensures x + y + z == x + (y + z)
  {
  }

  lemma KeysSyncedAppend(a: seq<OutEvent>, b: seq<OutEvent>)
    requires KeysSynced(a) && KeysSynced(b)
    ensures KeysSynced(a + b)
  {
    var ab := a + b;
    forall i | 0 <= i < |ab| && ab[i].Key?
      ensures i + 1 < |ab| && ab[i + 1] == Syn
    {
      if i < |a| {
        assert a[i].Key?;
        assert ab[i + 1] == a[i + 1];
      } else {
        assert b[i - |a|].Key?;
        assert ab[i + 1] == b[i - |a| + 1];
      }
    }
  }

  /**
   * emitKey: a key event with an optional held modifier (0 means none).
   * On a press the modifier goes down first; on a release it comes up last.
   */
  function KeyEvents(code: int, pressed: bool, modifier: int): (r: seq<OutEvent>)
    ensures KeysSynced(r)
    ensures Key(code, pressed) in r
    ensures forall ev :: ev in r ==> ev == Syn || ev == Key(code, pressed) || (modifier != 0 && ev == Key(modifier, pressed))
    ensures |r| == if modifier == 0 then 2 else 4
    ensures modifier != 0 && pressed ==> r[0] == Key(modifier, true) && r[2] == Key(code, true)
    ensures modifier != 0 && !pressed ==> r[0] == Key(code, false) && r[2] == Key(modifier, false)
  {
    (if modifier != 0 && pressed then [Key(modifier, pressed), Syn] else [])
    + [Key(code, pressed), Syn]
    + (if modifier != 0 && !pressed then [Key(modifier, pressed), Syn] else [])
  }

  /**
   * emitTextInputKey: a press and a release of `code`, with the left shift
   * held around them when `uppercase` is set.
   */
  function TextKeyEvents(code: int, uppercase: bool): (r: seq<OutEvent>)
    ensures KeysSynced(r)
    ensures |r| == if uppercase then 8 else 4
    ensures uppercase ==> r == [Key(KEY_LEFTSHIFT, true), Syn, Key(code, true), Syn,
                                Key(code, false), Syn, Key(KEY_LEFTSHIFT, false), Syn]
    ensures !uppercase ==> r == [Key(code, true), Syn, Key(code, false), Syn]
    ensures r == KeyEvents(code, true, if uppercase then KEY_LEFTSHIFT else 0)
                 + KeyEvents(code, false, if uppercase then KEY_LEFTSHIFT else 0)
  {
    var shiftDown := if uppercase then KeyEvents(KEY_LEFTSHIFT, true, 0) else [];
    var shiftUp := if uppercase then KeyEvents(KEY_LEFTSHIFT, false, 0) else [];
    KeysSyncedAppend(shiftDown, KeyEvents(code, true, 0));
    KeysSyncedAppend(shiftDown + KeyEvents(code, true, 0), KeyEvents(code, false, 0));
    KeysSyncedAppend(shiftDown + KeyEvents(code, true, 0) + KeyEvents(code, false, 0), shiftUp);
    shiftDown + KeyEvents(code, true, 0) + KeyEvents(code, false, 0) + shiftUp
  }

  /** emitMouseMotion: relative motion on the non-zero axes only, then one SYN_REPORT if anything moved. */
  function MouseEvents(x: int, y: int): (r: seq<OutEvent>)
    ensures Rel(REL_X, x) in r <==> x != 0
    ensures Rel(REL_Y, y) in r <==> y != 0
    ensures r == [] <==> x == 0 && y == 0
    ensures |r| == (if x != 0 then 1 else 0) + (if y != 0 then 1 else 0) + (if x != 0 || y != 0 then 1 else 0)
    ensures x != 0 ==> r[0] == Rel(REL_X, x)
    ensures y != 0 ==> r[|r| - 2] == Rel(REL_Y, y)
    ensures r != [] ==> r[|r| - 1] == Syn
    ensures forall ev :: ev in r ==> ev == Syn || (ev.Rel? && ev.delta != 0)
  {
    (if x != 0 then [Rel(REL_X, x)] else [])
    + (if y != 0 then [Rel(REL_Y, y)] else [])
    + (if x != 0 || y != 0 then [Syn] else [])
  }

  /** emitAxisMotion: an absolute axis value followed by a SYN_REPORT. */
  function AxisEvents(code: int, value: int): (r: seq<OutEvent>)
    ensures |r| == 2 && r[0] == Abs(code, value) && r[1] == Syn
  {
    [Abs(code, value), Syn]
  }

  /**
   * handleAnalogTrigger: the events for one sample of a level-triggered
   * input whose previous level was `was`: a press on a rising edge, a
   * release on a falling edge and nothing while the level holds.
   */
  function LatchEvents(isTriggered: bool, was: bool, key: int, modifier: int): (r: seq<OutEvent>)
    ensures r == [] <==> isTriggered == was
    ensures isTriggered != was ==> r == KeyEvents(key, isTriggered, modifier)
    ensures forall ev :: ev in r && ev.Key? ==> ev.pressed == isTriggered && (ev.code == key || ev.code == modifier)
    ensures isTriggered && !was ==> Key(key, true) in r
    ensures !isTriggered && was ==> Key(key, false) in r
    ensures KeysSynced(r)
  {
    if isTriggered && !was then KeyEvents(key, true, modifier)
    else if !isTriggered && was then KeyEvents(key, false, modifier)
    else []
  }

  /** Pressing a key with a modifier and later releasing it leaves the modifier pressed no longer than the key. */
  lemma ModifierBracketsKey(code: int, modifier: int)
    requires modifier != 0
    ensures KeyEvents(code, true, modifier) + KeyEvents(code, false, modifier)
         == [Key(modifier, true), Syn, Key(code, true), Syn, Key(code, false), Syn, Key(modifier, false), Syn]
  {
  }

  /** A level that is sampled twice at the same value produces one edge at most. */
  lemma LatchRepeatedSampleSilent(isTriggered: bool, key: int, modifier: int)
    ensures LatchEvents(isTriggered, isTriggered, key, modifier) == []
  {
  }
}

=== FILE: input.dfy ===
/**
 * The SDL game-controller events the remapper handles: button presses and
 * releases (with the joystick instance they came from), axis motion,
 * controller hot-plug, and quit.
 */
module Input {

  /** SDL_GameControllerButton values the handlers distinguish; every other button is `OtherButton`. */
  datatype Button =
    | ButtonA | ButtonB | ButtonX | ButtonY
    | ButtonBack | ButtonGuide | ButtonStart
    | LeftStick | RightStick | LeftShoulder | RightShoulder
    | DpadUp | DpadDown | DpadLeft | DpadRight
    | OtherButton

  /** SDL_GameControllerAxis values. */
  datatype AxisId = LeftX | LeftY | RightX | RightY | TriggerLeft | TriggerRight

  datatype InputEvent =
    | ButtonEvent(button: Button, pressed: bool, which: int)
    | AxisEvent(axis: AxisId, value: int)
    | DeviceAdded(which: int)
    | DeviceRemoved(which: int)
    | Quit
    | OtherEvent
}

=== FILE: interactive.dfy ===
/**
 * Button events while interactive text entry is active. The d-pad moves
 * the cursor (left, right) and cycles the selected key (up, down, with
 * repeat while held); the shoulders jump 13 keys; A and start confirm with
 * Enter; l3 and back cancel, deleting what was typed. Every other button is
 * ignored, whichever controller it came from.
 */
module Interactive {
  import opened Codes
  import opened Structs
  import opened Events
  import opened KeyboardSetup
  import opened Machine
  import opened Input

  /** Entry is active, so the cursor is on a position of the text. */
  ghost predicate Active(w: World)
  {
    WorldOk(w) && w.state.textInputInteractiveModeActive
  }

  /** Active entry is always at a selectable position. */
  lemma ActiveSelectable(w: World)
    requires Active(w)
    ensures Selectable(w.kb)
  {
  }

  /**
   * D-pad left: delete the character under the cursor and step back; at the
   * first position delete once more, reset every selection and type the
   * first character again.
   */
  function CursorBack(w: World, env: Env): (r: World)
    requires Active(w)
    ensures Active(r)
    ensures w.kb.currentCharacter > 0 ==>
              r.kb == w.kb.(currentCharacter := w.kb.currentCharacter - 1) && r.out == w.out + BackspaceEvents
    ensures w.kb.currentCharacter == 0 ==>
              && r.kb == InitialiseCharacters(w.kb, env.modes.noAutoCapitals)
              && r.out == w.out + BackspaceEvents + BackspaceEvents + SelectedCharEvents(r.kb)
    ensures r.state == w.state && r.sdl == w.sdl && r.killed == w.killed
  {
    var w1 := Emit(w, BackspaceEvents);
    if w.kb.currentCharacter > 0 then w1.(kb := w.kb.(currentCharacter := w.kb.currentCharacter - 1))
    else AddChar(Emit(w1, BackspaceEvents).(kb := InitialiseCharacters(w.kb, env.modes.noAutoCapitals)))
  }

  /** A and start: Enter confirms the text and entry ends. */
  function Confirm(w: World): (r: World)
    requires Active(w)
    ensures WorldOk(r) && !r.state.textInputInteractiveModeActive
    ensures r.out == w.out + EnterEvents
    ensures r.state == w.state.(textInputInteractiveModeActive := false)
    ensures r.kb == w.kb && r.sdl == w.sdl && r.killed == w.killed
  {
    Emit(w, EnterEvents).(state := w.state.(textInputInteractiveModeActive := false))
  }

  /**
   * D-pad right: the cursor advances (after a space the next position
   * starts on a capital). Within the text the new position's character is
   * typed; at the end of the text Enter is sent and entry ends instead.
   */
  function CursorForward(w: World, env: Env): (r: World)
    requires Active(w)
    ensures WorldOk(r)
    ensures r.kb == Advance(w.kb, env.modes.noAutoCapitals)
    ensures r.kb.currentCharacter == w.kb.currentCharacter + 1
    ensures r.kb.currentCharacter < MaxChars ==>
              r.state.textInputInteractiveModeActive && r.out == w.out + SelectedCharEvents(r.kb)
    ensures r.kb.currentCharacter == MaxChars ==>
              !r.state.textInputInteractiveModeActive && r.out == w.out + EnterEvents
    ensures r.state == w.state.(textInputInteractiveModeActive := r.state.textInputInteractiveModeActive)
    ensures r.sdl == w.sdl && r.killed == w.killed
  {
    var w1 := w.(kb := Advance(w.kb, env.modes.noAutoCapitals));
    if w1.kb.currentCharacter < MaxChars then AddChar(w1)
    else Emit(w1, EnterEvents).(state := w.state.(textInputInteractiveModeActive := false))
  }

  /** The backspaces of a cancel: `count` rounds of one backspace, or two when each round doubles. */
  function CancelEvents(count: nat, double: bool): (r: seq<OutEvent>)
    ensures |r| == count * (if double then 2 else 1) * |BackspaceEvents|
    ensures KeysSynced(r)
  {
    if count == 0 then []
    else
      var round := if double then BackspaceEvents + BackspaceEvents else BackspaceEvents;
      KeysSyncedAppend(BackspaceEvents, BackspaceEvents);
      KeysSyncedAppend(CancelEvents(count - 1, double), round);
      CancelEvents(count - 1, double) + round
  }

  /** Cancel rounds add up: the events of `a + b` rounds are those of `a` rounds followed by those of `b`. */
  lemma {:induction false} CancelEventsAdd(a: nat, b: nat, double: bool)
    ensures CancelEvents(a + b, double) == CancelEvents(a, double) + CancelEvents(b, double)
    decreases b
  {
    if b > 0 {
      CancelEventsAdd(a, b - 1, double);
    }
  }

  /**
   * The cancel rounds double when the key under the cursor is a space and
   * the Exult adjustment is on (the key is read at the cursor, not at the
   * position being deleted).
   */
  predicate DoubleBackspace(kb: Keyboard, exult: bool)
    requires Selectable(kb)
  {
    kb.characterSet[Selected(kb)] == KEY_SPACE && exult
  }

  /**
   * l3 and back: one round of backspaces for every position up to and
   * including the cursor, every selection reset, and entry ends.
   */
  function Cancel(w: World, env: Env): (r: World)
    requires Active(w)
    ensures WorldOk(r) && !r.state.textInputInteractiveModeActive
    ensures r.out == w.out + CancelEvents(w.kb.currentCharacter + 1, DoubleBackspace(w.kb, env.modes.appExultAdjust))
    ensures r.kb == InitialiseCharacters(w.kb, env.modes.noAutoCapitals)
    ensures r.state == w.state.(textInputInteractiveModeActive := false)
    ensures r.sdl == w.sdl && r.killed == w.killed
  {
    var evs := CancelEvents(w.kb.currentCharacter + 1, DoubleBackspace(w.kb, env.modes.appExultAdjust));
    Emit(w, evs).(kb := InitialiseCharacters(w.kb, env.modes.noAutoCapitals),
                  state := w.state.(textInputInteractiveModeActive := false))
  }

  /** D-pad up and down: select the previous or next key and keep doing so while held. */
  function Cycle(w: World, env: Env, up: bool, pressed: bool): (r: World)
    requires Active(w)
    ensures Active(r)
    ensures pressed && up ==>
              r.kb == PrevTextInputKey(w, true).kb && r.out == PrevTextInputKey(w, true).out
              && r.state.keyToRepeat == KEY_UP
              && r.sdl.timer.Some? && r.sdl.timer.value.callback == InputRepeatCallback
              && r.sdl.timer.value.interval == env.config.keyRepeatInterval
    ensures pressed && !up ==>
              r.kb == NextTextInputKey(w, true).kb && r.out == NextTextInputKey(w, true).out
              && r.state.keyToRepeat == KEY_DOWN
              && r.sdl.timer.Some? && r.sdl.timer.value.callback == InputRepeatCallback
              && r.sdl.timer.value.interval == env.config.keyRepeatInterval
    ensures !pressed ==> r.kb == w.kb && r.out == w.out && r.state.keyToRepeat == 0 && r.sdl.timer.None?
    ensures r.killed == w.killed
  {
    var key := if up then KEY_UP else KEY_DOWN;
    if !pressed then SetInputRepeat(w, env.config, key, false)
    else if up then SetInputRepeat(PrevTextInputKey(w, true), env.config, key, true)
    else SetInputRepeat(NextTextInputKey(w, true), env.config, key, true)
  }

  /** Cycling changes no flag of the state besides the repeat slot and its timer id. */
  lemma CycleFramesState(w: World, env: Env, up: bool, pressed: bool)
    requires Active(w)
    ensures var r := Cycle(w, env, up, pressed);
            r.state == w.state.(keyToRepeat := r.state.keyToRepeat, keyRepeatTimerId := r.state.keyRepeatTimerId)
  {
  }

  /** The shoulders: jump 13 keys back (left) or forward (right) once, and stop any repeat. */
  function Jump(w: World, env: Env, back: bool, pressed: bool): (r: World)
    requires Active(w)
    ensures Active(r)
    ensures pressed && back ==> r.kb == PrevTextInputKey(w, false).kb && r.out == PrevTextInputKey(w, false).out
    ensures pressed && !back ==> r.kb == NextTextInputKey(w, false).kb && r.out == NextTextInputKey(w, false).out
    ensures !pressed ==> r.kb == w.kb && r.out == w.out
    ensures r.state.keyToRepeat == 0 && r.sdl.timer.None? && r.killed == w.killed
  {
    var key := if back then KEY_UP else KEY_DOWN;
    if !pressed then SetInputRepeat(w, env.config, key, false)
    else if back then SetInputRepeat(PrevTextInputKey(w, false), env.config, key, false)
    else SetInputRepeat(NextTextInputKey(w, false), env.config, key, false)
  }

  /** A jump leaves every flag of the state as it was, except that the repeat slot is emptied. */
  lemma JumpFramesState(w: World, env: Env, back: bool, pressed: bool)
    requires Active(w)
    ensures Jump(w, env, back, pressed).state == w.state.(keyToRepeat := 0, keyRepeatTimerId := 0)
  {
  }

  /** The switch over the button while entry is active. */
  function InteractiveButton(w: World, env: Env, button: Button, pressed: bool): (r: World)
    requires Active(w)
    ensures WorldOk(r) && r.killed == w.killed
    ensures pressed && (button == ButtonA || button == ButtonStart) ==> r == Confirm(w)
    ensures pressed && (button == LeftStick || button == ButtonBack) ==> r == Cancel(w, env)
    ensures pressed && button == DpadRight ==> r == CursorForward(w, env)
    ensures pressed && button == DpadLeft ==> r == CursorBack(w, env)
    ensures button in {DpadUp, DpadDown} ==> r == Cycle(w, env, button == DpadUp, pressed)
    ensures button in {LeftShoulder, RightShoulder} ==> r == Jump(w, env, button == LeftShoulder, pressed)
    ensures !pressed && button !in {DpadUp, DpadDown, LeftShoulder, RightShoulder} ==> r == w
    ensures button in {ButtonB, ButtonX, ButtonY, ButtonGuide, RightStick, OtherButton} ==> r == w
  {
    match button
    case DpadLeft => if pressed then CursorBack(w, env) else w
    case DpadRight => if pressed then CursorForward(w, env) else w
    case DpadUp => Cycle(w, env, true, pressed)
    case DpadDown => Cycle(w, env, false, pressed)
    case LeftShoulder => Jump(w, env, true, pressed)
    case RightShoulder => Jump(w, env, false, pressed)
    case ButtonA => if pressed then Confirm(w) else w
    case LeftStick => if pressed then Cancel(w, env) else w
    case ButtonBack => if pressed then Cancel(w, env) else w
    case ButtonStart => if pressed then Confirm(w) else w
    case _ => w
  }

  /** At the last position, d-pad right sends Enter and ends entry instead of typing a character. */
  lemma ForwardAtLimitConfirms(w: World, env: Env)
    requires Active(w) && w.kb.currentCharacter == MaxChars - 1
    ensures var r := InteractiveButton(w, env, DpadRight, true);
            r.out == w.out + EnterEvents && !r.state.textInputInteractiveModeActive
            && r.kb.currentCharacter == MaxChars
  {
  }

  /** Below the last position, d-pad right types the character at the new position and entry continues. */
  lemma ForwardTypesNext(w: World, env: Env)
    requires Active(w) && w.kb.currentCharacter < MaxChars - 1
    ensures var r := InteractiveButton(w, env, DpadRight, true);
            r.kb.currentCharacter == w.kb.currentCharacter + 1
            && r.out == w.out + SelectedCharEvents(r.kb) && r.state.textInputInteractiveModeActive
  {
  }

  /** A cancel at position n deletes n + 1 characters (twice as many backspaces for a space under Exult). */
  lemma CancelDeletesTypedText(w: World, env: Env)
    requires Active(w)
    ensures var r := InteractiveButton(w, env, ButtonBack, true);
            var n := w.kb.currentCharacter + 1;
            |r.out| - |w.out| == n * (if DoubleBackspace(w.kb, env.modes.appExultAdjust) then 2 else 1) * |BackspaceEvents|
  {
  }
}

=== FILE: keyboard.dfy ===
/**
 * The on-screen character cycler of the interactive text-input mode: the
 * table of selectable characters, the per-position selections
 * (`current_key`), the cursor (`current_character`) and the index
 * arithmetic that moves a selection forwards and backwards.
 */
module KeyboardSetup {
  import opened Codes
  import opened Wrappers

  const MaxKeysNoExtendedSymbols: int := 69
  const MaxKeysWithSymbols: int := 96
  /** Length of the text that can be entered. */
  const MaxChars: int := 20

  /** Index of the first lower-case letter, the initial selection of every position but the first. */
  const FirstLowerCase: int := 26
  /** Index of the space entry. */
  const SpaceIndex: int := 62

  /** Key names of the letters, in alphabetical order. */
  const Letters: seq<string> :=
    ["a", "b", "c", "d", "e", "f", "g", "h", "i", "j", "k", "l", "m",
     "n", "o", "p", "q", "r", "s", "t", "u", "v", "w", "x", "y", "z"]

  /** Key names of the digits. */
  const Digits: seq<string> := ["0", "1", "2", "3", "4", "5", "6", "7", "8", "9"]

  /** Key names of the symbols after the digits, always available. */
  const BasicSymbols: seq<string> := ["space", ".", ",", "-", "_", "(", ")"]
  const BasicSymbolShifts: seq<bool> := [false, false, false, false, true, true, true]

  /** Key names of the extra symbols, available only when extra symbols are enabled. */
  const ExtraSymbols: seq<string> :=
    ["@", "#", "%", "&", "*", "-", "+", "!", "\"", "'", ":", ";", "/", "?",
     "~", "`", "|", "{", "}", "$", "^", "=", "[", "]", "\\", "<", ">"]
  const ExtraSymbolShifts: seq<bool> :=
    [true, true, true, true, true, false, true, true, true, false, true, false, false, true,
     true, false, true, true, true, true, true, false, false, false, false, true, true]

  /** The char_to_keycode name of every table entry: capitals, lower case, digits, symbols, extra symbols. */
  const CharTokens: seq<string> :=
    Letters + Letters + Digits
    + BasicSymbols
    + ExtraSymbols

  function Uniform(n: nat, b: bool): (r: seq<bool>)
    ensures |r| == n && forall i :: 0 <= i < n ==> r[i] == b
  {
    if n == 0 then [] else Uniform(n - 1, b) + [b]
  }

  /** Whether each table entry is typed with shift held. */
  const CharShifts: seq<bool> :=
    Uniform(26, true) + Uniform(26, false) + Uniform(10, false)
    + BasicSymbolShifts
    + ExtraSymbolShifts

  lemma TableSizes()
    ensures |CharTokens| == MaxKeysWithSymbols && |CharShifts| == MaxKeysWithSymbols
    ensures MaxKeysNoExtendedSymbols == 26 + 26 + 10 + |BasicSymbols|
  {
  }

  /** The text-input keyboard of keyboard.cpp: table size in use, the two tables, the selections and the cursor. */
  datatype Keyboard = Keyboard(
    maxKeys: int,
    characterSet: seq<int>,
    characterSetShift: seq<bool>,
    currentKey: seq<int>,
    currentCharacter: int)

  /**
   * The keyboard's invariant: table and selection sizes, a table size of 69
   * or 96, every selection a valid index, the cursor within 0..MaxChars, and
   * no space at either end of the table in use (so that skipping the space
   * entry never leaves the table).
   */
  ghost predicate KeyboardOk(kb: Keyboard)
  {
    && |kb.characterSet| == MaxKeysWithSymbols
    && |kb.characterSetShift| == MaxKeysWithSymbols
    && (kb.maxKeys == MaxKeysNoExtendedSymbols || kb.maxKeys == MaxKeysWithSymbols)
    && |kb.currentKey| == MaxChars
    && (forall i :: 0 <= i < MaxChars ==> 0 <= kb.currentKey[i] < kb.maxKeys)
    && 0 <= kb.currentCharacter <= MaxChars
    && kb.characterSet[0] != KEY_SPACE
    && kb.characterSet[kb.maxKeys - 1] != KEY_SPACE
  }

  /** The cursor is on a position of the text (it moves to MaxChars only when entry ends). */
  ghost predicate Selectable(kb: Keyboard)
  {
    KeyboardOk(kb) && kb.currentCharacter < MaxChars
  }

  /** The globals before setup: zeroed tables and selections, 69 keys, cursor 0. */
  function ZeroKeyboard(): (kb: Keyboard)
    ensures KeyboardOk(kb) && Selectable(kb)
  {
    Keyboard(MaxKeysNoExtendedSymbols, seq(MaxKeysWithSymbols, _ => 0), seq(MaxKeysWithSymbols, _ => false),
             seq(MaxChars, _ => 0), 0)
  }

  /** initialiseCharacters: the first position starts on a capital unless auto-capitals are off; every other position on lower-case a. */
  function InitialSelections(noAutoCapitals: bool): (r: seq<int>)
    ensures |r| == MaxChars
    ensures r[0] == if noAutoCapitals then FirstLowerCase else 0
    ensures forall i :: 1 <= i < MaxChars ==> r[i] == FirstLowerCase
  {
    [if noAutoCapitals then FirstLowerCase else 0] + seq(MaxChars - 1, _ => FirstLowerCase)
  }

  /** Every initial selection is a valid index whichever table size is in use. */
  lemma InitialSelectionsInRange(noAutoCapitals: bool, maxKeys: int)
    requires maxKeys == MaxKeysNoExtendedSymbols || maxKeys == MaxKeysWithSymbols
    ensures forall i :: 0 <= i < MaxChars ==> 0 <= InitialSelections(noAutoCapitals)[i] < maxKeys
  {
  }

  /**
   * The table after initialiseCharacterSet: entries 0..68 always come from
   * char_to_keycode (`resolve`), entries 69..95 only with extra symbols;
   * otherwise they keep their previous contents.
   */
  function LoadedCharacterSet(previous: seq<int>, resolve: string -> int, extraSymbols: bool): (r: seq<int>)
    requires |previous| == MaxKeysWithSymbols
    ensures |r| == MaxKeysWithSymbols
    ensures forall i :: 0 <= i < MaxKeysNoExtendedSymbols ==> r[i] == resolve(CharTokens[i])
    ensures forall i :: MaxKeysNoExtendedSymbols <= i < MaxKeysWithSymbols ==>
              r[i] == if extraSymbols then resolve(CharTokens[i]) else previous[i]
  {
    TableSizes();
    seq(MaxKeysWithSymbols, i requires 0 <= i < MaxKeysWithSymbols =>
      if i < MaxKeysNoExtendedSymbols || extraSymbols then resolve(CharTokens[i]) else previous[i])
  }

  function LoadedShifts(previous: seq<bool>, extraSymbols: bool): (r: seq<bool>)
    requires |previous| == MaxKeysWithSymbols
    ensures |r| == MaxKeysWithSymbols
    ensures forall i :: 0 <= i < MaxKeysNoExtendedSymbols ==> r[i] == CharShifts[i]
    ensures extraSymbols ==> forall i :: MaxKeysNoExtendedSymbols <= i < MaxKeysWithSymbols ==> r[i] == CharShifts[i]
    ensures !extraSymbols ==> forall i :: MaxKeysNoExtendedSymbols <= i < MaxKeysWithSymbols ==> r[i] == previous[i]
  {
    TableSizes();
    seq(MaxKeysWithSymbols, i requires 0 <= i < MaxKeysWithSymbols =>
      if i < MaxKeysNoExtendedSymbols || extraSymbols then CharShifts[i] else previous[i])
  }

  /** char_to_keycode does not map the names at the ends of the table to the space key. */
  predicate ResolverOk(resolve: string -> int)
  {
    resolve("a") != KEY_SPACE && resolve(")") != KEY_SPACE && resolve(">") != KEY_SPACE
  }

  /** The tables initialiseCharacterSet loads, with the table size; the selections are untouched. */
  function LoadTables(kb: Keyboard, resolve: string -> int, extraSymbols: bool): (r: Keyboard)
    requires KeyboardOk(kb) && ResolverOk(resolve)
    ensures KeyboardOk(r)
    ensures r.maxKeys == if extraSymbols then MaxKeysWithSymbols else kb.maxKeys
    ensures r.currentKey == kb.currentKey && r.currentCharacter == kb.currentCharacter
  {
    assert CharTokens[0] == "a";
    assert CharTokens[MaxKeysNoExtendedSymbols - 1] == ")";
    assert CharTokens[MaxKeysWithSymbols - 1] == ">";
    kb.(maxKeys := if extraSymbols then MaxKeysWithSymbols else kb.maxKeys,
        characterSet := LoadedCharacterSet(kb.characterSet, resolve, extraSymbols),
        characterSetShift := LoadedShifts(kb.characterSetShift, extraSymbols))
  }

  /** initialiseCharacterSet as a whole: the table size, both tables, and the initial selections. */
  function InitialiseCharacterSet(kb: Keyboard, resolve: string -> int, extraSymbols: bool, noAutoCapitals: bool): (r: Keyboard)
    requires KeyboardOk(kb) && ResolverOk(resolve)
    ensures KeyboardOk(r)
    ensures r.maxKeys == if extraSymbols then MaxKeysWithSymbols else kb.maxKeys
    ensures r.currentKey == InitialSelections(noAutoCapitals)
    ensures r.currentCharacter == kb.currentCharacter
  {
    var loaded := LoadTables(kb, resolve, extraSymbols);
    InitialSelectionsInRange(noAutoCapitals, loaded.maxKeys);
    loaded.(currentKey := InitialSelections(noAutoCapitals))
  }

  /**
   * The layout of the table: 0..25 are the letters with shift, 26..51 the
   * same keys without, 52..61 the digits without shift and 62 is space.
   */
  lemma CharacterTableLayout()
    ensures forall i :: 0 <= i < 26 ==> CharTokens[i] == Letters[i] && CharShifts[i]
    ensures forall i :: 26 <= i < 52 ==> CharTokens[i] == Letters[i - 26] && !CharShifts[i]
    ensures forall i :: 52 <= i < 62 ==> CharTokens[i] == Digits[i - 52] && !CharShifts[i]
    ensures CharTokens[SpaceIndex] == "space" && !CharShifts[SpaceIndex]
  {
  }

  /** Loading the table types the same key for a capital and its lower-case letter, with and without shift. */
  lemma LoadedCaseVariants(kb: Keyboard, resolve: string -> int, extraSymbols: bool, noAutoCapitals: bool, i: int)
    requires KeyboardOk(kb) && ResolverOk(resolve) && 0 <= i < 26
    ensures var r := InitialiseCharacterSet(kb, resolve, extraSymbols, noAutoCapitals);
            r.characterSet[i] == r.characterSet[i + 26] && r.characterSetShift[i] && !r.characterSetShift[i + 26]
  {
    CharacterTableLayout();
  }

  // ---------------------------------------------------------------------
  // Moving a selection

  /** The step of a single move and of a half-alphabet jump. */
  function Step(single: bool): int
  {
    if single then 1 else 13
  }

  /** The selection at the cursor. */
  function Selected(kb: Keyboard): int
    requires Selectable(kb)
  {
    kb.currentKey[kb.currentCharacter]
  }

  /** The keyboard with a new selection at the cursor. */
  function WithSelection(kb: Keyboard, k: int): (r: Keyboard)
    requires Selectable(kb) && 0 <= k < kb.maxKeys
    ensures Selectable(r) && Selected(r) == k
    ensures r == kb.(currentKey := r.currentKey)
    ensures forall i :: 0 <= i < MaxChars && i != kb.currentCharacter ==> r.currentKey[i] == kb.currentKey[i]
  {
    kb.(currentKey := kb.currentKey[kb.currentCharacter := k])
  }

  /**
   * nextTextInputKey's index arithmetic: forward by 1 or 13, wrapping once
   * past the end; without a wrap, the space entry is skipped at the first
   * position.
   */
  function NextSelection(kb: Keyboard, single: bool): (k: int)
    requires Selectable(kb)
    ensures 0 <= k < kb.maxKeys
    ensures Selected(kb) + Step(single) >= kb.maxKeys ==> k == Selected(kb) + Step(single) - kb.maxKeys
    ensures Selected(kb) + Step(single) < kb.maxKeys ==>
              k == if kb.currentCharacter == 0 && kb.characterSet[Selected(kb) + Step(single)] == KEY_SPACE
                   then Selected(kb) + Step(single) + 1 else Selected(kb) + Step(single)
  {
    var k := Selected(kb) + Step(single);
    if k >= kb.maxKeys then k - kb.maxKeys
    else if kb.currentCharacter == 0 && kb.characterSet[k] == KEY_SPACE then k + 1
    else k
  }

  /** prevTextInputKey's index arithmetic: backward by 1 or 13, with the same wrap and skip. */
  function PrevSelection(kb: Keyboard, single: bool): (k: int)
    requires Selectable(kb)
    ensures 0 <= k < kb.maxKeys
    ensures Selected(kb) - Step(single) < 0 ==> k == Selected(kb) - Step(single) + kb.maxKeys
    ensures Selected(kb) - Step(single) >= 0 ==>
              k == if kb.currentCharacter == 0 && kb.characterSet[Selected(kb) - Step(single)] == KEY_SPACE
                   then Selected(kb) - Step(single) - 1 else Selected(kb) - Step(single)
  {
    var k := Selected(kb) - Step(single);
    if k < 0 then k + kb.maxKeys
    else if kb.currentCharacter == 0 && kb.characterSet[k] == KEY_SPACE then k - 1
    else k
  }

  /** Away from the first position the selection moves modulo the table size. */
  lemma SelectionIsModular(kb: Keyboard, single: bool)
    requires Selectable(kb) && kb.currentCharacter != 0
    ensures NextSelection(kb, single) == (Selected(kb) + Step(single)) % kb.maxKeys
    ensures PrevSelection(kb, single) == (Selected(kb) - Step(single)) % kb.maxKeys
  {
  }

  /** Away from the first position a move back undoes a move forward, and the other way round. */
  lemma NextPrevInverse(kb: Keyboard, single: bool)
    requires Selectable(kb) && kb.currentCharacter != 0
    ensures PrevSelection(WithSelection(kb, NextSelection(kb, single)), single) == Selected(kb)
    ensures NextSelection(WithSelection(kb, PrevSelection(kb, single)), single) == Selected(kb)
  {
  }

  /** Without a wrap, a move never selects space at the first position. */
  lemma FirstPositionSkipsSpace(kb: Keyboard, single: bool)
    requires Selectable(kb) && kb.currentCharacter == 0
    ensures Selected(kb) + Step(single) < kb.maxKeys ==>
              (kb.characterSet[NextSelection(kb, single)] != KEY_SPACE
               || kb.characterSet[Selected(kb) + Step(single) + 1] == KEY_SPACE)
    ensures 0 <= Selected(kb) - Step(single) ==>
              (kb.characterSet[PrevSelection(kb, single)] != KEY_SPACE
               || kb.characterSet[Selected(kb) - Step(single) - 1] == KEY_SPACE)
  {
  }

  /**
   * The skip is not applied after a wrap: with 69 keys, jumping back 13 from
   * the capital G at the first position selects the space entry.
   */
  lemma WrapLandsOnSpace(kb: Keyboard)
    requires Selectable(kb) && kb.maxKeys == MaxKeysNoExtendedSymbols
    requires kb.currentCharacter == 0 && Selected(kb) == 6
    ensures PrevSelection(kb, false) == SpaceIndex
  {
  }

  // ---------------------------------------------------------------------
  // D-pad right: advancing the cursor

  /**
   * As written, d-pad right stores 0 (a capital) into `current_key` at the
   * next position when the character under the cursor is a space and
   * auto-capitals are on. This is the index of that store, if any.
   */
  function AdvanceStoreIndexAsWritten(kb: Keyboard, noAutoCapitals: bool): (r: Option<int>)
    requires Selectable(kb)
    ensures r.Some? ==> r.value == kb.currentCharacter + 1
  {
    if kb.characterSet[Selected(kb)] == KEY_SPACE && !noAutoCapitals then Some(kb.currentCharacter + 1) else None
  }

  /** A space selected at the last position makes the store index equal to the array length, one past its end. */
  lemma AdvanceStoreOutOfBounds(kb: Keyboard)
    requires Selectable(kb) && kb.currentCharacter == MaxChars - 1
    requires kb.characterSet[Selected(kb)] == KEY_SPACE
    ensures AdvanceStoreIndexAsWritten(kb, false) == Some(|kb.currentKey|)
  {
  }

  /**
   * D-pad right with the store guarded: the cursor moves one position; after
   * a space (with auto-capitals on) the new position starts on a capital,
   * unless the cursor has reached the end of the text.
   */
  function Advance(kb: Keyboard, noAutoCapitals: bool): (r: Keyboard)
    requires Selectable(kb)
    ensures KeyboardOk(r)
    ensures r.currentCharacter == kb.currentCharacter + 1
    ensures r.currentCharacter < MaxChars && AdvanceStoreIndexAsWritten(kb, noAutoCapitals).Some? ==>
              r.currentKey == kb.currentKey[r.currentCharacter := 0]
    ensures r.currentCharacter == MaxChars || AdvanceStoreIndexAsWritten(kb, noAutoCapitals).None? ==>
              r.currentKey == kb.currentKey
    ensures r.maxKeys == kb.maxKeys && r.characterSet == kb.characterSet && r.characterSetShift == kb.characterSetShift
  {
    var next := kb.currentCharacter + 1;
    if kb.characterSet[Selected(kb)] == KEY_SPACE && !noAutoCapitals && next < MaxChars then
      kb.(currentKey := kb.currentKey[next := 0], currentCharacter := next)
    else
      kb.(currentCharacter := next)
  }
}

=== FILE: machine.dfy ===
/**
 * The remapper's world as one value: the GptokeybState record, the SDL
 * repeat-timer slot, the text-input keyboard and the trace of events
 * written to the virtual device. This module holds the operations shared by
 * the event handlers: the repeat slot (setKeyRepeat, setInputRepeat and the
 * timer callbacks), the text-input primitives (add, remove and confirm a
 * character, next and previous key), preset typing (processKeys) and the
 * mouse flush of the main loop.
 */
module Machine {
  import opened Codes
  import opened Wrappers
  import opened Structs
  import opened Events
  import opened KeyboardSetup

  /** The command-line and environment switches, fixed before the first event. */
  datatype Modes = Modes(
    killMode: bool,
    pcKillMode: bool,
    xbox360Mode: bool,
    textInputPresetMode: bool,
    textInputInteractiveMode: bool,
    noAutoCapitals: bool,
    extraSymbols: bool,
    appExultAdjust: bool,
    hotkeyOverride: bool,
    emuelecOverride: bool,
    hotkeyCode: string)

  /**
   * What the handlers read but never change: the configuration, the modes,
   * and the outside functions char_to_keycode (`resolve`) and the locale's
   * tolower/toupper.
   */
  datatype Env = Env(
    config: Config,
    modes: Modes,
    resolve: string -> int,
    toLower: char -> char,
    toUpper: char -> char)

  ghost predicate EnvOk(env: Env)
  {
    env.config.Valid() && ResolverOk(env.resolve)
  }

  /** The two SDL timer callbacks. */
  datatype Callback = KeyRepeatCallback | InputRepeatCallback

  /** An armed SDL timer: its id, callback and the interval until it next fires. */
  datatype Timer = Timer(id: int, callback: Callback, interval: int)

  /** The repeat-timer slot and the id SDL_AddTimer hands out next. */
  datatype Sdl = Sdl(timer: Option<Timer>, nextId: int)

  /** SDL before any timer was added: nothing armed, ids start at 1. */
  const NoTimers: Sdl := Sdl(None, 1)

  /** SDL_AddTimer: arms a timer under a fresh id. */
  function AddTimer(sdl: Sdl, interval: int, callback: Callback): (r: Sdl)
    ensures r.timer == Some(Timer(sdl.nextId, callback, interval))
    ensures r.nextId == sdl.nextId + 1
  {
    Sdl(Some(Timer(sdl.nextId, callback, interval)), sdl.nextId + 1)
  }

  /** SDL_RemoveTimer: disarms the timer with the given id; any other id (including 0) changes nothing. */
  function RemoveTimer(sdl: Sdl, id: int): (r: Sdl)
    ensures r.nextId == sdl.nextId
    ensures r.timer.None? <==> sdl.timer.None? || sdl.timer.value.id == id
    ensures r.timer.Some? ==> r.timer == sdl.timer
  {
    if sdl.timer.Some? && sdl.timer.value.id == id then sdl.(timer := None) else sdl
  }

  datatype World = World(state: State, sdl: Sdl, kb: Keyboard, out: seq<OutEvent>, killed: bool)

  /**
   * The invariant every handler keeps: a well-formed keyboard, the cursor on
   * a position while interactive entry is active, and an armed timer always
   * the one whose id the state holds.
   */
  ghost predicate WorldOk(w: World)
  {
    && KeyboardOk(w.kb)
    && (w.state.textInputInteractiveModeActive ==> w.kb.currentCharacter < MaxChars)
    && w.sdl.nextId >= 1
    && (w.sdl.timer.Some? ==> 1 <= w.sdl.timer.value.id < w.sdl.nextId
                              && w.sdl.timer.value.id == w.state.keyRepeatTimerId)
  }

  /** The world at program start, before any event: keyboard set up when interactive entry is enabled. */
  function InitialWorld(env: Env): (w: World)
    requires ResolverOk(env.resolve)
    ensures WorldOk(w)
    ensures AllFlagsClear(w.state) && w.out == [] && !w.killed && w.sdl.timer.None?
    ensures env.modes.textInputInteractiveMode ==> w.kb.currentKey == InitialSelections(env.modes.noAutoCapitals)
    ensures w.kb.maxKeys == if env.modes.textInputInteractiveMode && env.modes.extraSymbols
                            then MaxKeysWithSymbols else MaxKeysNoExtendedSymbols
  {
    var kb := if env.modes.textInputInteractiveMode
              then InitialiseCharacterSet(ZeroKeyboard(), env.resolve, env.modes.extraSymbols, env.modes.noAutoCapitals)
              else ZeroKeyboard();
    World(InitialState(), NoTimers, kb, [], false)
  }

  /** The invariant depends on the state only through the active flag and the repeat timer's id. */
  lemma WorldOkFrame(w: World, r: World)
    requires r.kb == w.kb && r.sdl == w.sdl
    requires r.state.textInputInteractiveModeActive == w.state.textInputInteractiveModeActive
    requires r.state.keyRepeatTimerId == w.state.keyRepeatTimerId
    ensures WorldOk(w) ==> WorldOk(r)
  {
  }

  /** The program is as alive as before and interactive entry is as active as before. */
  predicate SameRunState(w: World, r: World)
  {
    r.killed == w.killed && r.state.textInputInteractiveModeActive == w.state.textInputInteractiveModeActive
  }

  /** Writes events to the virtual device. */
  function Emit(w: World, evs: seq<OutEvent>): (r: World)
    ensures r.out == w.out + evs
    ensures r.state == w.state && r.sdl == w.sdl && r.kb == w.kb && r.killed == w.killed
  {
    w.(out := w.out + evs)
  }

  // ---------------------------------------------------------------------
  // The repeat slot

  /**
   * setKeyRepeat and setInputRepeat: a press fills the slot with `code` and
   * arms a timer after `firstInterval`; a release removes the slot's timer
   * and empties the slot.
   */
  function SetRepeat(w: World, code: int, pressed: bool, firstInterval: int, callback: Callback): (r: World)
    ensures pressed ==> r.state.keyToRepeat == code && r.state.keyRepeatTimerId == w.sdl.nextId
                        && r.sdl.timer == Some(Timer(w.sdl.nextId, callback, firstInterval))
    ensures !pressed ==> r.state.keyToRepeat == 0 && r.state.keyRepeatTimerId == 0
                         && r.sdl == RemoveTimer(w.sdl, w.state.keyRepeatTimerId)
    ensures !pressed && WorldOk(w) ==> r.sdl.timer.None?
    ensures r.state == w.state.(keyToRepeat := r.state.keyToRepeat, keyRepeatTimerId := r.state.keyRepeatTimerId)
    ensures r.out == w.out && r.kb == w.kb && r.killed == w.killed
    ensures WorldOk(w) ==> WorldOk(r)
  {
    if pressed then
      w.(state := w.state.(keyToRepeat := code, keyRepeatTimerId := w.sdl.nextId),
         sdl := AddTimer(w.sdl, firstInterval, callback))
    else
      w.(state := w.state.(keyToRepeat := 0, keyRepeatTimerId := 0),
         sdl := RemoveTimer(w.sdl, w.state.keyRepeatTimerId))
  }

  /** setKeyRepeat: the first repeat after the repeat delay, by the key-repeat callback. */
  function SetKeyRepeat(w: World, cfg: Config, code: int, pressed: bool): World
  {
    SetRepeat(w, code, pressed, cfg.keyRepeatDelay, KeyRepeatCallback)
  }

  /** setInputRepeat: the first repeat after the repeat interval, by the text-input callback. */
  function SetInputRepeat(w: World, cfg: Config, code: int, pressed: bool): World
  {
    SetRepeat(w, code, pressed, cfg.keyRepeatInterval, InputRepeatCallback)
  }

  /** The condition guarding every setKeyRepeat call site: start only into an empty slot, stop only the slot's own key. */
  predicate RepeatGuard(b: Binding, pressed: bool, keyToRepeat: int)
  {
    (b.repeat && pressed && keyToRepeat == 0) || (!pressed && keyToRepeat == b.key)
  }

  /** After the key events of a binding, the guarded repeat update. */
  function GuardedRepeat(w: World, cfg: Config, b: Binding, pressed: bool): (r: World)
    ensures r.out == w.out && r.kb == w.kb && r.killed == w.killed
    ensures r.state == w.state.(keyToRepeat := r.state.keyToRepeat, keyRepeatTimerId := r.state.keyRepeatTimerId)
    ensures r.state.keyToRepeat != w.state.keyToRepeat && w.state.keyToRepeat == 0 ==>
              b.repeat && pressed && r.state.keyToRepeat == b.key
    ensures r.state.keyToRepeat != w.state.keyToRepeat && w.state.keyToRepeat != 0 ==>
              !pressed && w.state.keyToRepeat == b.key && r.state.keyToRepeat == 0
    ensures w.state.keyToRepeat != 0 && !pressed && w.state.keyToRepeat == b.key && WorldOk(w) ==>
              r.sdl.timer.None?
    ensures b.repeat && pressed && w.state.keyToRepeat == 0 ==> r == SetKeyRepeat(w, cfg, b.key, true)
    ensures !pressed && w.state.keyToRepeat == b.key ==> r == SetKeyRepeat(w, cfg, b.key, false)
    ensures !b.repeat && w.state.keyToRepeat != b.key ==> r == w
    ensures WorldOk(w) ==> WorldOk(r)
  {
    if RepeatGuard(b, pressed, w.state.keyToRepeat) then SetKeyRepeat(w, cfg, b.key, pressed) else w
  }

  /** The common call site: emitKey for a binding, then the guarded repeat update. */
  function KeyWithRepeat(w: World, cfg: Config, b: Binding, pressed: bool): (r: World)
    ensures r.out == w.out + KeyEvents(b.key, pressed, b.modifier)
    ensures r == GuardedRepeat(Emit(w, KeyEvents(b.key, pressed, b.modifier)), cfg, b, pressed)
    ensures WorldOk(w) ==> WorldOk(r)
    ensures SameRunState(w, r)
  {
    GuardedRepeat(Emit(w, KeyEvents(b.key, pressed, b.modifier)), cfg, b, pressed)
  }

  /** A press held back by a hotkey owner, replayed on release: press and release of the binding, then the guarded repeat update for a release. */
  function TapKey(w: World, cfg: Config, b: Binding): (r: World)
    ensures r.out == w.out + KeyEvents(b.key, true, b.modifier) + KeyEvents(b.key, false, b.modifier)
    ensures r.state.keyToRepeat == if w.state.keyToRepeat == b.key then 0 else w.state.keyToRepeat
    ensures w.state.keyToRepeat == b.key ==>
              r == SetKeyRepeat(Emit(w, KeyEvents(b.key, true, b.modifier) + KeyEvents(b.key, false, b.modifier)), cfg, b.key, false)
    ensures w.state.keyToRepeat == b.key && WorldOk(w) ==> r.sdl.timer.None?
    ensures w.state.keyToRepeat != b.key ==> r.state == w.state && r.sdl == w.sdl
    ensures r.state == w.state.(keyToRepeat := r.state.keyToRepeat, keyRepeatTimerId := r.state.keyRepeatTimerId)
    ensures r.kb == w.kb
    ensures WorldOk(w) ==> WorldOk(r)
    ensures SameRunState(w, r)
  {
    GuardedRepeat(Emit(w, KeyEvents(b.key, true, b.modifier) + KeyEvents(b.key, false, b.modifier)), cfg, b, false)
  }

  /** A released key never leaves its repeat timer armed. */
  lemma ReleaseStopsOwnRepeat(w: World, cfg: Config, b: Binding)
    requires WorldOk(w) && w.state.keyToRepeat == b.key
    ensures var r := KeyWithRepeat(w, cfg, b, false);
            r.state.keyToRepeat == 0 && r.sdl.timer.None?
  {
  }

  /** A press while another key repeats leaves the slot alone: one repeating key at a time. */
  lemma PressKeepsOtherRepeat(w: World, cfg: Config, b: Binding)
    requires w.state.keyToRepeat != 0
    ensures var r := KeyWithRepeat(w, cfg, b, true);
            r.state.keyToRepeat == w.state.keyToRepeat && r.sdl == w.sdl
  {
  }

  // ---------------------------------------------------------------------
  // Text-input primitives

  /** emitTextInputKey for the key selected at the cursor: a synced tap, shifted when the table says so. */
  function SelectedCharEvents(kb: Keyboard): (r: seq<OutEvent>)
    requires Selectable(kb)
    ensures KeysSynced(r)
    ensures |r| == if kb.characterSetShift[Selected(kb)] then 8 else 4
    ensures r == TextKeyEvents(kb.characterSet[Selected(kb)], kb.characterSetShift[Selected(kb)])
  {
    TextKeyEvents(kb.characterSet[Selected(kb)], kb.characterSetShift[Selected(kb)])
  }

  /** removeTextInputCharacter: one backspace. */
  const BackspaceEvents: seq<OutEvent> := TextKeyEvents(KEY_BACKSPACE, false)

  /** confirmTextInputCharacter: one Enter. */
  const EnterEvents: seq<OutEvent> := TextKeyEvents(KEY_ENTER, false)

  /** addTextInputCharacter: types the selected key and changes nothing else. */
  function AddChar(w: World): (r: World)
    requires Selectable(w.kb)
    ensures r.out == w.out + SelectedCharEvents(w.kb)
    ensures r.state == w.state && r.sdl == w.sdl && r.kb == w.kb && r.killed == w.killed
  {
    Emit(w, SelectedCharEvents(w.kb))
  }

  /** nextTextInputKey: delete the character, select the next key, type it. */
  function NextTextInputKey(w: World, single: bool): (r: World)
    requires Selectable(w.kb)
    ensures Selectable(r.kb) && Selected(r.kb) == NextSelection(w.kb, single)
    ensures r.kb == WithSelection(w.kb, NextSelection(w.kb, single))
    ensures r.out == w.out + BackspaceEvents + SelectedCharEvents(r.kb)
    ensures r.state == w.state && r.sdl == w.sdl && r.killed == w.killed
  {
    var kb := WithSelection(w.kb, NextSelection(w.kb, single));
    AddChar(Emit(w, BackspaceEvents).(kb := kb))
  }

  /** prevTextInputKey: delete the character, select the previous key, type it. */
  function PrevTextInputKey(w: World, single: bool): (r: World)
    requires Selectable(w.kb)
    ensures Selectable(r.kb) && Selected(r.kb) == PrevSelection(w.kb, single)
    ensures r.kb == WithSelection(w.kb, PrevSelection(w.kb, single))
    ensures r.out == w.out + BackspaceEvents + SelectedCharEvents(r.kb)
    ensures r.state == w.state && r.sdl == w.sdl && r.killed == w.killed
  {
    var kb := WithSelection(w.kb, PrevSelection(w.kb, single));
    AddChar(Emit(w, BackspaceEvents).(kb := kb))
  }

  /** Away from the first position, a step forward and a step back type the original character again. */
  lemma NextThenPrevRestores(w: World, single: bool)
    requires Selectable(w.kb) && w.kb.currentCharacter != 0
    ensures var r := PrevTextInputKey(NextTextInputKey(w, single), single);
            r.kb == w.kb && r.out == w.out + BackspaceEvents + SelectedCharEvents(WithSelection(w.kb, NextSelection(w.kb, single)))
                                      + BackspaceEvents + SelectedCharEvents(w.kb)
  {
    var m := NextTextInputKey(w, single);
    NextPrevInverse(w.kb, single);
    assert m.kb.currentKey[m.kb.currentCharacter := Selected(w.kb)] == w.kb.currentKey;
  }

  /** initialiseCharacters: every position back to its initial selection. */
  function InitialiseCharacters(kb: Keyboard, noAutoCapitals: bool): (r: Keyboard)
    requires KeyboardOk(kb)
    ensures KeyboardOk(r)
    ensures r.currentKey == InitialSelections(noAutoCapitals)
    ensures r == kb.(currentKey := r.currentKey)
  {
    InitialSelectionsInRange(noAutoCapitals, kb.maxKeys);
    kb.(currentKey := InitialSelections(noAutoCapitals))
  }

  // ---------------------------------------------------------------------
  // Preset typing (processKeys)

  /** The text a C string holds: everything before its first NUL. */
  function CString(s: string): (r: string)
    ensures r <= s && '\0' !in r
    ensures |r| < |s| ==> s[|r|] == '\0'
  {
    if s == [] || s[0] == '\0' then [] else [s[0]] + CString(s[1..])
  }

  /**
   * The key and shift processKeys types for one character, as written: the
   * key char_to_keycode gives for the lower-case form, shifted when the
   * character equals its upper-case form, with five characters overridden;
   * '-' is typed with shift.
   */
  function CharKeyAsWritten(env: Env, ch: char): (r: (int, bool))
    ensures ch == ' ' ==> r == (KEY_SPACE, false)
    ensures ch == '_' || ch == '-' ==> r == (KEY_MINUS, true)
    ensures ch == '.' ==> r == (KEY_DOT, false)
    ensures ch == ',' ==> r == (KEY_COMMA, false)
    ensures ch !in {' ', '_', '-', '.', ','} ==> r == (env.resolve([env.toLower(ch)]), env.toUpper(ch) == ch)
  {
    if ch == ' ' then (KEY_SPACE, false)
    else if ch == '_' then (KEY_MINUS, true)
    else if ch == '-' then (KEY_MINUS, true)
    else if ch == '.' then (KEY_DOT, false)
    else if ch == ',' then (KEY_COMMA, false)
    else (env.resolve([env.toLower(ch)]), env.toUpper(ch) == ch)
  }

  /** As written, '-' and '_' are typed identically, so a '-' in the preset text comes out as '_'. */
  lemma HyphenTypedAsUnderscore(env: Env)
    ensures CharKeyAsWritten(env, '-') == CharKeyAsWritten(env, '_')
  {
  }

  /** The key and shift for one character with '-' typed unshifted, the model's processKeys. */
  function CharKey(env: Env, ch: char): (r: (int, bool))
    ensures ch == '-' ==> r == (KEY_MINUS, false)
    ensures ch != '-' ==> r == CharKeyAsWritten(env, ch)
  {
    if ch == '-' then (KEY_MINUS, false) else CharKeyAsWritten(env, ch)
  }

  /** With the correction, '-' and '_' are told apart: the same key, one unshifted and one shifted. */
  lemma HyphenAndUnderscoreDistinct(env: Env)
    ensures CharKey(env, '-').0 == CharKey(env, '_').0
    ensures !CharKey(env, '-').1 && CharKey(env, '_').1
  {
  }

  /** The events for typing one character. */
  function CharTyping(env: Env, ch: char): (r: seq<OutEvent>)
    ensures KeysSynced(r)
    ensures |r| == 4 || |r| == 8
    ensures r == TextKeyEvents(CharKey(env, ch).0, CharKey(env, ch).1)
  {
    TextKeyEvents(CharKey(env, ch).0, CharKey(env, ch).1)
  }

  /** The events processKeys writes for a text: each character typed in turn. */
  function PresetEvents(env: Env, text: string): (r: seq<OutEvent>)
    ensures KeysSynced(r)
    ensures text == [] <==> r == []
  {
    if text == [] then []
    else
      var rest := PresetEvents(env, text[..|text| - 1]);
      KeysSyncedAppend(rest, CharTyping(env, text[|text| - 1]));
      rest + CharTyping(env, text[|text| - 1])
  }

  /** One more character of a text types that character after the prefix. */
  lemma PresetEventsStep(env: Env, text: string, i: nat)
    requires i < |text|
    ensures PresetEvents(env, text[..i + 1])
         == PresetEvents(env, text[..i]) + TextKeyEvents(CharKey(env, text[i]).0, CharKey(env, text[i]).1)
  {
    assert text[..i + 1][..i] == text[..i];
  }

  /** The last character of a non-empty concatenation is typed last. */
  lemma PresetEventsLast(env: Env, a: string, b: string)
    requires b != []
    ensures PresetEvents(env, a + b) == PresetEvents(env, a + b[..|b| - 1]) + CharTyping(env, b[|b| - 1])
  {
    var t := a + b;
    assert t != [];
    assert PresetEvents(env, t) == PresetEvents(env, t[..|t| - 1]) + CharTyping(env, t[|t| - 1]);
    assert t[..|t| - 1] == a + b[..|b| - 1];
    assert t[|t| - 1] == b[|b| - 1];
  }

  /** Typing a concatenation types the parts one after the other. */
  lemma {:induction false} PresetEventsAppend(env: Env, a: string, b: string)
    ensures PresetEvents(env, a + b) == PresetEvents(env, a) + PresetEvents(env, b)
    decreases |b|
  {
    if b == [] {
      assert a + b == a;
    } else {
      var b', last := b[..|b| - 1], b[|b| - 1];
      PresetEventsLast(env, a, b);
      PresetEventsAppend(env, a, b');
      AppendAssociates(PresetEvents(env, a), PresetEvents(env, b'), CharTyping(env, last));
    }
  }

  /** Each character yields between four and eight events. */
  lemma {:induction false} PresetEventsLength(env: Env, text: string)
    ensures 4 * |text| <= |PresetEvents(env, text)| <= 8 * |text|
    decreases |text|
  {
    if text != [] {
      PresetEventsLength(env, text[..|text| - 1]);
    }
  }

  /** processKeys: the preset text up to its NUL, typed character by character. */
  function ProcessKeys(w: World, env: Env, text: string): (r: World)
    ensures r.out == w.out + PresetEvents(env, CString(text))
    ensures r.state == w.state && r.sdl == w.sdl && r.kb == w.kb && r.killed == w.killed
  {
    Emit(w, PresetEvents(env, CString(text)))
  }

  /** A digit equal to its own upper-case form is typed with shift, as the code is written. */
  lemma DigitTypedWithShift(env: Env)
    requires env.toUpper('1') == '1'
    ensures CharKey(env, '1').1
  {
  }

  // ---------------------------------------------------------------------
  // The timer firing

  /** A timer callback's return value: 0 cancels the timer, anything else rearms it with that interval. */
  function Rearm(t: Timer, interval: int): (r: Option<Timer>)
    ensures interval == 0 <==> r.None?
    ensures r.Some? ==> r.value.id == t.id && r.value.callback == t.callback && r.value.interval == interval
  {
    if interval == 0 then None else Some(t.(interval := interval))
  }

  /**
   * The armed timer may fire: the text-input callback on up or down moves
   * the selection at the cursor, which must then be a position of the text.
   */
  ghost predicate CanTick(w: World)
  {
    && WorldOk(w)
    && w.sdl.timer.Some?
    && (w.sdl.timer.value.callback == InputRepeatCallback && w.state.keyToRepeat in {KEY_UP, KEY_DOWN} ==>
          w.kb.currentCharacter < MaxChars)
  }

  /**
   * The armed timer fires. Both callbacks read the slot key at firing time.
   * repeatKeyCallback releases and presses it again; repeatInputCallback
   * selects the previous key for up and the next for down, and cancels
   * itself for any other key. Both rearm with the repeat interval.
   */
  function Tick(w: World, env: Env): (r: World)
    requires CanTick(w)
    ensures WorldOk(r)
    ensures r.state == w.state && r.killed == w.killed && r.sdl.nextId == w.sdl.nextId
    ensures w.sdl.timer.value.callback == KeyRepeatCallback ==>
              && r.out == w.out + KeyEvents(w.state.keyToRepeat, false, 0) + KeyEvents(w.state.keyToRepeat, true, 0)
              && r.sdl.timer == Rearm(w.sdl.timer.value, env.config.keyRepeatInterval)
              && r.kb == w.kb
    ensures w.sdl.timer.value.callback == InputRepeatCallback && w.state.keyToRepeat == KEY_UP ==>
              r.kb == PrevTextInputKey(w, true).kb && r.out == PrevTextInputKey(w, true).out
    ensures w.sdl.timer.value.callback == InputRepeatCallback && w.state.keyToRepeat == KEY_DOWN ==>
              r.kb == NextTextInputKey(w, true).kb && r.out == NextTextInputKey(w, true).out
    ensures w.sdl.timer.value.callback == InputRepeatCallback && w.state.keyToRepeat in {KEY_UP, KEY_DOWN} ==>
              r.sdl.timer == Rearm(w.sdl.timer.value, env.config.keyRepeatInterval)
    ensures w.sdl.timer.value.callback == InputRepeatCallback && w.state.keyToRepeat !in {KEY_UP, KEY_DOWN} ==>
              r.sdl.timer.None? && r.out == w.out && r.kb == w.kb
  {
    var t := w.sdl.timer.value;
    var key := w.state.keyToRepeat;
    var rearmed := w.sdl.(timer := Rearm(t, env.config.keyRepeatInterval));
    match t.callback
    case KeyRepeatCallback =>
      Emit(w, KeyEvents(key, false, 0) + KeyEvents(key, true, 0)).(sdl := rearmed)
    case InputRepeatCallback =>
      if key == KEY_UP then PrevTextInputKey(w, true).(sdl := rearmed)
      else if key == KEY_DOWN then NextTextInputKey(w, true).(sdl := rearmed)
      else w.(sdl := w.sdl.(timer := None))
  }

  /** A repeating key is typed again on each firing: a release then a press, each followed by a sync. */
  lemma KeyRepeatTickOrder(w: World, env: Env)
    requires CanTick(w) && w.sdl.timer.value.callback == KeyRepeatCallback
    ensures var k := w.state.keyToRepeat;
            Tick(w, env).out == w.out + [Key(k, false), Syn, Key(k, true), Syn]
  {
  }

  // ---------------------------------------------------------------------
  // The main loop's mouse flush

  /** After each batch of events, the main loop writes the mouse motion held in the state. */
  function FlushMouse(w: World): (r: World)
    ensures r.out == w.out + MouseEvents(w.state.mouseX, w.state.mouseY)
    ensures r.state == w.state && r.sdl == w.sdl && r.kb == w.kb && r.killed == w.killed
  {
    if w.state.mouseX != 0 || w.state.mouseY != 0 then Emit(w, MouseEvents(w.state.mouseX, w.state.mouseY)) else w
  }

  /** The motion is not cleared once written, so a stick held off-centre keeps the pointer moving on every pass. */
  lemma FlushMouseRepeats(w: World)
    ensures FlushMouse(FlushMouse(w)).out
         == w.out + MouseEvents(w.state.mouseX, w.state.mouseY) + MouseEvents(w.state.mouseX, w.state.mouseY)
  {
  }
}

=== FILE: owner.dfy ===
/**
 * The press-and-hold logic shared by the buttons that can act as a hotkey
 * (l3, guide and back, through the `hotkey_*` flags) and by start (through
 * the `start_*` flags). A button that owns the role records whether it is
 * held and on which controller. Its own key is then held back: a press
 * sends nothing, and a release replays press and release, unless a
 * combination used the button in the meantime, in which case the release
 * sends nothing either.
 */
module Owner {

  /** One instance of the flags: held, the controller it is held on, pressed-but-not-yet-replayed, and combination used. */
  datatype Hold = Hold(pressed: bool, jsdevice: int, wasPressed: bool, comboTriggered: bool)

  /** What the button event does with the button's own binding. */
  datatype Action =
    | Arm            // held: nothing sent yet
    | SwallowRelease // released after a combination: nothing sent
    | Tap            // released without a combination: press and release replayed
    | Forward        // not held back: the binding follows the button

  /**
   * One button event on a button that `owns` the role or not: an owner first
   * records the level and controller; then the four-way decision.
   */
  function Step(h: Hold, owns: bool, pressed: bool, which: int): (r: (Hold, Action))
    ensures owns ==> r.0.pressed == pressed && r.0.jsdevice == which
    ensures !owns ==> r.0.pressed == h.pressed && r.0.jsdevice == h.jsdevice
    ensures r.1 == Arm <==> r.0.pressed && r.0.jsdevice == which
    ensures r.1 == Arm ==> r.0.wasPressed && r.0.comboTriggered == h.comboTriggered
    ensures r.1 == SwallowRelease ==> !pressed && h.comboTriggered && !r.0.comboTriggered && !r.0.wasPressed
    ensures r.1 == Tap ==> !pressed && !h.comboTriggered && h.wasPressed && !r.0.wasPressed && !r.0.comboTriggered
    ensures r.1 == Forward ==> r.0.wasPressed == h.wasPressed && r.0.comboTriggered == h.comboTriggered
                               && (pressed || (!h.comboTriggered && !h.wasPressed))
  {
    var h1 := if owns then h.(pressed := pressed, jsdevice := which) else h;
    if h1.pressed && h1.jsdevice == which then (h1.(wasPressed := true), Arm)
    else if h1.comboTriggered && !pressed then (h1.(comboTriggered := false, wasPressed := false), SwallowRelease)
    else if h1.wasPressed && !pressed then (h1.(wasPressed := false), Tap)
    else (h1, Forward)
  }

  /** An owner's press is always held back. */
  lemma OwnerPressArms(h: Hold, which: int)
    ensures Step(h, true, true, which).1 == Arm
  {
  }

  /** Press then release of an owner with no combination in between replays the key exactly once. */
  lemma OwnerTapReplays(h: Hold, which: int)
    requires !h.comboTriggered
    ensures var h1 := Step(h, true, true, which).0;
            Step(h1, true, false, which).1 == Tap
            && Step(h1, true, false, which).0 == Hold(false, which, false, false)
  {
  }

  /** A combination during the hold makes the owner's release silent and resets the hold. */
  lemma OwnerComboReleaseSilent(h: Hold, which: int)
    requires h.pressed && h.jsdevice == which
    ensures var h1 := h.(comboTriggered := true);
            Step(h1, true, false, which).1 == SwallowRelease
            && Step(h1, true, false, which).0 == Hold(false, which, false, false)
  {
  }

  /** After any owner release the role is no longer held. */
  lemma OwnerReleaseDisarms(h: Hold, which: int)
    ensures !Step(h, true, false, which).0.pressed && Step(h, true, false, which).1 != Arm
  {
  }

  /**
   * A button that does not own the role but arrives from the controller the
   * role is held on is swallowed as well: its own binding is not sent.
   */
  lemma NonOwnerSwallowedWhileHeld(h: Hold, pressed: bool)
    requires h.pressed
    ensures Step(h, false, pressed, h.jsdevice).1 == Arm
  {
  }

  /** A non-owner button on a controller where the role is not held passes its binding through on a press. */
  lemma NonOwnerPressForwards(h: Hold, which: int)
    requires !(h.pressed && h.jsdevice == which)
    ensures Step(h, false, true, which) == (h, Forward)
  {
  }
}

=== FILE: runtime.dfy ===
/**
 * The running program: the global `config` and `state` records, the
 * text-input arrays of keyboard.cpp, the repeat-timer slot and the trace
 * written to the virtual device, updated in place. Every method is proved
 * to leave the object in the world the value-level model computes, so the
 * properties proved there carry over.
 */
module Runtime {
  import opened Codes
  import opened Structs
  import opened Events
  import opened Wrappers
  import opened KeyboardSetup
  import opened Machine
  import opened ConfigFile
  import opened Input
  import opened Analog
  import opened Interactive
  import opened Dispatch

  class Gptokeyb {
    var config: Config
    const modes: Modes
    const resolve: string -> int
    const toLower: char -> char
    const toUpper: char -> char

    var state: State
    var sdl: Sdl
    var out: seq<OutEvent>
    var killed: bool

    var maxKeys: int
    const characterSet: array<int>
    const characterSetShift: array<bool>
    const currentKey: array<int>
    var currentCharacter: int

    /** What the handlers read but never change. */
    function Environment(): Env
      reads this
    {
      Env(config, modes, resolve, toLower, toUpper)
    }

    /** The text-input globals as a value. */
    function Kb(): Keyboard
      reads this, characterSet, characterSetShift, currentKey
    {
      Keyboard(maxKeys, characterSet[..], characterSetShift[..], currentKey[..], currentCharacter)
    }

    /** The whole program state as a value of the model. */
    function View(): World
      reads this, characterSet, characterSetShift, currentKey
    {
      World(state, sdl, Kb(), out, killed)
    }

    /** The arrays have their declared sizes and the two integer arrays are distinct. */
    ghost predicate ArraysOk()
      reads this
    {
      && characterSet.Length == MaxKeysWithSymbols
      && characterSetShift.Length == MaxKeysWithSymbols
      && currentKey.Length == MaxChars
      && characterSet != currentKey
    }

    ghost predicate Valid()
      reads this, characterSet, characterSetShift, currentKey
    {
      ArraysOk() && config.Valid() && WorldOk(View())
    }

    /** Program start: the default configuration and state, zeroed tables, no timer, nothing written. */
    constructor (modes: Modes, resolve: string -> int, toLower: char -> char, toUpper: char -> char)
      ensures Valid()
      ensures this.modes == modes && this.resolve == resolve && this.toLower == toLower && this.toUpper == toUpper
      ensures config == DefaultConfig()
      ensures View() == World(InitialState(), NoTimers, ZeroKeyboard(), [], false)
    {
      this.modes := modes;
      this.resolve := resolve;
      this.toLower := toLower;
      this.toUpper := toUpper;
      config := DefaultConfig();
      state := InitialState();
      sdl := NoTimers;
      out := [];
      killed := false;
      maxKeys := MaxKeysNoExtendedSymbols;
      characterSet := new int[MaxKeysWithSymbols](_ => 0);
      characterSetShift := new bool[MaxKeysWithSymbols](_ => false);
      currentKey := new int[MaxChars](_ => 0);
      currentCharacter := 0;
      new;
      assert Kb() == ZeroKeyboard();
    }

    /** Stores a world of the model in the object. */
    method Load(w: World)
      requires ArraysOk() && config.Valid() && WorldOk(w)
      modifies this, characterSet, characterSetShift, currentKey
      ensures Valid() && View() == w
      ensures config == old(config)
    {
      state := w.state;
      sdl := w.sdl;
      out := w.out;
      killed := w.killed;
      maxKeys := w.kb.maxKeys;
      currentCharacter := w.kb.currentCharacter;
      forall i | 0 <= i < MaxKeysWithSymbols {
        characterSet[i] := w.kb.characterSet[i];
      }
      forall i | 0 <= i < MaxKeysWithSymbols {
        characterSetShift[i] := w.kb.characterSetShift[i];
      }
      forall i | 0 <= i < MaxChars {
        currentKey[i] := w.kb.currentKey[i];
      }
      assert characterSet[..] == w.kb.characterSet;
      assert characterSetShift[..] == w.kb.characterSetShift;
      assert currentKey[..] == w.kb.currentKey;
    }

    // -------------------------------------------------------------------
    // Configuration and keyboard setup

    /** readConfigFile: the parsed options applied to the configuration in order. */
    method ReadConfigFile(opts: seq<ConfigOption>)
      requires Valid()
      modifies this
      ensures Valid()
      ensures config == ApplyOptions(old(config), opts, resolve)
      ensures View() == old(View())
    {
      for i := 0 to |opts|
        invariant config.Valid()
        invariant config == ApplyOptions(old(config), opts[..i], resolve)
        invariant View() == old(View())
      {
        assert opts[..i + 1][..i] == opts[..i];
        config := ApplyOption(config, opts[i], resolve);
      }
      assert opts[..|opts|] == opts;
    }

    /** initialiseCharacters: the first position on a capital unless auto-capitals are off, every other on lower-case a. */
    method InitialiseCharacters()
      requires Valid()
      modifies currentKey
      ensures Valid()
      ensures View() == old(View()).(kb := Machine.InitialiseCharacters(old(Kb()), modes.noAutoCapitals))
    {
      currentKey[0] := if modes.noAutoCapitals then FirstLowerCase else 0;
      for ii := 1 to MaxChars
        invariant currentKey[..ii] == InitialSelections(modes.noAutoCapitals)[..ii]
      {
        currentKey[ii] := FirstLowerCase;
      }
      assert currentKey[..] == InitialSelections(modes.noAutoCapitals);
    }

    /** Entries lo..hi-1 of both tables loaded from the character names and their shifts. */
    method LoadCharacters(lo: int, hi: int, tokens: seq<string>, shifts: seq<bool>)
      requires ArraysOk() && |tokens| == |shifts| == MaxKeysWithSymbols && 0 <= lo <= hi <= MaxKeysWithSymbols
      modifies characterSet, characterSetShift
      ensures forall j :: lo <= j < hi ==> characterSet[j] == resolve(tokens[j]) && characterSetShift[j] == shifts[j]
      ensures forall j :: 0 <= j < lo ==> characterSet[j] == old(characterSet[j]) && characterSetShift[j] == old(characterSetShift[j])
      ensures forall j :: hi <= j < MaxKeysWithSymbols ==>
                characterSet[j] == old(characterSet[j]) && characterSetShift[j] == old(characterSetShift[j])
    {
      for ii := lo to hi
        invariant forall j :: lo <= j < ii ==> characterSet[j] == resolve(tokens[j]) && characterSetShift[j] == shifts[j]
        invariant forall j :: 0 <= j < lo ==> characterSet[j] == old(characterSet[j]) && characterSetShift[j] == old(characterSetShift[j])
        invariant forall j :: ii <= j < MaxKeysWithSymbols ==>
                    characterSet[j] == old(characterSet[j]) && characterSetShift[j] == old(characterSetShift[j])
      {
        characterSet[ii] := resolve(tokens[ii]);
        characterSetShift[ii] := shifts[ii];
      }
    }

    /** The table-loading part of initialiseCharacterSet: the basic keys, then the extra symbols and table size when enabled. */
    method LoadCharacterSet()
      requires ArraysOk() && KeyboardOk(Kb()) && ResolverOk(resolve)
      modifies this, characterSet, characterSetShift
      ensures ArraysOk() && Kb() == LoadTables(old(Kb()), resolve, modes.extraSymbols)
      ensures config == old(config) && state == old(state) && sdl == old(sdl) && out == old(out) && killed == old(killed)
    {
      ghost var kb0 := Kb();
      TableSizes();
      LoadCharacters(0, MaxKeysNoExtendedSymbols, CharTokens, CharShifts);
      if modes.extraSymbols {
        maxKeys := MaxKeysWithSymbols;
        LoadCharacters(MaxKeysNoExtendedSymbols, MaxKeysWithSymbols, CharTokens, CharShifts);
      }
      assert characterSet[..] == LoadedCharacterSet(kb0.characterSet, resolve, modes.extraSymbols);
      assert characterSetShift[..] == LoadedShifts(kb0.characterSetShift, modes.extraSymbols);
    }

    /** initialiseCharacterSet: the tables loaded, then the initial selections. */
    method InitialiseCharacterSet()
      requires Valid() && ResolverOk(resolve)
      modifies this, characterSet, characterSetShift, currentKey
      ensures Valid() && config == old(config)
      ensures View() == old(View()).(kb := KeyboardSetup.InitialiseCharacterSet(old(Kb()), resolve, modes.extraSymbols,
                                                                         modes.noAutoCapitals))
    {
      LoadCharacterSet();
      InitialiseCharacters();
    }

    // -------------------------------------------------------------------
    // Emission

    /** Writes events to the virtual device. */
    method Emit(evs: seq<OutEvent>)
      modifies this
      ensures View() == Machine.Emit(old(View()), evs)
      ensures out == old(out) + evs && config == old(config)
    {
      out := out + evs;
    }

    /** emitMouseMotion of the motion held in the state, as the main loop does after each batch. */
    method EmitMouseMotion()
      requires Valid()
      modifies this
      ensures Valid() && config == old(config)
      ensures View() == FlushMouse(old(View()))
    {
      if state.mouseX != 0 || state.mouseY != 0 {
        Emit(MouseEvents(state.mouseX, state.mouseY));
      }
    }

    /**
     * processKeys: the preset text typed up to its NUL, each character with
     * its key and shift.
     */
    method ProcessKeys()
      requires Valid() && config.textInputPreset.Some?
      modifies this
      ensures Valid() && config == old(config)
      ensures View() == Machine.ProcessKeys(old(View()), Environment(), config.textInputPreset.value)
    {
      var env := Environment();
      var text := config.textInputPreset.value;
      var typed := CString(text);
      var lenText := |typed|;
      var evs: seq<OutEvent> := [];
      for ii := 0 to lenText
        invariant evs == PresetEvents(env, typed[..ii])
        modifies {}
      {
        var key := CharKey(env, text[ii]);
        assert typed[ii] == text[ii];
        PresetEventsStep(env, typed, ii);
        evs := evs + TextKeyEvents(key.0, key.1);
      }
      assert typed[..lenText] == typed;
      Emit(evs);
    }

    /** handleAnalogTrigger: a press on the rising edge, a release on the falling edge, then the latch follows the level. */
    method HandleAnalogTrigger(isTriggered: bool, latch: Latch, key: int, modifier: int)
      requires Valid()
      modifies this
      ensures Valid() && config == old(config)
      ensures View() == LatchStep(old(View()), latch, isTriggered, key, modifier)
    {
      ghost var after := LatchStep(View(), latch, isTriggered, key, modifier);
      var wasTriggered := latch in state.latches;
      if isTriggered && !wasTriggered {
        Emit(KeyEvents(key, true, modifier));
      } else if !isTriggered && wasTriggered {
        Emit(KeyEvents(key, false, modifier));
      }
      state := state.(latches := if isTriggered then state.latches + {latch} else state.latches - {latch});
      assert View() == after;
    }

    // -------------------------------------------------------------------
    // The repeat slot

    /** The shared body of setKeyRepeat and setInputRepeat. */
    method SetRepeat(code: int, pressed: bool, firstInterval: int, callback: Callback)
      requires Valid()
      modifies this
      ensures Valid() && config == old(config)
      ensures View() == Machine.SetRepeat(old(View()), code, pressed, firstInterval, callback)
    {
      if pressed {
        state := state.(keyToRepeat := code, keyRepeatTimerId := sdl.nextId);
        sdl := AddTimer(sdl, firstInterval, callback);
      } else {
        sdl := RemoveTimer(sdl, state.keyRepeatTimerId);
        state := state.(keyRepeatTimerId := 0, keyToRepeat := 0);
      }
    }

    /** setKeyRepeat: the key-repeat callback, first after the repeat delay. */
    method SetKeyRepeat(code: int, pressed: bool)
      requires Valid()
      modifies this
      ensures Valid() && config == old(config)
      ensures View() == Machine.SetKeyRepeat(old(View()), config, code, pressed)
    {
      SetRepeat(code, pressed, config.keyRepeatDelay, KeyRepeatCallback);
    }

    /** setInputRepeat: the text-input callback, first after the repeat interval. */
    method SetInputRepeat(code: int, pressed: bool)
      requires Valid()
      modifies this
      ensures Valid() && config == old(config)
      ensures View() == Machine.SetInputRepeat(old(View()), config, code, pressed)
    {
      SetRepeat(code, pressed, config.keyRepeatInterval, InputRepeatCallback);
    }

    // -------------------------------------------------------------------
    // Interactive text entry

    /** addTextInputCharacter: the key selected at the cursor, with its shift. */
    method AddTextInputCharacter()
      requires Valid() && currentCharacter < MaxChars
      modifies this
      ensures Valid() && config == old(config)
      ensures View() == AddChar(old(View()))
    {
      Emit(TextKeyEvents(characterSet[currentKey[currentCharacter]], characterSetShift[currentKey[currentCharacter]]));
    }

    /** nextTextInputKey: delete, step the selection forward (wrapping, skipping space at the first position), type. */
    method NextTextInputKey(single: bool)
      requires Valid() && currentCharacter < MaxChars
      modifies this, currentKey
      ensures Valid() && config == old(config)
      ensures View() == Machine.NextTextInputKey(old(View()), single)
    {
      Emit(BackspaceEvents);
      var k := currentKey[currentCharacter] + Step(single);
      if k >= maxKeys {
        k := k - maxKeys;
      } else if currentCharacter == 0 && characterSet[k] == KEY_SPACE {
        k := k + 1;
      }
      assert k == NextSelection(Kb(), single);
      currentKey[currentCharacter] := k;
      assert Kb() == WithSelection(old(Kb()), k);
      AddTextInputCharacter();
    }

    /** prevTextInputKey: delete, step the selection back (wrapping, skipping space at the first position), type. */
    method PrevTextInputKey(single: bool)
      requires Valid() && currentCharacter < MaxChars
      modifies this, currentKey
      ensures Valid() && config == old(config)
      ensures View() == Machine.PrevTextInputKey(old(View()), single)
    {
      Emit(BackspaceEvents);
      var k := currentKey[currentCharacter] - Step(single);
      if k < 0 {
        k := k + maxKeys;
      } else if currentCharacter == 0 && characterSet[k] == KEY_SPACE {
        k := k - 1;
      }
      assert k == PrevSelection(Kb(), single);
      currentKey[currentCharacter] := k;
      assert Kb() == WithSelection(old(Kb()), k);
      AddTextInputCharacter();
    }

    /**
     * The backspaces of a cancel: a round for every position up to the
     * cursor, two per round for a space under the cursor with the Exult
     * adjustment.
     */
    method CancelBackspaces() returns (evs: seq<OutEvent>)
      requires ArraysOk() && Selectable(Kb())
      ensures evs == CancelEvents(currentCharacter + 1, DoubleBackspace(Kb(), modes.appExultAdjust))
    {
      var double := characterSet[currentKey[currentCharacter]] == KEY_SPACE && modes.appExultAdjust;
      assert double == DoubleBackspace(Kb(), modes.appExultAdjust);
      evs := [];
      for ii := 0 to currentCharacter + 1
        invariant evs == CancelEvents(ii, double)
      {
        evs := evs + BackspaceEvents;
        if double {
          evs := evs + BackspaceEvents;
        }
      }
    }

    /** l3 and back while entry is active: the backspaces, every selection reset, and entry ended. */
    method CancelEntry()
      requires Valid() && state.textInputInteractiveModeActive
      modifies this, currentKey
      ensures Valid() && config == old(config)
      ensures View() == Cancel(old(View()), Environment())
    {
      var evs := CancelBackspaces();
      Emit(evs);
      InitialiseCharacters();
      state := state.(textInputInteractiveModeActive := false);
    }

    // -------------------------------------------------------------------
    // Timer, events and the main loop

    /**
     * The armed timer fires: repeatKeyCallback types the slot key again,
     * repeatInputCallback moves the selection for up and down and cancels
     * itself for any other key.
     */
    method Tick()
      requires Valid() && CanTick(View())
      modifies this, currentKey
      ensures Valid() && config == old(config)
      ensures View() == Machine.Tick(old(View()), Environment())
    {
      var t := sdl.timer.value;
      var key := state.keyToRepeat;
      match t.callback
      case KeyRepeatCallback =>
        Emit(KeyEvents(key, false, 0) + KeyEvents(key, true, 0));
        sdl := sdl.(timer := Rearm(t, config.keyRepeatInterval));
      case InputRepeatCallback =>
        if key == KEY_UP {
          PrevTextInputKey(true);
          sdl := sdl.(timer := Rearm(t, config.keyRepeatInterval));
        } else if key == KEY_DOWN {
          NextTextInputKey(true);
          sdl := sdl.(timer := Rearm(t, config.keyRepeatInterval));
        } else {
          sdl := sdl.(timer := None);
        }
    }

    /** handleEvent: the state after one SDL event; false only for quit. */
    method HandleEvent(ev: InputEvent) returns (running: bool)
      requires Valid() && MouseScaleSet(Environment())
      modifies this, characterSet, characterSetShift, currentKey
      ensures Valid() && config == old(config)
      ensures View() == Dispatch.HandleEvent(old(View()), old(Environment()), ev).0
      ensures running == Dispatch.HandleEvent(old(View()), old(Environment()), ev).1
    {
      AnyEventOk(Environment(), ev);
      var r := Dispatch.HandleEvent(View(), Environment(), ev);
      Load(r.0);
      running := r.1;
    }

    /**
     * The main loop's inner loop while the mouse moves: the pending events
     * handled in order until quit (a kill ends the process).
     */
    method PollEvents(pending: seq<InputEvent>) returns (running: bool)
      requires Valid() && MouseScaleSet(Environment())
      modifies this, characterSet, characterSetShift, currentKey
      ensures Valid() && config == old(config)
      ensures View() == HandleEvents(old(View()), old(Environment()), pending).0
      ensures running == HandleEvents(old(View()), old(Environment()), pending).1
    {
      ghost var env := Environment();
      ghost var w0 := View();
      running := true;
      var i := 0;
      while running && !killed && i < |pending|
        invariant Valid() && config == old(config) && Environment() == env
        invariant 0 <= i <= |pending|
        invariant running ==> HandleEvents(w0, env, pending) == HandleEvents(View(), env, pending[i..])
        invariant !running ==> HandleEvents(w0, env, pending) == (View(), false)
        decreases |pending| - i
      {
        assert pending[i..][1..] == pending[i + 1..];
        running := HandleEvent(pending[i]);
        i := i + 1;
      }
      if killed {
        running := false;
      }
    }

    /**
     * One pass of the main loop. While the mouse moves: poll every pending
     * event, then write the motion. Otherwise: wait for one event.
     */
    method MainLoopPass(pending: seq<InputEvent>) returns (running: bool)
      requires Valid() && MouseScaleSet(Environment()) && !killed
      requires state.mouseX == 0 && state.mouseY == 0 ==> pending != []
      modifies this, characterSet, characterSetShift, currentKey
      ensures Valid() && config == old(config)
      ensures old(state.mouseX != 0 || state.mouseY != 0) ==>
                var r := HandleEvents(old(View()), old(Environment()), pending);
                View() == (if r.0.killed then r.0 else FlushMouse(r.0)) && running == r.1
      ensures old(state.mouseX == 0 && state.mouseY == 0) ==>
                var r := Dispatch.HandleEvent(old(View()), old(Environment()), pending[0]);
                View() == r.0 && running == (r.1 && !r.0.killed)
    {
      if state.mouseX != 0 || state.mouseY != 0 {
        running := PollEvents(pending);
        if !killed {
          EmitMouseMotion();
        }
      } else {
        running := HandleEvent(pending[0]);
        running := running && !killed;
      }
    }
  }
}

=== FILE: structs.dfy ===
/**
 * The remapper's two records: the mapping configuration (GptokeybConfig)
 * with its built-in defaults, and the runtime state (GptokeybState) with
 * its initial values.
 *
 * The configuration's per-control fields (`a`, `a_repeat`, `a_modifier`,
 * `a_hk`, `a_hk_modifier`, ...) are grouped by control: `primary[c]` holds
 * a control's key, modifier and repeat flag, and `combo[c]` its hotkey
 * combination key and modifier for the eight controls that have one.
 */
module Structs {
  import opened Codes
  import opened Wrappers

  /** Every remappable control that has a binding in the configuration. */
  datatype Control =
    | Back | Start | Guide
    | A | B | X | Y
    | L1 | L2 | L3 | R1 | R2 | R3
    | Up | Down | Left | Right
    | LeftAnalogUp | LeftAnalogDown | LeftAnalogLeft | LeftAnalogRight
    | RightAnalogUp | RightAnalogDown | RightAnalogLeft | RightAnalogRight

  const AllControls: set<Control> :=
    {Back, Start, Guide, A, B, X, Y, L1, L2, L3, R1, R2, R3, Up, Down, Left, Right,
     LeftAnalogUp, LeftAnalogDown, LeftAnalogLeft, LeftAnalogRight,
     RightAnalogUp, RightAnalogDown, RightAnalogLeft, RightAnalogRight}

  lemma AllControlsComplete(c: Control)
    ensures c in AllControls
  {
  }

  /** Controls that have a `_hk` binding. */
  predicate HasCombo(c: Control)
  {
    c == A || c == B || c == X || c == Y || c == L1 || c == L2 || c == R1 || c == R2
  }

  /** Buttons whose `_hk` combination is resolved on the button event itself (the triggers use a latch instead). */
  predicate IsComboButton(c: Control)
  {
    c == A || c == B || c == X || c == Y || c == L1 || c == R1
  }

  /** A primary action: key (or mouse button) code, held modifier (0 for none) and auto-repeat flag. */
  datatype Binding = Binding(key: int, modifier: int, repeat: bool)

  /** A hotkey-combination action: key code and held modifier. */
  datatype Combo = Combo(key: int, modifier: int)

  datatype Config = Config(
    primary: map<Control, Binding>,
    combo: map<Control, Combo>,
    leftAnalogAsMouse: bool,
    rightAnalogAsMouse: bool,
    deadzoneY: int,
    deadzoneX: int,
    deadzoneTriggers: int,
    fakeMouseScale: int,
    fakeMouseDelay: int,
    keyRepeatInterval: int,   // Uint32 in the source
    keyRepeatDelay: int,      // Uint32 in the source
    textInputPreset: Option<string>)
  {
    /** Every control has a primary binding and every combo-capable control has a combo binding. */
    ghost predicate Valid()
    {
      (forall c :: c in primary) && (forall c :: HasCombo(c) ==> c in combo)
    }
  }

  /** The default primary key of each control. */
  function DefaultKey(c: Control): int
  {
    match c
    case Back => KEY_ESC
    case Start => KEY_ENTER
    case Guide => KEY_ENTER
    case A => KEY_X
    case B => KEY_Z
    case X => KEY_C
    case Y => KEY_A
    case L1 => KEY_RIGHTSHIFT
    case L2 => KEY_HOME
    case L3 => BTN_LEFT
    case R1 => KEY_LEFTSHIFT
    case R2 => KEY_END
    case R3 => BTN_RIGHT
    case Up => KEY_UP
    case Down => KEY_DOWN
    case Left => KEY_LEFT
    case Right => KEY_RIGHT
    case LeftAnalogUp => KEY_W
    case LeftAnalogDown => KEY_S
    case LeftAnalogLeft => KEY_A
    case LeftAnalogRight => KEY_D
    case RightAnalogUp => KEY_END
    case RightAnalogDown => KEY_HOME
    case RightAnalogLeft => KEY_LEFT
    case RightAnalogRight => KEY_RIGHT
  }

  /** The default `_hk` key of each combo-capable control. */
  function DefaultComboKey(c: Control): int
    requires HasCombo(c)
  {
    match c
    case A => KEY_ENTER
    case B => KEY_ESC
    case X => KEY_C
    case Y => KEY_A
    case L1 => KEY_ESC
    case L2 => KEY_HOME
    case R1 => KEY_ENTER
    case R2 => KEY_END
  }

  const ComboControls: set<Control> := {A, B, X, Y, L1, L2, R1, R2}

  /** The default primary bindings: every control bound to its default key, with no modifier and no repeat. */
  function DefaultPrimary(): (m: map<Control, Binding>)
    ensures forall c :: c in m && m[c] == Binding(DefaultKey(c), 0, false)
  {
    var m := map c | c in AllControls :: Binding(DefaultKey(c), 0, false);
    forall c: Control ensures c in m {
      AllControlsComplete(c);
    }
    m
  }

  /** The configuration a GptokeybConfig holds before any mapping file is read. */
  function DefaultConfig(): (cfg: Config)
    ensures cfg.Valid()
    ensures forall c :: cfg.primary[c].key == DefaultKey(c) && cfg.primary[c].modifier == 0 && !cfg.primary[c].repeat
    ensures forall c :: HasCombo(c) ==> cfg.combo[c] == Combo(DefaultComboKey(c), 0)
    ensures !cfg.leftAnalogAsMouse && !cfg.rightAnalogAsMouse
    ensures cfg.deadzoneX == 15000 && cfg.deadzoneY == 15000 && cfg.deadzoneTriggers == 3000
    ensures cfg.fakeMouseScale == 512 && cfg.fakeMouseDelay == 16
    ensures cfg.keyRepeatDelay == SDL_DEFAULT_REPEAT_DELAY && cfg.keyRepeatInterval == 2 * SDL_DEFAULT_REPEAT_INTERVAL
    ensures cfg.textInputPreset.None?
  {
    Config(
      DefaultPrimary(),
      map c | c in ComboControls :: Combo(DefaultComboKey(c), 0),
      false, false,
      15000, 15000, 3000,
      512, 16,
      SDL_DEFAULT_REPEAT_INTERVAL * 2, SDL_DEFAULT_REPEAT_DELAY,
      None)
  }

  /** The twelve level latches driven by handleAnalogTrigger: eight stick directions and the plain and `_hk` trigger latches. */
  datatype Latch =
    | LeftUp | LeftDown | LeftLeft | LeftRight
    | RightUp | RightDown | RightLeft | RightRight
    | L2Plain | R2Plain | L2Combo | R2Combo

  /**
   * GptokeybState. The `*_analog_was_*`, `l2_was_pressed`, `r2_was_pressed`,
   * `l2_hk_was_pressed` and `r2_hk_was_pressed` flags are the members of
   * `latches`; the `a/b/x/y/l1/r1_hk_was_pressed` flags are the members of
   * `comboHeld`.
   */
  datatype State = State(
    hotkeyJsdevice: int,
    startJsdevice: int,
    textInputInteractiveTriggerJsdevice: int,
    textInputPresetTriggerJsdevice: int,
    textInputConfirmTriggerJsdevice: int,
    mouseX: int,
    mouseY: int,
    currentLeftAnalogX: int,
    currentLeftAnalogY: int,
    currentRightAnalogX: int,
    currentRightAnalogY: int,
    currentL2: int,
    currentR2: int,
    hotkeyPressed: bool,
    hotkeyWasPressed: bool,
    startPressed: bool,
    startWasPressed: bool,
    textInputInteractiveModeActive: bool,
    textInputInteractiveTriggerPressed: bool,
    textInputPresetTriggerPressed: bool,
    textInputConfirmTriggerPressed: bool,
    latches: set<Latch>,
    comboHeld: set<Control>,
    hotkeyComboTriggered: bool,
    startComboTriggered: bool,
    keyToRepeat: int,
    keyRepeatTimerId: int)

  /** Every flag of the state is clear. */
  predicate AllFlagsClear(s: State)
  {
    && !s.hotkeyPressed && !s.hotkeyWasPressed && !s.startPressed && !s.startWasPressed
    && !s.textInputInteractiveModeActive && !s.textInputInteractiveTriggerPressed
    && !s.textInputPresetTriggerPressed && !s.textInputConfirmTriggerPressed
    && s.latches == {} && s.comboHeld == {}
    && !s.hotkeyComboTriggered && !s.startComboTriggered
  }

  /** The global GptokeybState at program start (a zero-initialised global). */
  function InitialState(): (s: State)
    ensures AllFlagsClear(s)
    ensures s.mouseX == 0 && s.mouseY == 0
    ensures s.currentLeftAnalogX == 0 && s.currentLeftAnalogY == 0
    ensures s.currentRightAnalogX == 0 && s.currentRightAnalogY == 0
    ensures s.currentL2 == 0 && s.currentR2 == 0
    ensures s.keyToRepeat == 0 && s.keyRepeatTimerId == 0
  {
    State(0, 0, 0, 0, 0,
          0, 0,
          0, 0, 0, 0,
          0, 0,
          false, false, false, false,
          false, false, false, false,
          {}, {},
          false, false,
          0, 0)
  }
}

=== FILE: wrappers.dfy ===
/** The optional value used for nullable pointers and for the timer slot. */
module Wrappers {
  datatype Option<+T> = None | Some(value: T)
}

=== FILE: xbox.dfy ===
/**
 * Xbox 360 mode: the controller is passed through as a virtual gamepad.
 * Buttons become the gamepad's BTN_* keys, the d-pad its hat axes, the
 * sticks its absolute axes and the triggers the 0..255 Z axes. The hotkey
 * and start are still tracked so that the kill combination works.
 */
module Xbox {
  import opened Codes
  import opened Structs
  import opened Events
  import opened Axis
  import opened Machine
  import opened Combos
  import opened Input

  /** The gamepad key of a button; the d-pad and unknown buttons have none. */
  function GamepadKey(button: Button): (r: int)
    ensures r != 0 <==> button !in {DpadUp, DpadDown, DpadLeft, DpadRight, OtherButton}
  {
    match button
    case ButtonA => BTN_A
    case ButtonB => BTN_B
    case ButtonX => BTN_X
    case ButtonY => BTN_Y
    case LeftShoulder => BTN_TL
    case RightShoulder => BTN_TR
    case LeftStick => BTN_THUMBL
    case RightStick => BTN_THUMBR
    case ButtonBack => BTN_SELECT
    case ButtonGuide => BTN_MODE
    case ButtonStart => BTN_START
    case _ => 0
  }

  /** The events a button sends: its gamepad key, or for the d-pad a hat position (-1, 1, or 0 on release). */
  function GamepadButtonEvents(button: Button, pressed: bool): (r: seq<OutEvent>)
    ensures button in {DpadUp, DpadDown} ==> r == AxisEvents(ABS_HAT0Y, if !pressed then 0 else if button == DpadUp then -1 else 1)
    ensures button in {DpadLeft, DpadRight} ==> r == AxisEvents(ABS_HAT0X, if !pressed then 0 else if button == DpadLeft then -1 else 1)
    ensures button == OtherButton ==> r == []
    ensures GamepadKey(button) != 0 ==> r == KeyEvents(GamepadKey(button), pressed, 0)
  {
    match button
    case DpadUp => AxisEvents(ABS_HAT0Y, if pressed then -1 else 0)
    case DpadDown => AxisEvents(ABS_HAT0Y, if pressed then 1 else 0)
    case DpadLeft => AxisEvents(ABS_HAT0X, if pressed then -1 else 0)
    case DpadRight => AxisEvents(ABS_HAT0X, if pressed then 1 else 0)
    case OtherButton => []
    case _ => KeyEvents(GamepadKey(button), pressed, 0)
  }

  /** l3 is the hotkey in this mode only when it is named as the hotkey override. */
  predicate L3IsHotkey(m: Modes)
  {
    m.killMode && m.hotkeyOverride && m.hotkeyCode == "l3"
  }

  /** back is the hotkey without an override or when named, except under the EmuELEC override. */
  predicate BackIsHotkey(m: Modes)
  {
    !m.emuelecOverride && ((m.killMode && !m.hotkeyOverride) || (m.killMode && m.hotkeyOverride && m.hotkeyCode == "back"))
  }

  /** guide is the hotkey without an override or when named. */
  predicate GuideIsHotkey(m: Modes)
  {
    (m.killMode && !m.hotkeyOverride) || (m.killMode && m.hotkeyOverride && m.hotkeyCode == "guide")
  }

  /** start is tracked in kill mode and in both text-input modes. */
  predicate StartTracked(m: Modes)
  {
    m.killMode || m.textInputPresetMode || m.textInputInteractiveMode
  }

  /** The button plays the hotkey role in this mode. */
  predicate PlaysHotkey(m: Modes, button: Button)
  {
    (button == LeftStick && L3IsHotkey(m)) || (button == ButtonBack && BackIsHotkey(m))
    || (button == ButtonGuide && GuideIsHotkey(m))
  }

  /**
   * Which buttons play the hotkey: only in kill mode; with an override just
   * the one it names; without one back and guide (back not under EmuELEC).
   */
  lemma HotkeyRoles(m: Modes, button: Button)
    ensures PlaysHotkey(m, button) ==> m.killMode
    ensures m.hotkeyOverride ==>
              (PlaysHotkey(m, button) <==>
                 (m.killMode && ((button == LeftStick && m.hotkeyCode == "l3")
                                 || (button == ButtonBack && m.hotkeyCode == "back" && !m.emuelecOverride)
                                 || (button == ButtonGuide && m.hotkeyCode == "guide"))))
    ensures !m.hotkeyOverride ==>
              (PlaysHotkey(m, button) <==>
                 (m.killMode && ((button == ButtonBack && !m.emuelecOverride) || button == ButtonGuide)))
  {
  }

  /** The hotkey and start levels after a button event: the role's level and controller follow the button. */
  function TrackRoles(s: State, m: Modes, button: Button, pressed: bool, which: int): (r: State)
    ensures PlaysHotkey(m, button) ==> r == s.(hotkeyPressed := pressed, hotkeyJsdevice := which)
    ensures button == ButtonStart && StartTracked(m) ==> r == s.(startPressed := pressed, startJsdevice := which)
    ensures !PlaysHotkey(m, button) && !(button == ButtonStart && StartTracked(m)) ==> r == s
    ensures r.textInputInteractiveModeActive == s.textInputInteractiveModeActive
  {
    if PlaysHotkey(m, button) then s.(hotkeyPressed := pressed, hotkeyJsdevice := which)
    else if button == ButtonStart && StartTracked(m) then s.(startPressed := pressed, startJsdevice := which)
    else s
  }

  /** A button event in Xbox 360 mode: the gamepad events, the roles, then the kill check (which leaves the timer alone). */
  function GamepadButton(w: World, env: Env, button: Button, pressed: bool, which: int): (r: World)
    ensures var s := TrackRoles(w.state, env.modes, button, pressed, which);
            var killing := KillHeld(s, env.modes);
            && r.out == w.out + GamepadButtonEvents(button, pressed) + (if killing && env.modes.pcKillMode then AltF4Events else [])
            && (r.killed <==> w.killed || (killing && s.startJsdevice == s.hotkeyJsdevice))
            && r.state == s
    ensures r.sdl == w.sdl && r.kb == w.kb
    ensures WorldOk(w) ==> WorldOk(r)
    ensures r.state.textInputInteractiveModeActive == w.state.textInputInteractiveModeActive
  {
    var w1 := Emit(w, GamepadButtonEvents(button, pressed)).(state := TrackRoles(w.state, env.modes, button, pressed, which));
    if KillHeld(w1.state, env.modes) then Kill(w1, env, false) else w1
  }

  /** Outside kill mode and the text-input modes a button is forwarded and nothing else happens. */
  lemma PureGamepadOutsideKillMode(w: World, env: Env, button: Button, pressed: bool, which: int)
    requires !env.modes.killMode && !env.modes.textInputPresetMode && !env.modes.textInputInteractiveMode
    ensures GamepadButton(w, env, button, pressed, which) == Emit(w, GamepadButtonEvents(button, pressed))
  {
  }

  /** The absolute axis a controller axis is forwarded to. */
  function GamepadAxisCode(axis: AxisId): int
  {
    match axis
    case LeftX => ABS_X
    case LeftY => ABS_Y
    case RightX => ABS_RX
    case RightY => ABS_RY
    case TriggerLeft => ABS_Z
    case TriggerRight => ABS_RZ
  }

  /** The value forwarded for an axis: a stick's as it is, a trigger's 0..32767 scaled to 0..255 by a 7-bit shift. */
  function GamepadAxisValue(axis: AxisId, value: int): (v: int)
    ensures axis in {LeftX, LeftY, RightX, RightY} ==> v == value
    ensures axis in {TriggerLeft, TriggerRight} ==> v * 128 <= value < v * 128 + 128
    ensures axis in {TriggerLeft, TriggerRight} && 0 <= value <= 32767 ==> 0 <= v <= 255
  {
    if axis in {TriggerLeft, TriggerRight} then TriggerScale(value) else value
  }

  /** An axis event in Xbox 360 mode: one absolute-axis event, nothing else changes. */
  function GamepadAxis(w: World, axis: AxisId, value: int): (r: World)
    ensures r.out == w.out + [Abs(GamepadAxisCode(axis), GamepadAxisValue(axis, value)), Syn]
    ensures r.state == w.state && r.sdl == w.sdl && r.kb == w.kb && r.killed == w.killed
  {
    Emit(w, AxisEvents(GamepadAxisCode(axis), GamepadAxisValue(axis, value)))
  }

  /** The forwarded axes are distinct, so the virtual gamepad can tell every controller axis apart. */
  lemma GamepadAxesDistinct(a: AxisId, b: AxisId)
    requires a != b
    ensures GamepadAxisCode(a) != GamepadAxisCode(b)
  {
  }
}
